=== FILE: README.md ===
# Batched no-local-memory GEMM, views, meta helpers and extension dispatch — a Dafny model

This project models the integer index and dispatch logic of the batched,
no-local-memory, partially vectorised GEMM kernel of the SYCL BLAS
library, and proves properties about it. It also models three supporting layers:

- the `VectorView`/`MatrixView` value types;
- the small helpers of `blas_meta.h`;
- the extension-operator dispatch layer (`_matcopy`, `_transpose`, `_omatadd`,
  `_reduction`).

The model treats matrix entries as exact `real`s and sizes as unbounded
integers. C++ truncating division is written out as `Arith.TruncDiv` wherever
a dividend can be negative.

Modules, one per concern:

- `Arith` holds truncating division, quotient/remainder uniqueness, and the
  interleaving bijection used by the register layout.
- `Meta` models `blas_meta.h`: `is_power_of_2`, the bit-smearing
  `get_power_of_two`, `roundUp`, `concatenate_vectors`, `Choose`, the layouts
  and `unsupported_exception`.
- `Views` models `view.hpp`: the constructors, getters and the default layout.
- `GemmTiling` covers launch sizing, and the decoding of a group id and local
  id into a batch slice, a tile and a position in the tile. It also holds the
  output element of every register and the partition and exactly-once
  theorems.
- `GemmKernel` models what one work item does, as methods:
  - `scaling_c`, `load`, `compute_block_gemm_no_shared` and `store`;
  - the k loop and the grid-stride batch `do … while`;
  - `eval`.

  Its end-to-end contract: every element an item stores is
  `alpha·op(A)·op(B) + beta·C` for its batch, and the item stores exactly the
  elements it owns.
- `Extension` models the dispatch decisions of the extension layer. A kernel
  launch is a `Dispatch` record and an event is the sequence of dispatches.

Work items are modelled as independent pure computations. Each returns its
stores as a map from batch and register to an address/value pair. The
exact-partition lemmas (`GemmTiling.OwnerExists`, `GemmTiling.OwnerUnique`)
show that these maps never overlap and together cover C.

## Model

| member | source | states |
|---|---|---|
| Meta.IsColMajor | onemath/sycl/blas/include/blas_meta.h:49-54 | `is_col_major()` is true exactly for `col_major` and false exactly for `row_major` |
| Meta.Choose | onemath/sycl/blas/include/blas_meta.h:92-100 | `Choose<c, a, b>` yields `a` when `c` holds and `b` otherwise |
| Meta.IsPowerOf2Iff | onemath/sycl/blas/include/blas_meta.h:121-124 | the bit test `x > 0 && (x & (x-1)) == 0` holds iff `x` is `2^e` for some `e` |
| Meta.GetPowerOfTwoUp | onemath/sycl/blas/include/blas_meta.h:126-142 | for `1 <= w <= 2^62`, rounding up by bit smearing gives a power of two `>= w` that is below or equal to every power of two `>= w` (the least one) |
| Meta.GetPowerOfTwoDown | onemath/sycl/blas/include/blas_meta.h:126-142 | for `1 <= w < 2^63`, rounding down gives a power of two `<= w` that is at least every power of two `<= w` (the greatest one) |
| Meta.GetPowerOfTwoNonPositive | onemath/sycl/blas/include/blas_meta.h:126-142 | a non-positive width yields 0 in both directions: for every 64-bit `w <= 0` when rounding down, and for every `w <= 0` above the least 64-bit value (where `--wGSize` overflows) when rounding up |
| Meta.RoundUpSpec | onemath/sycl/blas/include/blas_meta.h:153-156 | `roundUp(x, y)` is a multiple of `y` with `x <= roundUp(x, y) < x + y` |
| Meta.RoundUpIdempotent | onemath/sycl/blas/include/blas_meta.h:153-156 | rounding an already rounded value changes nothing |
| Meta.ConcatenateVectorsSpec | onemath/sycl/blas/include/blas_meta.h:158-180 | the result is the first vector followed by the others in argument order; its length is the sum of the lengths |
| Meta.MakeUnsupported | onemath/sycl/blas/include/blas_meta.h:223-233 | the message is the operator name followed by the fixed "not supported" suffix, and the base error carries the bare name |
| Meta.UnsupportedMessageRoundTrip | onemath/sycl/blas/include/blas_meta.h:223-233 | stripping the suffix from `what()` gives back the operator name, so distinct operators give distinct messages |
| Views.MakeVectorView | onemath/sycl/blas/src/views/view.hpp:41-46 | the view keeps data, size and stride; the start pointer is `data` for a positive stride, else `data + (size-1)·(-stride)` |
| Views.VectorFootprint | onemath/sycl/blas/src/views/view.hpp:41-46 | every logical element lies in `[data, data + (size-1)·abs(stride)]`, and the element walked first (positive stride) or last (otherwise) sits exactly at `data` |
| Views.ReViewVectorKeepsData | onemath/sycl/blas/src/views/view.hpp:51-56 | re-viewing equals building a fresh view over the old view's container |
| Views.VectorGetters | onemath/sycl/blas/src/views/view.hpp:61-101 | `get_data`, `get_size` and `get_stride` return the constructor arguments; `get_pointer` returns the container, which differs from the stored start pointer for a negative stride |
| Views.MatrixView3 | onemath/sycl/blas/src/views/view.hpp:109-118 | the leading dimension defaults to `rows` for column-major and `cols` for row-major, with increment 1 |
| Views.MatrixView4 | onemath/sycl/blas/src/views/view.hpp:128-133 | stores the given leading dimension with increment 1 |
| Views.MatrixView5 | onemath/sycl/blas/src/views/view.hpp:135-144 | callable only under `(has_inc && inc != 1) \|\| (!has_inc && inc == 1)`; stores the given sizes and increment, so the view has an increment exactly when it is not 1 |
| Views.ReViewMatrix | onemath/sycl/blas/src/views/view.hpp:155-159 | keeps the container and layout, replaces the sizes, leaves the increment unset |
| Views.MatrixGetters | onemath/sycl/blas/src/views/view.hpp:161-217 | the row, column and leading-dimension getters return the stored sizes; `get_size` is `rows·cols`; data and pointer are the container |
| Views.DenseDefaultLayout | onemath/sycl/blas/src/views/view.hpp:109-118 | with the default leading dimension every element offset lies in `[0, get_size())` |
| Views.DenseDefaultLayoutInjective | onemath/sycl/blas/src/views/view.hpp:109-118 | with the default leading dimension, distinct elements have distinct offsets |
| Views.DenseDefaultLayoutOnto | onemath/sycl/blas/src/views/view.hpp:109-118 | with the default leading dimension, every offset below `get_size()` is reached by some element |
| Views.ShortConstructorsIncrement | onemath/sycl/blas/src/views/view.hpp:109-144 | the three- and four-argument constructors give increment 1, which the five-argument precondition rejects for a view with an increment |
| GemmTiling.TileShape | onemath/sycl/blas/src/operations/blas3/gemm_no_local_partial_vec.hpp:84-102 | under the static assertions the tile is square, its side is a multiple of the packet size, and items times registers equals the tile area |
| GemmTiling.ScaledBeta | onemath/sycl/blas/src/operations/blas3/gemm_no_local_partial_vec.hpp:120-131 | the stored `beta_` times `alpha` gives back `beta` (needs `alpha != 0`) |
| GemmTiling.BlocksPerRow | onemath/sycl/blas/src/operations/blas3/gemm_no_local_partial_vec.hpp:151-154 | `(m-1)/block_rows + 1` is the least tile count covering `m` rows when `m >= 1`; for `m == 0` it is 1, or 0 when `block_rows == 1` |
| GemmTiling.BlocksPerCol | onemath/sycl/blas/src/operations/blas3/gemm_no_local_partial_vec.hpp:151-154 | `(n-1)/block_cols + 1` is the least tile count covering `n` columns when `n >= 1`; for `n == 0` it is 1, or 0 when `block_cols == 1` |
| GemmTiling.WorkgroupClusterIsTileCount | onemath/sycl/blas/src/operations/blas3/gemm_no_local_partial_vec.hpp:151-154 | for `m, n >= 1` the cluster is `ceil(m/block_rows)·ceil(n/block_cols) >= 1` |
| GemmTiling.WorkgroupClusterNoRows | onemath/sycl/blas/src/operations/blas3/gemm_no_local_partial_vec.hpp:151-154 | with `m == 0` the cluster is 0 when `block_rows == 1`, else the column tile count |
| GemmTiling.NumWorkgroupCluster | onemath/sycl/blas/src/operations/blas3/gemm_no_local_partial_vec.hpp:162-168 | with at least one compute unit, the replication count is the least count that makes `cluster·count >= 4·compute_units` |
| GemmTiling.NumWorkgroupClusterBounds | onemath/sycl/blas/src/operations/blas3/gemm_no_local_partial_vec.hpp:162-168 | the count is at least 1, reaches `4·compute_units` groups, and one fewer copy would not |
| GemmTiling.GetNdRange | onemath/sycl/blas/src/operations/blas3/gemm_no_local_partial_vec.hpp:170-177 | the local size is `wg_rows·wg_cols`, and the global size is a whole number of groups, `cluster·num_cluster` of them |
| GemmTiling.Locate | onemath/sycl/blas/src/operations/blas3/gemm_no_local_partial_vec.hpp:187-260 | the group id splits as `wg_batch·cluster + wg_id`; tile row/col are `wg_id mod/div blocks_per_row`; on an internal tile the A packet width is `packet_size` when A is not transposed and the B width is `packet_size` when B is transposed, and every other width is 1; `out_of_range` is the item's first element outside C |
| GemmTiling.TileGrid | onemath/sycl/blas/src/operations/blas3/gemm_no_local_partial_vec.hpp:213-226 | `wg_id -> (wg_id % bpr, wg_id / bpr)` is a bijection from `[0, cluster)` onto the tile grid |
| GemmTiling.InternalBlockIff | onemath/sycl/blas/src/operations/blas3/gemm_no_local_partial_vec.hpp:232-233 | `is_internal_block` holds iff the whole tile lies inside `m x n` |
| GemmTiling.SlotInTile | onemath/sycl/blas/src/operations/blas3/gemm_no_local_partial_vec.hpp:241-260 | row register `j` lies at tile row `Interleave(item % wg_rows, j, ap, wg_rows)` past the tile origin, and column register `i` at tile column `Interleave(item / wg_rows, i, bp, wg_cols)` |
| GemmTiling.TileSlotRange | onemath/sycl/blas/src/operations/blas3/gemm_no_local_partial_vec.hpp:241-245 | those offsets stay inside `[0, block_rows) x [0, block_cols)` |
| GemmTiling.TileSlotInjective | onemath/sycl/blas/src/operations/blas3/gemm_no_local_partial_vec.hpp:241-245 | no two (item, register) pairs of a tile address the same element |
| GemmTiling.TileSlotOnto | onemath/sycl/blas/src/operations/blas3/gemm_no_local_partial_vec.hpp:241-245 | every element of the tile is addressed by some (item, register) |
| GemmTiling.BatchOwner | onemath/sycl/blas/src/operations/blas3/gemm_no_local_partial_vec.hpp:362-413 | a group processes batch `b` iff `b < batch_size` and `b` is congruent to its first batch modulo the stride |
| GemmTiling.BatchStrideOfLaunch | onemath/sycl/blas/src/operations/blas3/gemm_no_local_partial_vec.hpp:196-203 | in the launch the batch stride is the replication count and each group's first batch is below it |
| GemmTiling.GroupShared | onemath/sycl/blas/src/operations/blas3/gemm_no_local_partial_vec.hpp:196-226 | all items of a group agree on the batch start, batch stride, tile, tile origin and packet widths; only the item's own position differs |
| GemmTiling.GroupFromParts | onemath/sycl/blas/src/operations/blas3/gemm_no_local_partial_vec.hpp:196-226 | groups with the same first batch and tile are the same group |
| GemmTiling.ElementTile | onemath/sycl/blas/src/operations/blas3/gemm_no_local_partial_vec.hpp:224-260 | the element of register `(i, j)` lies in the item's own tile, at the interleaved in-tile offset |
| GemmTiling.TileOwner | onemath/sycl/blas/src/operations/blas3/gemm_no_local_partial_vec.hpp:196-226 | each (batch residue, tile) pair is owned by some launched group |
| GemmTiling.OwnerExists | onemath/sycl/blas/src/operations/blas3/gemm_no_local_partial_vec.hpp:187-304 | every element of every batch `b < batch_size` is written by some (group, item, register) |
| GemmTiling.OwnerUnique | onemath/sycl/blas/src/operations/blas3/gemm_no_local_partial_vec.hpp:187-304 | that (group, item, register) is unique: no element of any batch is written twice |
| GemmTiling.SlotIndex | onemath/sycl/blas/src/operations/blas3/gemm_no_local_partial_vec.hpp:324-326 | the flat index `i·item_rows + j` lies in `[0, item_rows·item_cols)` and division and remainder by `item_rows` give back `(i, j)`, so distinct registers use distinct slots |
| GemmKernel.CheckIsLive | onemath/sycl/blas/src/operations/blas3/gemm_no_local_partial_vec.hpp:322-323 | for an in-range item, the boundary test at `dim + j·wg_rows, dim + i·wg_cols` holds iff register `(i, j)`'s element is inside C (or the block is internal) |
| GemmKernel.ColumnAdvance | onemath/sycl/blas/src/operations/blas3/gemm_no_local_partial_vec.hpp:329-331 | the C pointer advance after column register `i` moves to the column of register `i + 1` |
| GemmKernel.ComputeBlock | onemath/sycl/blas/src/operations/blas3/gemm_no_local_partial_vec.hpp:493-503 | each accumulator `(i, j)` gains exactly `reg_a[j]·reg_b[i]` |
| GemmKernel.ComputeBlockColumn | onemath/sycl/blas/src/operations/blas3/gemm_no_local_partial_vec.hpp:499-500 | the inner loop for one column register adds `reg_a[j]·reg_b[i]` to every row register `j` of that column, and to nothing else |
| GemmKernel.Load | onemath/sycl/blas/src/operations/blas3/gemm_no_local_partial_vec.hpp:452-484 | an out-of-range item leaves the registers alone; otherwise register `s` holds element `s % w` of packet `s / w`, or 0 when the packet's last index fails the boundary check |
| GemmKernel.ScalingC | onemath/sycl/blas/src/operations/blas3/gemm_no_local_partial_vec.hpp:308-345 | with `is_beta_zero` every accumulator is 0; otherwise each live register holds `(beta/alpha)·C` of its own element and the others keep their prior contents |
| GemmKernel.ScaleLive | onemath/sycl/blas/src/operations/blas3/gemm_no_local_partial_vec.hpp:318-331 | for an in-range item without `is_beta_zero`, each live register holds `(beta/alpha)·C` of its own element and every other register keeps its prior contents |
| GemmKernel.ScalingCColumn | onemath/sycl/blas/src/operations/blas3/gemm_no_local_partial_vec.hpp:321-328 | one column of the scaling loop, stated per register as in `ScalingC` |
| GemmKernel.StorePacket | onemath/sycl/blas/src/operations/blas3/gemm_no_local_partial_vec.hpp:559-570 | the packet store writes `alpha·reg` for exactly the packet's registers, each at its own element |
| GemmKernel.PacketLive | onemath/sycl/blas/src/operations/blas3/gemm_no_local_partial_vec.hpp:556-558 | testing a packet's first row decides liveness for every register of the packet |
| GemmKernel.Store | onemath/sycl/blas/src/operations/blas3/gemm_no_local_partial_vec.hpp:542-577 | the stores are exactly the live registers, each `alpha·reg[i][j]` at the same element `scaling_c` read |
| GemmKernel.StoreColumn | onemath/sycl/blas/src/operations/blas3/gemm_no_local_partial_vec.hpp:554-576 | one column of `store`, stated per register as in `Store` |
| GemmKernel.StoreColumnPacket | onemath/sycl/blas/src/operations/blas3/gemm_no_local_partial_vec.hpp:556-571 | one pass of the inner store loop extends the column's stores from the live registers below packet `jp` to those below packet `jp + 1`, adding each with `alpha·reg` at its element of C and nothing else |
| GemmKernel.ALoadAddress | onemath/sycl/blas/src/operations/blas3/gemm_no_local_partial_vec.hpp:258-283 | the address `load` reads for row register `j` at step `kk` is `op(A)[row_j, kk]`, and its boundary check is `row_j < m` |
| GemmKernel.BLoadAddress | onemath/sycl/blas/src/operations/blas3/gemm_no_local_partial_vec.hpp:258-283 | the address read for column register `i` at step `kk` is `op(B)[kk, col_i]`, and its boundary check is `col_i < n` |
| GemmKernel.LoadOperands | onemath/sycl/blas/src/operations/blas3/gemm_no_local_partial_vec.hpp:376-385 | after both loads, every register whose element is inside C holds the right `op(A)` / `op(B)` value for step `kk` |
| GemmKernel.CAddrOfSlot | onemath/sycl/blas/src/operations/blas3/gemm_no_local_partial_vec.hpp:260 | the item's C pointer plus register `(i, j)`'s offset is `C[row_j, col_i]` of the batch |
| GemmKernel.CAddrInjective | onemath/sycl/blas/src/operations/blas3/gemm_no_local_partial_vec.hpp:260 | with `ldc >= m`, distinct elements of one batch of C lie at distinct addresses, so the items' stores never overwrite one another |
| GemmKernel.AccumulateStep | onemath/sycl/blas/src/operations/blas3/gemm_no_local_partial_vec.hpp:372-399 | one k step extends every live accumulator's partial dot product by one term |
| GemmKernel.KLoop | onemath/sycl/blas/src/operations/blas3/gemm_no_local_partial_vec.hpp:372-399 | after the loop each live accumulator is its initial value plus `sum_k op(A)[r,k]·op(B)[k,c]` |
| GemmKernel.KStep | onemath/sycl/blas/src/operations/blas3/gemm_no_local_partial_vec.hpp:372-398 | one pass of the k loop takes accumulators holding the first `kk` terms of each live register's dot product to ones holding the first `kk + 1` |
| GemmKernel.FinalValue | onemath/sycl/blas/src/operations/blas3/gemm_no_local_partial_vec.hpp:311-326 | `alpha·((beta/alpha)·C + dot)` stored at the register's element is `beta·C + alpha·dot` |
| GemmKernel.ComputeBatch | onemath/sycl/blas/src/operations/blas3/gemm_no_local_partial_vec.hpp:362-405 | one pass of the do-while stores exactly the live registers, each with `beta·C + alpha·op(A)·op(B)` |
| GemmKernel.NextBatch | onemath/sycl/blas/src/operations/blas3/gemm_no_local_partial_vec.hpp:407-413 | advancing by the stride adds exactly the current batch to the processed set |
| GemmKernel.ComputePanel | onemath/sycl/blas/src/operations/blas3/gemm_no_local_partial_vec.hpp:351-414 | the batch loop stores for exactly the batches `wg_batch + t·stride < batch_size`, each with the final values |
| GemmKernel.LiveIff | onemath/sycl/blas/src/operations/blas3/gemm_no_local_partial_vec.hpp:232-249 | a register is stored iff its element is inside C, on both the internal and the boundary path |
| GemmKernel.Eval | onemath/sycl/blas/src/operations/blas3/gemm_no_local_partial_vec.hpp:187-304 | a work item stores to register `(i, j)` of batch `b` iff it owns that element; every store is `alpha·op(A)·op(B) + beta·C` at that element's address |
| Extension.NumLineElems | src/interface/extension_interface.hpp:63-64 | `max(T, cl/sizeof)`: at least a tile and at least a cache line's worth, and one of the two |
| Extension.NumTilesPerLine | src/interface/extension_interface.hpp:65 | the number of whole tiles in a line, at least 1 |
| Extension.TransposeLaunch | src/interface/extension_interface.hpp:72-89 | local size `wg_size`; global size `n_wg·wg_size`; scratch requested exactly with local memory, and then large enough for a tile |
| Extension.TileGroupsCover | src/interface/extension_interface.hpp:73 | for `M, N >= 1` the tile counts per side are `ceil(M/T)` and `ceil(N/T)`, and the row-major tile index of every element `(r, c)` is below `n_wg` |
| Extension.LocalMemHoldsTile | src/interface/extension_interface.hpp:82-83 | scratch is at least `T·T`; it is `T·T + T/tiles_per_line` for whole-tile lines and `(T+1)·T` when a line is one tile |
| Extension.TransposeOutplaceImpl | src/interface/extension_interface.hpp:56-90 | one transpose dispatch over `M x N` unit-increment views, passing the strides and alpha through, with the tile launch |
| Extension.TransposeAddImpl | src/interface/extension_interface.hpp:147-185 | one transpose-add dispatch over the given operand shapes and an `M x N` C, with the tile launch |
| Extension.MatCopyImpl | src/interface/extension_interface.hpp:95-141 | transposing: out-of-place goes to the transpose kernel and in-place issues nothing; otherwise one copy that scales by alpha, and is a plain assignment iff alpha is 1 |
| Extension.MatCopy | src/interface/extension_interface.hpp:315-338 | nothing is dispatched iff a leading dimension is too small for its strided columns (output columns of `n` when transposing, `m` otherwise) or it is an in-place transpose; else it routes on `trans == 't'` |
| Extension.MatCopyNoAliasing | src/interface/extension_interface.hpp:322-327 | whenever `_matcopy` dispatches with positive increments, no two elements of the source, or of the destination, share memory |
| Extension.TransposeOp | src/interface/extension_interface.hpp:369-385 | nothing is dispatched iff `ld_a < m`, `ld_b < n` or in-place; otherwise a transpose with unit scale and unit increments |
| Extension.TransposeIsUnitMatCopy | src/interface/extension_interface.hpp:369-385 | `_transpose` equals `_matcopy` with `'t'`, alpha 1 and unit increments, for all inputs |
| Extension.OperandShape | src/interface/extension_interface.hpp:208-209 | the stored shape of an operand whose value is `m x n` after optional transposition |
| Extension.BShapeAsWrittenMismatch | src/interface/extension_interface.hpp:210-211 | the B shape as written equals the stored shape iff `m == n` |
| Extension.OmatAddImplAsWritten | src/interface/extension_interface.hpp:200-218 | the transposed specialisation as written hands the kernel a B view of the as-written shape |
| Extension.OmatAddAsWrittenMisshapesB | src/interface/extension_interface.hpp:208-217 | with `m = 2, n = 3` and only A transposed, the as-written dispatch's summands differ from the requested ones |
| Extension.OmatAddAsWritten | src/interface/extension_interface.hpp:340-367 | `_omatadd`'s routing over the as-written specialisation: a transposing dispatch iff either flag is `'t'`, whose second operand (B, or A after the swap) gets the as-written shape |
| Extension.OmatAddAsWrittenIff | src/interface/extension_interface.hpp:200-218 | on every transposing path, the swapped `('n', 't')` one included, the as-written dispatch equals the corrected one exactly when `m == n` |
| Extension.OmatAddImpl | src/interface/extension_interface.hpp:200-237 | transposed first operand: a transpose-add dispatch with stored shapes; no transposition: `C = alpha·A + beta·B` over `m x n` views |
| Extension.OmatAdd | src/interface/extension_interface.hpp:340-367 | one dispatch; the transposing kernel is used iff either flag is `'t'`, and it is told both are transposed iff both are |
| Extension.OmatAddComputesRequested | src/interface/extension_interface.hpp:340-367 | for every flag combination the dispatched summands are exactly the requested `(scale, matrix, ld, transposed, stored shape)` pairs, and C is the `m x n` output; the swap only reorders them |
| Extension.SecondStepOp | src/interface/extension_interface.hpp:43-51 | the mean operator combines partial results with addition; every other operator combines with itself |
| Extension.ParamsFor | src/interface/extension_interface.hpp:249-260 | cache line 32 / work group 64 on PowerVR, else 64 / 256; 64 reductions per thread |
| Extension.LaunchReduction | src/interface/extension_interface.hpp:243-313 | one step iff the group count is at most 1; the first step reduces the input with the operator, the last writes the output, and a two-step plan passes through the temporary with the second-step operator |
| Extension.ReductionPlan | src/interface/extension_interface.hpp:262-312 | the steps chain input to output; the output is `rows x 1` (outer) or `1 x cols` (inner); the temporary is `rows x groups` or `groups x cols`, exactly the allocated size |
| Extension.Reduction | src/interface/extension_interface.hpp:387-403 | dispatches on the dimension: the event equals `launch_type_based_reduction` for that dimension, and every step uses that dimension's reduction parameters |
| Extension.ReductionEventOrder | src/interface/extension_interface.hpp:292-309 | with more than one group, the returned event is exactly the execution of the first step (operator `op`, input view into the temporary view) followed by that of the second step (the second-step operator, temporary view into the output view) |

## Left out

- Integer widths: `index_t` is modelled as an unbounded integer, so overflow of
  sizes, offsets and `group·cluster` products is not modelled. `get_power_of_two`
  is the exception: it is stated for 64-bit inputs, and its right shift is
  arithmetic.
- Floating point: entries are exact reals. This leaves out FMA rounding,
  NaN/inf, and the exactness of `alpha == 1` and `beta / alpha`.
- The non-beta-zero path requires `alpha != 0`, because the constructor divides
  `beta / alpha` unguarded.
- Concurrency: each work item is a separate pure computation. Its C reads see
  the memory as it was before the launch. This is sound when `ldc >= m`, which
  the BLAS interface demands of its callers and the source does not check:
  `GemmTiling.OwnerUnique` shows no two items touch the same element of a
  batch, and `GemmKernel.CAddrInjective` shows that under `ldc >= m` distinct
  elements of a batch have distinct addresses. With `ldc < m` two elements
  share an address, the stored values depend on the order of the writes, and
  `GemmKernel.Eval`'s values are not promised. A and B are read from the same pre-launch memory, which is sound only
  when neither overlaps C, as the BLAS interface assumes of its operands; the
  model relies on that assumption and does not state it. Overlap between
  different batches through the batch strides is not modelled.
- `get_workgroup_cluster() == 0`: this happens when `m == 0` with
  `block_rows == 1`, or `n == 0` with `block_cols == 1`. The source then
  divides by zero in `get_num_workgroup_cluster` and `eval`. The launch and
  `eval` contracts require a positive cluster; the zero case itself is stated
  by `GemmTiling.WorkgroupClusterNoRows`.
- Uninitialised registers: `reg_a`, `reg_b` and the fresh `reg_res` of each batch
  are parameters, and one initial `reg_res` is used for every batch. The
  contracts show their contents never reach C.
- `reg_res` layout: the flat `reg_res` array is modelled as a two-dimensional
  sequence `reg[i][j]`. `GemmTiling.SlotIndex` shows `i·item_rows + j` is a
  bijection, so nothing is lost.
- Packet loads and stores (`Packetize`, `multi_ptr` address spaces): a packet
  is modelled as a run of consecutive elements.
- The two `store_packet` overloads are not called by `store` and are not
  modelled separately. `store`'s own packet store is `GemmKernel.StorePacket`.
- `a_size`, `b_size` and `c_size` are computed and passed along but never used.
  They are not modelled.
- Not modelled: `bind`, `adjust_access_displacement`, `get_type_string`,
  `valid_thread` and `Gemm::get_size`. These are runtime plumbing, string
  building, a constant `true`, and a product of two getters.
- The extension kernels (`make_transpose`, `make_transpose_add`,
  `make_reduction`, `make_op`) are opaque dispatch records.
- `sb_handle.execute` is modelled as producing a one-element event.
- `make_matrix_view` and `make_sycl_iterator_buffer` are not part of this model.
  A five-argument view is built with `has_inc` exactly when the increment is
  not 1, which satisfies the constructor's precondition. The temporary buffer
  is an address parameter.
- The backend's choice of transpose constants (tile size, work-group size,
  cache-line size, local memory, element size) is a configuration parameter.
- Both `ReductionParams::calculate_reduced_group_count` and the `POWER_VR`
  build flag are parameters.
- The set of reduction operators is abstracted to add, mean and "other".
- The in-place `_matcopy` transpose is unimplemented in the source and issues
  nothing; the model does the same.
- `Extension.MatCopyNoAliasing` is stated for positive increments only; with a
  zero or negative increment the columns of a view may overlap whatever the
  leading dimension.
- `Meta.GetPowerOfTwoUp` is stated for `w <= 2^62`: above that the next power
  of two does not fit in 64 bits.
- `Meta.ConcatenateVectors`: the variadic template is modelled as a first
  vector plus a sequence of further vectors.
- Extension.OmatAdd: routes through the corrected `Extension.OmatAddImpl`,
  not the source's specialisation, so on the transposing paths its
  second operand has the stored shape and not the shape line 211 builds.
  The as-written routing is `Extension.OmatAddAsWritten` (see Findings).
- Extension.OmatAddImpl: uses `b_cols = trans_b ? m : n`, the corrected
  column count, where the source at line 211 has `trans_b ? n : m`.
- Complex-element paths and compile-time type traits are not modelled.

## Findings

| source | as written | input that shows it | evidently intended | confidence | as-written member | corrected member |
|---|---|---|---|---|---|---|
| src/interface/extension_interface.hpp:211 | `b_cols = trans_b ? n : m` repeats the choice made for `b_rows`, unlike `a_cols = trans_a ? m : n` | `_omatadd('t', 'n', m = 2, n = 3, …)`: B is stored `2 x 3` but its view is built `2 x 2` | `b_cols = trans_b ? m : n`, so that B's view has its stored shape | medium, not executed; the opaque transpose-add kernel may never read B's column count | Extension.OmatAddImplAsWritten, Extension.OmatAddAsWritten, Extension.OmatAddAsWrittenMisshapesB, Extension.OmatAddAsWrittenIff | Extension.OmatAddImpl, Extension.OmatAddComputesRequested |

=== FILE: arith.dfy ===
/** Integer facts shared by the kernel model: C++ truncating division, the
    uniqueness of Euclidean quotient and remainder, and the index bijections
    that the tiling relies on. */
module Arith {

  /** C++ signed division `a / d` for a positive divisor: the quotient is
      truncated toward zero, so a negative dividend rounds up, not down. */
  function TruncDiv(a: int, d: int): (q: int)
    requires d > 0
    ensures a >= 0 ==> 0 <= q && q * d <= a < q * d + d
    ensures a < 0 ==> q <= 0 && q * d - d < a <= q * d
  {
    if a >= 0 then a / d else -((-a) / d)
  }

  /** The least number of `d`-sized blocks that cover `a` items. */
  ghost predicate IsCeilDiv(a: int, d: int, q: int)
  {
    (q - 1) * d < a <= q * d
  }

  lemma MulNonNeg(a: int, b: int)
    requires a >= 0 && b >= 0
    ensures a * b >= 0
  {
  }

  lemma MulMonoLeft(a: int, b: int, c: int)
    requires a <= b && c >= 0
    ensures a * c <= b * c
  {
    MulNonNeg(b - a, c);
    assert b * c - a * c == (b - a) * c;
  }

  lemma MulStrictLeft(a: int, b: int, c: int)
    requires a < b && c > 0
    ensures a * c + c <= b * c
  {
    MulMonoLeft(a + 1, b, c);
    assert (a + 1) * c == a * c + c;
  }

  /** Regrouping a product of four factors. */
  lemma MulSwapMiddle(a: int, b: int, c: int, d: int)
    ensures (a * b) * (c * d) == (a * c) * (b * d)
  {
    calc {
      (a * b) * (c * d);
      a * (b * (c * d));
      { assert b * (c * d) == (b * c) * d; }
      a * ((b * c) * d);
      { assert b * c == c * b; }
      a * ((c * b) * d);
      { assert (c * b) * d == c * (b * d); }
      a * (c * (b * d));
      (a * c) * (b * d);
    }
  }

  /** Euclidean division splits `x` into quotient and remainder. */
  lemma DivModSplit(x: int, d: int)
    requires d > 0
    ensures x == (x / d) * d + x % d && 0 <= x % d < d
  {
  }

  /** Quotient and remainder are determined by any decomposition
      `x == q * d + r` with `0 <= r < d`. */
  lemma DivModUnique(x: int, d: int, q: int, r: int)
    requires d > 0 && 0 <= r < d && x == q * d + r
    ensures x / d == q && x % d == r
  {
    var q', r' := x / d, x % d;
    assert x == q' * d + r';
    if q' < q {
      MulStrictLeft(q', q, d);
      assert false;
    } else if q < q' {
      MulStrictLeft(q, q', d);
      assert false;
    }
  }

  /** Quotient and remainder together determine the dividend. */
  lemma SameQuotientRemainder(x: int, y: int, d: int)
    requires d > 0 && x / d == y / d && x % d == y % d
    ensures x == y
  {
    assert x == (x / d) * d + x % d;
    assert y == (y / d) * d + y % d;
  }

  /** For `m >= 1`, the C++ expression `(m - 1) / d + 1` is the ceiling of `m / d`. */
  lemma TruncCeil(m: int, d: int)
    requires d > 0 && m >= 1
    ensures IsCeilDiv(m, d, TruncDiv(m - 1, d) + 1)
    ensures TruncDiv(m - 1, d) + 1 >= 1
  {
    var q := TruncDiv(m - 1, d);
    assert (q + 1) * d == q * d + d;
  }

  /** For `m == 0`, `(m - 1) / d + 1` is one when `d > 1` (truncation rounds
      -1/d to 0) but zero when `d == 1`. */
  lemma TruncCeilZero(d: int)
    requires d > 0
    ensures d > 1 ==> TruncDiv(-1, d) + 1 == 1
    ensures d == 1 ==> TruncDiv(-1, d) + 1 == 0
  {
  }

  /** The row (or column) offset, inside one tile, of register slot `j` of the
      work item at position `a` in its work-group dimension, when packets of
      `p` consecutive elements are interleaved across `w` work items. */
  function Interleave(a: int, j: int, p: int, w: int): int
    requires p > 0
  {
    a * p + (j / p) * w * p + j % p
  }

  /** The interleaving maps `[0, w) x [0, n)` into `[0, w * n)` ... */
  lemma InterleaveRange(a: int, j: int, p: int, w: int, n: int)
    requires p > 0 && w > 0 && n > 0 && n % p == 0
    requires 0 <= a < w && 0 <= j < n
    ensures 0 <= Interleave(a, j, p, w) < w * n
  {
    var q, t, np := j / p, j % p, n / p;
    DivModSplit(j, p);
    DivModSplit(n, p);
    QuotientBelow(j, p, np);
    InterleaveSplit(a, q, t, p, w);
    SlotBelow(q, a, w, np);
    SlotBelow(q * w + a, t, p, np * w);
    Regroup(np, w, p);
  }

  /** `np * w * p` is `w` copies of `np * p`. */
  lemma Regroup(np: int, w: int, p: int)
    ensures np * w * p == w * (np * p)
  {
  }

  /** ... injectively ... */
  lemma InterleaveInjective(a1: int, j1: int, a2: int, j2: int, p: int, w: int)
    requires p > 0 && w > 0
    requires 0 <= a1 < w && 0 <= a2 < w && j1 >= 0 && j2 >= 0
    requires Interleave(a1, j1, p, w) == Interleave(a2, j2, p, w)
    ensures a1 == a2 && j1 == j2
  {
    var x := Interleave(a1, j1, p, w);
    var u1 := (j1 / p) * w + a1;
    var u2 := (j2 / p) * w + a2;
    assert x == u1 * p + j1 % p;
    assert x == u2 * p + j2 % p;
    DivModUnique(x, p, u1, j1 % p);
    DivModUnique(x, p, u2, j2 % p);
    DivModUnique(u1, w, j1 / p, a1);
    DivModUnique(u2, w, j2 / p, a2);
    assert j1 == (j1 / p) * p + j1 % p;
    assert j2 == (j2 / p) * p + j2 % p;
  }

  /** The work-item position owning tile offset `x`. */
  function DeinterleaveItem(x: int, p: int, w: int): int
    requires p > 0 && w > 0
  {
    (x / p) % w
  }

  /** The register slot holding tile offset `x`. */
  function DeinterleaveSlot(x: int, p: int, w: int): int
    requires p > 0 && w > 0
  {
    ((x / p) / w) * p + x % p
  }

  /** ... and onto: every offset of `[0, w * n)` is reached. */
  lemma InterleaveOnto(x: int, p: int, w: int, n: int)
    requires p > 0 && w > 0 && n > 0 && n % p == 0
    requires 0 <= x < w * n
    ensures 0 <= DeinterleaveItem(x, p, w) < w
    ensures 0 <= DeinterleaveSlot(x, p, w) < n
    ensures Interleave(DeinterleaveItem(x, p, w), DeinterleaveSlot(x, p, w), p, w) == x
  {
    var t, u, np := x % p, x / p, n / p;
    var a, q := u % w, u / w;
    DivModSplit(x, p);
    DivModSplit(u, w);
    DivModSplit(n, p);
    Regroup(np, w, p);
    QuotientBelow(x, p, np * w);
    QuotientBelow(u, w, np);
    SlotBelow(q, t, p, np);
    InterleaveSplit(a, q, t, p, w);
  }

  /** `x < b * d` bounds the quotient: `x / d < b`. */
  lemma QuotientBelow(x: int, d: int, b: int)
    requires d > 0 && 0 <= x < b * d
    ensures 0 <= x / d < b
  {
    if x / d >= b {
      MulMonoLeft(b, x / d, d);
      assert false;
    }
  }

  lemma SlotBelow(q: int, t: int, p: int, np: int)
    requires p > 0 && 0 <= q < np && 0 <= t < p
    ensures 0 <= q * p + t < np * p
  {
    MulNonNeg(q, p);
    MulStrictLeft(q, np, p);
  }

  lemma InterleaveSplit(a: int, q: int, t: int, p: int, w: int)
    requires p > 0 && w > 0 && 0 <= t < p && q >= 0
    ensures Interleave(a, q * p + t, p, w) == (q * w + a) * p + t
  {
    MulNonNeg(q, p);
    DivModUnique(q * p + t, p, q, t);
    assert (q * w + a) * p == q * w * p + a * p;
  }
}

=== FILE: extension.dfy ===
/** The extension-operator dispatch layer: leading-dimension validation,
    operand routing for matrix copy, transpose and matrix add, the launch
    geometry of the transpose kernels, and the one- or two-step reduction
    plan. The kernels themselves are opaque: launching one is recorded as a
    dispatch naming the views, scalars and launch sizes it receives, and an
    event is the sequence of dispatches issued. */
module Extension {
  import opened Arith
  import opened Meta
  import opened Views

  datatype Option<T> = None | Some(value: T)

  /* ------------------------------ records ------------------------------ */

  /** Work-group size, global size and optional group-local scratch size. */
  datatype Launch = Launch(localSize: int, globalSize: int, localMem: Option<int>)

  datatype ReductionDim = Inner | Outer

  /** The binary operators a reduction can be instantiated with; only the
      mean operator is treated specially by the dispatch layer. */
  datatype Operator = AddOperator | MeanOperator | OtherOperator(name: string)

  /** The compile-time parameters of a reduction kernel. */
  datatype ReductionParams = ReductionParams(clSize: int, wgSize: int, reductionsPerThread: int, dim: ReductionDim)

  datatype Dispatch =
    | Transpose(input: MatrixView, incIn: int, output: MatrixView, incOut: int, alpha: real, launch: Launch)
    | TransposeAdd(bothTrans: bool, a: MatrixView, b: MatrixView, c: MatrixView,
                   alpha: real, beta: real, launch: Launch)
    | Assign(output: MatrixView, input: MatrixView)
    | ScaledAssign(output: MatrixView, alpha: real, input: MatrixView)
    | MatAdd(output: MatrixView, alpha: real, a: MatrixView, beta: real, b: MatrixView)
    | Reduce(op: Operator, params: ReductionParams, input: MatrixView, output: MatrixView)

  /** The event vector an operator returns: the dispatches it issued, in order. */
  type Event = seq<Dispatch>

  /** `sb_handle.execute(tree)`: one dispatch. */
  function Execute(d: Dispatch): Event
  {
    [d]
  }

  /** The compile-time choices of the transpose kernels, picked by the backend
      per device and element type: tile size, work-group size, cache-line
      size, whether group-local memory is used, and `sizeof(element_t)`. */
  datatype TransposeConfig = TransposeConfig(tileSize: int, wgSize: int, clSize: int, localMemory: bool, elemSize: int)

  predicate ValidConfig(cfg: TransposeConfig)
  {
    cfg.tileSize >= 1 && cfg.wgSize >= 1 && cfg.clSize >= 0 && cfg.elemSize >= 1
  }

  /** `make_matrix_view<col_major>(data, rows, cols, ld, inc)`: a column-major
      view carrying its increment. */
  function StridedView(data: int, rows: int, cols: int, ld: int, inc: int): MatrixView
  {
    MatrixView5(data, rows, cols, ld, inc, ColMajor, inc != 1)
  }

  /** `make_matrix_view<col_major>(data, rows, cols, ld)`: increment one. */
  function DenseView(data: int, rows: int, cols: int, ld: int): MatrixView
  {
    MatrixView4(data, rows, cols, ld, ColMajor, true)
  }

  datatype Shape = Shape(rows: int, cols: int)

  function ShapeOf(mv: MatrixView): Shape
  {
    Shape(mv.rows, mv.cols)
  }

  /* --------------------------- launch geometry --------------------------- */

  function Max(a: int, b: int): int
  {
    if a >= b then a else b
  }

  /** `num_line_elems`: a cache line's worth of elements, but at least a tile. */
  function NumLineElems(cfg: TransposeConfig): (e: int)
    requires ValidConfig(cfg)
    ensures e >= cfg.tileSize && e >= cfg.clSize / cfg.elemSize
    ensures e == cfg.tileSize || e == cfg.clSize / cfg.elemSize
  {
    Max(cfg.tileSize, cfg.clSize / cfg.elemSize)
  }

  /** `num_tiles_per_line`: the number of whole tiles in one line. */
  function NumTilesPerLine(cfg: TransposeConfig): (t: int)
    requires ValidConfig(cfg)
    ensures t >= 1
    ensures t * cfg.tileSize <= NumLineElems(cfg) < t * cfg.tileSize + cfg.tileSize
  {
    NumLineElems(cfg) / cfg.tileSize
  }

  /** `(extent - 1) / tile + 1` in C++ arithmetic. */
  function TileCount(extent: int, tile: int): int
    requires tile >= 1
  {
    TruncDiv(extent - 1, tile) + 1
  }

  /** `n_wg`: one work group per tile of the `M x N` matrix. */
  function NumTileGroups(cfg: TransposeConfig, m: int, n: int): int
    requires ValidConfig(cfg)
  {
    TileCount(m, cfg.tileSize) * TileCount(n, cfg.tileSize)
  }

  /** `local_mem`: the scratch size requested when local memory is used. */
  function LocalMem(cfg: TransposeConfig): int
    requires ValidConfig(cfg)
  {
    (NumLineElems(cfg) + 1) * cfg.tileSize / NumTilesPerLine(cfg)
  }

  /** The launch of both transpose kernels. */
  function TransposeLaunch(cfg: TransposeConfig, m: int, n: int): (l: Launch)
    requires ValidConfig(cfg)
    ensures l.localSize == cfg.wgSize
    ensures l.globalSize == NumTileGroups(cfg, m, n) * cfg.wgSize
    ensures l.localMem.Some? <==> cfg.localMemory
    ensures l.localMem.Some? ==> l.localMem.value >= cfg.tileSize * cfg.tileSize
  {
    LocalMemHoldsTile(cfg);
    var nWg := NumTileGroups(cfg, m, n);
    var globalSize := nWg * cfg.wgSize;
    if cfg.localMemory then Launch(cfg.wgSize, globalSize, Some(LocalMem(cfg)))
    else Launch(cfg.wgSize, globalSize, None)
  }

  /** An index below `extent` lies in one of the `q` tiles covering it. */
  lemma TileIndexBelow(x: int, extent: int, t: int, q: int)
    requires t >= 1 && 0 <= x < extent && IsCeilDiv(extent, t, q)
    ensures 0 <= x / t < q
  {
    var i := x / t;
    assert i * t <= x;
    if i >= q {
      MulMonoLeft(q, i, t);
      assert false;
    }
  }

  /** Row-major numbering of a `tm x tn` grid stays below `tm * tn`. */
  lemma GridIndexBelow(i: int, j: int, tm: int, tn: int)
    requires 0 <= i < tm && 0 <= j < tn
    ensures 0 <= i * tn + j < tm * tn
  {
    MulMonoLeft(i, tm - 1, tn);
    MulNonNeg(i, tn);
    assert (tm - 1) * tn + tn == tm * tn;
  }

  /** For non-empty matrices the group count is the exact number of tiles:
      each extent is covered by the least number of tiles, and every element
      `(r, c)` falls in a tile whose row-major index is below `n_wg`. */
  lemma TileGroupsCover(cfg: TransposeConfig, m: int, n: int, r: int, c: int)
    requires ValidConfig(cfg) && m >= 1 && n >= 1
    requires 0 <= r < m && 0 <= c < n
    ensures IsCeilDiv(m, cfg.tileSize, TileCount(m, cfg.tileSize))
    ensures IsCeilDiv(n, cfg.tileSize, TileCount(n, cfg.tileSize))
    ensures r / cfg.tileSize < TileCount(m, cfg.tileSize)
    ensures c / cfg.tileSize < TileCount(n, cfg.tileSize)
    ensures 0 <= (r / cfg.tileSize) * TileCount(n, cfg.tileSize) + c / cfg.tileSize < NumTileGroups(cfg, m, n)
  {
    var t := cfg.tileSize;
    TruncCeil(m, t);
    TruncCeil(n, t);
    var tm, tn := TileCount(m, t), TileCount(n, t);
    TileIndexBelow(r, m, t, tm);
    TileIndexBelow(c, n, t, tn);
    GridIndexBelow(r / t, c / t, tm, tn);
  }

  /** `(e + 1) * t / p` is at least `t * t` when a line of `e` elements
      holds `p` whole tiles of `t`. */
  lemma PaddedAtLeastTile(e: int, t: int, p: int)
    requires t >= 1 && p >= 1 && p * t <= e
    ensures (e + 1) * t / p >= t * t
  {
    var x := (e + 1) * t;
    MulMonoLeft(p * t, e, t);
    assert x >= (t * t) * p by {
      assert (p * t) * t == (t * t) * p;
      assert x == e * t + t;
    }
    var q := x / p;
    assert x == q * p + x % p;
    if q < t * t {
      MulStrictLeft(q, t * t, p);
      assert false;
    }
  }

  /** When the line is exactly `p` tiles, the padding is `t / p`. */
  lemma PaddedExact(t: int, p: int)
    requires t >= 1 && p >= 1
    ensures (p * t + 1) * t / p == t * t + t / p
  {
    var x := (p * t + 1) * t;
    assert x == (t * t + t / p) * p + t % p by {
      assert t == (t / p) * p + t % p;
      assert x == (p * t) * t + t;
      assert (p * t) * t == (t * t) * p;
      assert (t * t + t / p) * p == (t * t) * p + (t / p) * p;
    }
    DivModUnique(x, p, t * t + t / p, t % p);
  }

  /** The scratch area holds a whole `T x T` tile, padded: when the line is
      an exact number of tiles it is `T*T + T / tiles_per_line`, so one extra
      column of `T` elements when a line is a single tile. */
  lemma LocalMemHoldsTile(cfg: TransposeConfig)
    requires ValidConfig(cfg)
    ensures LocalMem(cfg) >= cfg.tileSize * cfg.tileSize
    ensures NumLineElems(cfg) % cfg.tileSize == 0 ==>
              LocalMem(cfg) == cfg.tileSize * cfg.tileSize + cfg.tileSize / NumTilesPerLine(cfg)
    ensures cfg.clSize / cfg.elemSize <= cfg.tileSize ==>
              LocalMem(cfg) == (cfg.tileSize + 1) * cfg.tileSize
  {
    var t, e, p := cfg.tileSize, NumLineElems(cfg), NumTilesPerLine(cfg);
    assert LocalMem(cfg) == (e + 1) * t / p;
    PaddedAtLeastTile(e, t, p);
    if e % t == 0 {
      assert e == p * t;
      PaddedExact(t, p);
    }
    if cfg.clSize / cfg.elemSize <= t {
      assert e == t && p == 1;
    }
  }

  /** `_transpose_outplace_impl`: column-major views with increment one over
      both buffers, the strides passed to the kernel, and one group per tile. */
  function TransposeOutplaceImpl(cfg: TransposeConfig, m: int, n: int, alpha: real,
                                 input: int, ldIn: int, incIn: int,
                                 output: int, ldOut: int, incOut: int): (ev: Event)
    requires ValidConfig(cfg)
    ensures |ev| == 1 && ev[0].Transpose?
    ensures ev[0].input == StridedView(input, m, n, ldIn, 1)
    ensures ev[0].output == StridedView(output, m, n, ldOut, 1)
    ensures ev[0].incIn == incIn && ev[0].incOut == incOut && ev[0].alpha == alpha
    ensures ev[0].launch == TransposeLaunch(cfg, m, n)
  {
    var inView := StridedView(input, m, n, ldIn, 1);
    var outView := StridedView(output, m, n, ldOut, 1);
    Execute(Transpose(inView, incIn, outView, incOut, alpha, TransposeLaunch(cfg, m, n)))
  }

  /** `_transpose_add_impl`: the same geometry over the output `M x N`. */
  function TransposeAddImpl(cfg: TransposeConfig, bothTrans: bool, m: int, n: int, alpha: real,
                            a: int, lda: int, aShape: Shape, beta: real,
                            b: int, ldb: int, bShape: Shape, c: int, ldc: int): (ev: Event)
    requires ValidConfig(cfg)
    ensures |ev| == 1 && ev[0].TransposeAdd? && ev[0].bothTrans == bothTrans
    ensures ev[0].a == StridedView(a, aShape.rows, aShape.cols, lda, 1)
    ensures ev[0].b == StridedView(b, bShape.rows, bShape.cols, ldb, 1)
    ensures ev[0].c == StridedView(c, m, n, ldc, 1)
    ensures ev[0].alpha == alpha && ev[0].beta == beta
    ensures ev[0].launch == TransposeLaunch(cfg, m, n)
  {
    var aView := StridedView(a, aShape.rows, aShape.cols, lda, 1);
    var bView := StridedView(b, bShape.rows, bShape.cols, ldb, 1);
    var cView := StridedView(c, m, n, ldc, 1);
    Execute(TransposeAdd(bothTrans, aView, bView, cView, alpha, beta, TransposeLaunch(cfg, m, n)))
  }

  /* ----------------------------- matrix copy ----------------------------- */

  /** A leading dimension leaves room for `rows` elements spaced `inc` apart. */
  predicate ColumnFits(ld: int, inc: int, rows: int)
  {
    ld >= inc * (rows - 1) + 1
  }

  /** The memory offset of element `(r, c)` of a strided column-major matrix. */
  function StridedOffset(ld: int, inc: int, r: int, c: int): int
  {
    r * inc + c * ld
  }

  /** Distinct elements of a `rows x cols` strided matrix never share memory. */
  ghost predicate LayoutInjective(ld: int, inc: int, rows: int, cols: int)
  {
    forall r1, c1, r2, c2 ::
      0 <= r1 < rows && 0 <= c1 < cols && 0 <= r2 < rows && 0 <= c2 < cols &&
      StridedOffset(ld, inc, r1, c1) == StridedOffset(ld, inc, r2, c2)
      ==> r1 == r2 && c1 == c2
  }

  /** The factor a copy dispatch multiplies by. */
  function CopyScale(d: Dispatch): real
    requires d.Assign? || d.ScaledAssign?
  {
    if d.Assign? then 1.0 else d.alpha
  }

  /** `_matcopy_impl`. The transposed out-of-place copy goes to the transpose
      kernel; the in-place transpose is not implemented and issues nothing;
      the plain copy is an assignment, scaled only when `alpha` is not one. */
  function MatCopyImpl(cfg: TransposeConfig, inPlace: bool, trans: bool, m: int, n: int, alpha: real,
                       input: int, ldIn: int, incIn: int,
                       output: int, ldOut: int, incOut: int): (ev: Event)
    requires ValidConfig(cfg)
    ensures ev == [] <==> trans && inPlace
    ensures trans && !inPlace ==>
              ev == TransposeOutplaceImpl(cfg, m, n, alpha, input, ldIn, incIn, output, ldOut, incOut)
    ensures !trans ==> |ev| == 1 && (ev[0].Assign? || ev[0].ScaledAssign?)
    ensures !trans ==> (ev[0].Assign? <==> alpha == 1.0) && CopyScale(ev[0]) == alpha
    ensures !trans ==> (ev[0].input == StridedView(input, m, n, ldIn, incIn) &&
                        ev[0].output == StridedView(output, m, n, ldOut, incOut))
  {
    if trans then
      if !inPlace then TransposeOutplaceImpl(cfg, m, n, alpha, input, ldIn, incIn, output, ldOut, incOut)
      else []
    else
      var inView := StridedView(input, m, n, ldIn, incIn);
      var outView := StridedView(output, m, n, ldOut, incOut);
      if alpha == 1.0 then Execute(Assign(outView, inView))
      else Execute(ScaledAssign(outView, alpha, inView))
  }

  /** `_matcopy`: bails out with no dispatch when either leading dimension is
      too small for the strided columns it must hold; the output columns hold
      `n` elements when transposing and `m` otherwise. */
  function MatCopy(cfg: TransposeConfig, inPlace: bool, trans: char, m: int, n: int, alpha: real,
                   input: int, ldIn: int, incIn: int,
                   output: int, ldOut: int, incOut: int): (ev: Event)
    requires ValidConfig(cfg)
    ensures ev == [] <==>
              !ColumnFits(ldIn, incIn, m) ||
              !ColumnFits(ldOut, incOut, if trans == 't' then n else m) ||
              (trans == 't' && inPlace)
    ensures ColumnFits(ldIn, incIn, m) && ColumnFits(ldOut, incOut, if trans == 't' then n else m) ==>
              ev == MatCopyImpl(cfg, inPlace, trans == 't', m, n, alpha, input, ldIn, incIn, output, ldOut, incOut)
  {
    if ldIn < incIn * (m - 1) + 1 ||
       ldOut - 1 < (if trans == 't' then incOut * (n - 1) else incOut * (m - 1)) then
      []
    else if trans == 't' then
      MatCopyImpl(cfg, inPlace, true, m, n, alpha, input, ldIn, incIn, output, ldOut, incOut)
    else
      MatCopyImpl(cfg, inPlace, false, m, n, alpha, input, ldIn, incIn, output, ldOut, incOut)
  }

  /** Two elements at the same offset of a layout whose columns fit are the
      same element (for a positive increment). */
  lemma StridedOffsetInjective(ld: int, inc: int, rows: int, r1: int, c1: int, r2: int, c2: int)
    requires inc >= 1 && ColumnFits(ld, inc, rows)
    requires 0 <= r1 < rows && 0 <= c1 && 0 <= r2 < rows && 0 <= c2
    requires StridedOffset(ld, inc, r1, c1) == StridedOffset(ld, inc, r2, c2)
    ensures r1 == r2 && c1 == c2
  {
    MulMonoLeft(r2, rows - 1, inc);
    MulMonoLeft(r1, rows - 1, inc);
    MulNonNeg(r1, inc);
    MulNonNeg(r2, inc);
    if c1 < c2 {
      MulMonoLeft(1, c2 - c1, ld);
      assert false;
    } else if c2 < c1 {
      MulMonoLeft(1, c1 - c2, ld);
      assert false;
    }
    if r1 < r2 {
      MulStrictLeft(r1, r2, inc);
      assert false;
    } else if r2 < r1 {
      MulStrictLeft(r2, r1, inc);
      assert false;
    }
  }

  lemma FitsInjective(ld: int, inc: int, rows: int, cols: int)
    requires inc >= 1 && ColumnFits(ld, inc, rows)
    ensures LayoutInjective(ld, inc, rows, cols)
  {
    forall r1, c1, r2, c2 |
      0 <= r1 < rows && 0 <= c1 < cols && 0 <= r2 < rows && 0 <= c2 < cols &&
      StridedOffset(ld, inc, r1, c1) == StridedOffset(ld, inc, r2, c2)
      ensures r1 == r2 && c1 == c2
    {
      StridedOffsetInjective(ld, inc, rows, r1, c1, r2, c2);
    }
  }

  /** What the validation buys: whenever `_matcopy` dispatches, with positive
      increments, neither the source nor the destination layout maps two
      elements to the same memory; the destination holds the `n x m`
      transpose when transposing. */
  lemma MatCopyNoAliasing(cfg: TransposeConfig, inPlace: bool, trans: char, m: int, n: int, alpha: real,
                          input: int, ldIn: int, incIn: int,
                          output: int, ldOut: int, incOut: int)
    requires ValidConfig(cfg) && incIn >= 1 && incOut >= 1
    requires MatCopy(cfg, inPlace, trans, m, n, alpha, input, ldIn, incIn, output, ldOut, incOut) != []
    ensures LayoutInjective(ldIn, incIn, m, n)
    ensures trans == 't' ==> LayoutInjective(ldOut, incOut, n, m)
    ensures trans != 't' ==> LayoutInjective(ldOut, incOut, m, n)
  {
    FitsInjective(ldIn, incIn, m, n);
    if trans == 't' {
      FitsInjective(ldOut, incOut, n, m);
    } else {
      FitsInjective(ldOut, incOut, m, n);
    }
  }

  /** The check is tight: a leading dimension one short of fitting makes the
      last element of a column share memory with the first of the next. */
  lemma ColumnFitsTight(inc: int, rows: int)
    requires rows >= 2
    ensures !ColumnFits(inc * (rows - 1), inc, rows)
    ensures StridedOffset(inc * (rows - 1), inc, rows - 1, 0) == StridedOffset(inc * (rows - 1), inc, 0, 1)
  {
  }

  /* ------------------------------ transpose ------------------------------ */

  /** `_transpose`: bails out unless `ld_a >= m` and `ld_b >= n`, then copies
      with unit increments and unit scale. */
  function TransposeOp(cfg: TransposeConfig, inPlace: bool, m: int, n: int,
                       a: int, lda: int, b: int, ldb: int): (ev: Event)
    requires ValidConfig(cfg)
    ensures ev == [] <==> lda < m || ldb < n || inPlace
    ensures ev != [] ==> ev[0].Transpose? && ev[0].alpha == 1.0 && ev[0].incIn == 1 && ev[0].incOut == 1
  {
    if lda < m || ldb < n then []
    else
      var inc := 1;
      var alpha := 1.0;
      MatCopyImpl(cfg, inPlace, true, m, n, alpha, a, lda, inc, b, ldb, inc)
  }

  /** `_transpose` is exactly the transposing `_matcopy` with unit scale and
      unit increments, including its validation. */
  lemma TransposeIsUnitMatCopy(cfg: TransposeConfig, inPlace: bool, m: int, n: int,
                               a: int, lda: int, b: int, ldb: int)
    requires ValidConfig(cfg)
    ensures TransposeOp(cfg, inPlace, m, n, a, lda, b, ldb)
         == MatCopy(cfg, inPlace, 't', m, n, 1.0, a, lda, 1, b, ldb, 1)
  {
  }

  /* ------------------------------ matrix add ------------------------------ */

  /** The stored shape of an operand whose (possibly transposed) value is
      `m x n`. */
  function OperandShape(trans: bool, m: int, n: int): (s: Shape)
    ensures (if trans then Shape(s.cols, s.rows) else s) == Shape(m, n)
  {
    if trans then Shape(n, m) else Shape(m, n)
  }

  /** The shape `_omatadd_impl` gives the B view, as written: the column
      count repeats the row count's choice instead of mirroring `a_cols`. */
  function BShapeAsWritten(transB: bool, m: int, n: int): Shape
  {
    Shape(if transB then n else m, if transB then n else m)
  }

  /** The as-written B shape is the stored shape only for square outputs. */
  lemma BShapeAsWrittenMismatch(transB: bool, m: int, n: int)
    ensures BShapeAsWritten(transB, m, n) == OperandShape(transB, m, n) <==> m == n
    ensures BShapeAsWritten(false, 2, 3) == Shape(2, 2) && OperandShape(false, 2, 3) == Shape(2, 3)
  {
  }

  /** `_omatadd_impl` with the B shape as written. */
  function OmatAddImplAsWritten(cfg: TransposeConfig, transA: bool, transB: bool, m: int, n: int,
                                alpha: real, a: int, lda: int, beta: real, b: int, ldb: int,
                                c: int, ldc: int): (ev: Event)
    requires ValidConfig(cfg) && (transA || !transB)
    ensures |ev| == 1
    ensures transA ==> ev[0].TransposeAdd? && ShapeOf(ev[0].b) == BShapeAsWritten(transB, m, n)
  {
    if transA then
      TransposeAddImpl(cfg, transA && transB, m, n, alpha, a, lda, OperandShape(transA, m, n),
                       beta, b, ldb, BShapeAsWritten(transB, m, n), c, ldc)
    else
      Execute(MatAdd(DenseView(c, m, n, ldc), alpha, DenseView(a, m, n, lda), beta, DenseView(b, m, n, ldb)))
  }

  /** `_omatadd_impl` with the B shape mirroring the A shape. There is no
      specialisation for a transposed B alone; the transposed operand is
      always the first. Without transposition it is a scaled element-wise
      sum assigned to C. */
  function OmatAddImpl(cfg: TransposeConfig, transA: bool, transB: bool, m: int, n: int,
                       alpha: real, a: int, lda: int, beta: real, b: int, ldb: int,
                       c: int, ldc: int): (ev: Event)
    requires ValidConfig(cfg) && (transA || !transB)
    ensures |ev| == 1
    ensures transA <==> ev[0].TransposeAdd?
    ensures transA ==> ev[0] == TransposeAddImpl(cfg, transB, m, n, alpha, a, lda, OperandShape(true, m, n),
                                                 beta, b, ldb, OperandShape(transB, m, n), c, ldc)[0]
    ensures !transA ==> ev[0] == MatAdd(DenseView(c, m, n, ldc), alpha, DenseView(a, m, n, lda),
                                         beta, DenseView(b, m, n, ldb))
  {
    if transA then
      TransposeAddImpl(cfg, transA && transB, m, n, alpha, a, lda, OperandShape(transA, m, n),
                       beta, b, ldb, OperandShape(transB, m, n), c, ldc)
    else
      Execute(MatAdd(DenseView(c, m, n, ldc), alpha, DenseView(a, m, n, lda), beta, DenseView(b, m, n, ldb)))
  }

  /** `_omatadd`: routes to the specialisation by the transpose flags; when
      only B is transposed, `(alpha, a, lda)` and `(beta, b, ldb)` trade places
      so that the transposed operand is first. */
  function OmatAdd(cfg: TransposeConfig, transA: char, transB: char, m: int, n: int,
                   alpha: real, a: int, lda: int, beta: real, b: int, ldb: int,
                   c: int, ldc: int): (ev: Event)
    requires ValidConfig(cfg)
    ensures |ev| == 1
    ensures ev[0].TransposeAdd? <==> transA == 't' || transB == 't'
    ensures ev[0].TransposeAdd? ==> (ev[0].bothTrans <==> transA == 't' && transB == 't')
  {
    if transA == 't' then
      if transB == 't' then OmatAddImpl(cfg, true, true, m, n, alpha, a, lda, beta, b, ldb, c, ldc)
      else OmatAddImpl(cfg, true, false, m, n, alpha, a, lda, beta, b, ldb, c, ldc)
    else if transB == 't' then
      OmatAddImpl(cfg, true, false, m, n, beta, b, ldb, alpha, a, lda, c, ldc)
    else
      OmatAddImpl(cfg, false, false, m, n, alpha, a, lda, beta, b, ldb, c, ldc)
  }

  /** `_omatadd` as written: the same routing over the as-written
      specialisation, so the second operand of every transposing dispatch,
      swapped or not, gets the as-written shape. */
  function OmatAddAsWritten(cfg: TransposeConfig, transA: char, transB: char, m: int, n: int,
                            alpha: real, a: int, lda: int, beta: real, b: int, ldb: int,
                            c: int, ldc: int): (ev: Event)
    requires ValidConfig(cfg)
    ensures |ev| == 1
    ensures ev[0].TransposeAdd? <==> transA == 't' || transB == 't'
    ensures ev[0].TransposeAdd? ==> ShapeOf(ev[0].b) == BShapeAsWritten(transA == 't' && transB == 't', m, n)
  {
    if transA == 't' then
      if transB == 't' then OmatAddImplAsWritten(cfg, true, true, m, n, alpha, a, lda, beta, b, ldb, c, ldc)
      else OmatAddImplAsWritten(cfg, true, false, m, n, alpha, a, lda, beta, b, ldb, c, ldc)
    else if transB == 't' then
      OmatAddImplAsWritten(cfg, true, false, m, n, beta, b, ldb, alpha, a, lda, c, ldc)
    else
      OmatAddImplAsWritten(cfg, false, false, m, n, alpha, a, lda, beta, b, ldb, c, ldc)
  }

  /** On every transposing path, including the swapped `('n', 't')` one, the
      as-written routing dispatches what the corrected one does exactly when
      the output is square. */
  lemma OmatAddAsWrittenIff(cfg: TransposeConfig, transA: char, transB: char, m: int, n: int,
                            alpha: real, a: int, lda: int, beta: real, b: int, ldb: int,
                            c: int, ldc: int)
    requires ValidConfig(cfg) && (transA == 't' || transB == 't')
    ensures (OmatAddAsWritten(cfg, transA, transB, m, n, alpha, a, lda, beta, b, ldb, c, ldc)
             == OmatAdd(cfg, transA, transB, m, n, alpha, a, lda, beta, b, ldb, c, ldc)) <==> m == n
  {
    var both := transA == 't' && transB == 't';
    BShapeAsWrittenMismatch(both, m, n);
    var w := OmatAddAsWritten(cfg, transA, transB, m, n, alpha, a, lda, beta, b, ldb, c, ldc);
    var v := OmatAdd(cfg, transA, transB, m, n, alpha, a, lda, beta, b, ldb, c, ldc);
    if m != n {
      assert ShapeOf(v[0].b) == OperandShape(both, m, n);
      assert w[0] != v[0];
    }
  }

  /** One summand of `C = alpha * op(A) + beta * op(B)`: its scale, its
      buffer and leading dimension, whether it is transposed, and the shape
      it is stored with. */
  datatype Term = Term(scale: real, data: int, ld: int, transposed: bool, stored: Shape)

  /** The summands a matrix-add dispatch computes. */
  function Terms(d: Dispatch): multiset<Term>
    requires d.TransposeAdd? || d.MatAdd?
  {
    if d.TransposeAdd? then
      multiset{Term(d.alpha, d.a.data, d.a.ld, true, ShapeOf(d.a)),
               Term(d.beta, d.b.data, d.b.ld, d.bothTrans, ShapeOf(d.b))}
    else
      multiset{Term(d.alpha, d.a.data, d.a.ld, false, ShapeOf(d.a)),
               Term(d.beta, d.b.data, d.b.ld, false, ShapeOf(d.b))}
  }

  /** The summands the caller asked for. */
  function Requested(transA: char, transB: char, m: int, n: int,
                     alpha: real, a: int, lda: int, beta: real, b: int, ldb: int): multiset<Term>
  {
    multiset{Term(alpha, a, lda, transA == 't', OperandShape(transA == 't', m, n)),
             Term(beta, b, ldb, transB == 't', OperandShape(transB == 't', m, n))}
  }

  /** Routing preserves the sum: whatever the flags, the dispatched kernel
      receives exactly the requested summands (the swap only reorders them,
      and addition commutes), each with the shape it is stored in, and writes
      the `m x n` matrix C. */
  lemma OmatAddComputesRequested(cfg: TransposeConfig, transA: char, transB: char, m: int, n: int,
                                 alpha: real, a: int, lda: int, beta: real, b: int, ldb: int,
                                 c: int, ldc: int)
    requires ValidConfig(cfg)
    ensures var d := OmatAdd(cfg, transA, transB, m, n, alpha, a, lda, beta, b, ldb, c, ldc)[0];
      (d.TransposeAdd? || d.MatAdd?) &&
      Terms(d) == Requested(transA, transB, m, n, alpha, a, lda, beta, b, ldb) &&
      (d.TransposeAdd? ==> d.c.data == c && d.c.ld == ldc && ShapeOf(d.c) == Shape(m, n)) &&
      (d.MatAdd? ==> d.output.data == c && d.output.ld == ldc && ShapeOf(d.output) == Shape(m, n))
  {
    var d := OmatAdd(cfg, transA, transB, m, n, alpha, a, lda, beta, b, ldb, c, ldc)[0];
    if transA != 't' && transB == 't' {
      assert d == TransposeAddImpl(cfg, false, m, n, beta, b, ldb, OperandShape(true, m, n),
                                   alpha, a, lda, OperandShape(false, m, n), c, ldc)[0];
      assert Terms(d) == multiset{Term(beta, b, ldb, true, OperandShape(true, m, n)),
                                  Term(alpha, a, lda, false, OperandShape(false, m, n))};
    }
  }

  /** With the B shape as written the summands differ from the request as
      soon as the output is not square. */
  lemma OmatAddAsWrittenMisshapesB()
    ensures var cfg := TransposeConfig(16, 256, 64, true, 4);
      var d := OmatAddImplAsWritten(cfg, true, false, 2, 3, 1.0, 0, 3, 1.0, 100, 2, 200, 2)[0];
      d.TransposeAdd? && Terms(d) != Requested('t', 'n', 2, 3, 1.0, 0, 3, 1.0, 100, 2)
  {
    var cfg := TransposeConfig(16, 256, 64, true, 4);
    var d := OmatAddImplAsWritten(cfg, true, false, 2, 3, 1.0, 0, 3, 1.0, 100, 2, 200, 2)[0];
    var bad := Term(1.0, 100, 2, false, Shape(2, 2));
    assert bad in Terms(d);
    assert bad !in Requested('t', 'n', 2, 3, 1.0, 0, 3, 1.0, 100, 2);
  }

  /* ------------------------------ reduction ------------------------------ */

  /** `get_second_step_op`: partial means are combined by addition; every
      other operator combines its own partial results. */
  function SecondStepOp(op: Operator): (r: Operator)
    ensures r != MeanOperator
    ensures op == MeanOperator ==> r == AddOperator
    ensures op != MeanOperator ==> r == op
  {
    if op == MeanOperator then AddOperator else op
  }

  /** The compile-time reduction parameters: a smaller cache line and work
      group on PowerVR devices, 64 reductions per thread everywhere. */
  function ParamsFor(powerVr: bool, dim: ReductionDim): (p: ReductionParams)
    ensures p.dim == dim && p.reductionsPerThread == 64
    ensures p.clSize == (if powerVr then 32 else 64) && p.wgSize == (if powerVr then 64 else 256)
  {
    if powerVr then ReductionParams(32, 64, 64, dim) else ReductionParams(64, 256, 64, dim)
  }

  /** The output of an outer reduction is a column of `rows`; of an inner
      one a row of `cols`. */
  function OutputShape(dim: ReductionDim, rows: int, cols: int): Shape
  {
    Shape(if dim == Outer then rows else 1, if dim == Outer then 1 else cols)
  }

  /** The temporary of a two-step reduction: one partial result per group
      along the reduced dimension. */
  function TempShape(dim: ReductionDim, rows: int, cols: int, groups: int): Shape
  {
    Shape(if dim == Outer then rows else groups, if dim == Outer then groups else cols)
  }

  /** The element count of the temporary buffer that is allocated. */
  function TempBufferSize(dim: ReductionDim, rows: int, cols: int, groups: int): int
  {
    (if dim == Outer then rows else cols) * groups
  }

  /** The output view of a reduction. */
  function OutputView(dim: ReductionDim, output: int, rows: int, cols: int): MatrixView
  {
    var s := OutputShape(dim, rows, cols);
    DenseView(output, s.rows, s.cols, s.rows)
  }

  /** The view over the temporary buffer of a two-step reduction. */
  function TempView(dim: ReductionDim, temp: int, rows: int, cols: int, groups: int): MatrixView
  {
    var s := TempShape(dim, rows, cols, groups);
    DenseView(temp, s.rows, s.cols, s.rows)
  }

  /** Appending one execution's event. */
  lemma ConcatenateOne(first: Event, d: Dispatch)
    ensures ConcatenateVectors(first, [Execute(d)]) == first + [d]
  {
    assert [Execute(d)][1..] == [];
  }

  /** `launch_type_based_reduction`. `groups` is the reduced group count the
      reduction parameters compute from `(rows, cols)`, and `temp` the
      freshly allocated temporary buffer. */
  function LaunchReduction(op: Operator, dim: ReductionDim, powerVr: bool,
                           input: int, ld: int, output: int, rows: int, cols: int,
                           groups: int, temp: int): (ev: Event)
    ensures |ev| == (if groups > 1 then 2 else 1)
    ensures forall i :: 0 <= i < |ev| ==> ev[i].Reduce? && ev[i].params == ParamsFor(powerVr, dim)
    ensures ev[0].op == op && ev[0].input == DenseView(input, rows, cols, ld)
    ensures ev[|ev| - 1].output == OutputView(dim, output, rows, cols)
    ensures groups > 1 ==> ev[0].output == TempView(dim, temp, rows, cols, groups) == ev[1].input
    ensures groups > 1 ==> ev[1].op == SecondStepOp(op)
  {
    var params := ParamsFor(powerVr, dim);
    var inView := DenseView(input, rows, cols, ld);
    var outView := OutputView(dim, output, rows, cols);
    var none: Event := [];
    if groups > 1 then
      var tempView := TempView(dim, temp, rows, cols, groups);
      var step1 := Reduce(op, params, inView, tempView);
      var step2 := Reduce(SecondStepOp(op), params, tempView, outView);
      var event := ConcatenateVectors(none, [Execute(step1)]);
      ConcatenateOne(none, step1);
      ConcatenateOne(event, step2);
      ConcatenateVectors(event, [Execute(step2)])
    else
      var step := Reduce(op, params, inView, outView);
      ConcatenateOne(none, step);
      ConcatenateVectors(none, [Execute(step)])
  }

  /** `_reduction`: dispatches on the reduction dimension. */
  function Reduction(op: Operator, dim: ReductionDim, powerVr: bool,
                     input: int, ld: int, output: int, rows: int, cols: int,
                     groups: int, temp: int): (ev: Event)
    ensures ev == LaunchReduction(op, dim, powerVr, input, ld, output, rows, cols, groups, temp)
    ensures forall i :: 0 <= i < |ev| ==> ev[i].Reduce? && ev[i].params.dim == dim
  {
    if dim == Inner then LaunchReduction(op, Inner, powerVr, input, ld, output, rows, cols, groups, temp)
    else LaunchReduction(op, Outer, powerVr, input, ld, output, rows, cols, groups, temp)
  }

  /** The steps form a pipeline from the input to the output: the first
      reads the input, each later step reads what the previous one wrote,
      and the last writes the output. */
  ghost predicate Chained(ev: Event, inView: MatrixView, outView: MatrixView)
  {
    |ev| >= 1 && (forall i :: 0 <= i < |ev| ==> ev[i].Reduce?) &&
    ev[0].input == inView && ev[|ev| - 1].output == outView &&
    forall i :: 0 <= i < |ev| - 1 ==> ev[i].output == ev[i + 1].input
  }

  /** The reduction plan: a single step iff at most one group per output
      element, otherwise two steps through a temporary that keeps the
      unreduced extent, is exactly as large as the buffer allocated for it,
      and is combined with the second-step operator. The output keeps the
      unreduced extent and collapses the reduced one to one. */
  lemma ReductionPlan(op: Operator, dim: ReductionDim, powerVr: bool,
                      input: int, ld: int, output: int, rows: int, cols: int,
                      groups: int, temp: int)
    ensures var ev := Reduction(op, dim, powerVr, input, ld, output, rows, cols, groups, temp);
      var outView := OutputView(dim, output, rows, cols);
      Chained(ev, DenseView(input, rows, cols, ld), outView) &&
      (dim == Outer ==> ShapeOf(outView) == Shape(rows, 1) && GetSizeL(outView) == rows) &&
      (dim == Inner ==> ShapeOf(outView) == Shape(1, cols) && GetSizeL(outView) == 1) &&
      (|ev| == 2 <==> groups > 1) && (|ev| == 1 <==> groups <= 1) &&
      (groups <= 1 ==> ev[0].op == op) &&
      (groups > 1 ==>
         var tempView := ev[0].output;
         tempView.data == temp &&
         MatrixGetSize(tempView) == TempBufferSize(dim, rows, cols, groups) &&
         (dim == Outer ==> GetSizeRow(tempView) == rows && GetSizeCol(tempView) == groups) &&
         (dim == Inner ==> GetSizeRow(tempView) == groups && GetSizeCol(tempView) == cols) &&
         ev[0].op == op && ev[1].op == SecondStepOp(op))
  {
    var ev := Reduction(op, dim, powerVr, input, ld, output, rows, cols, groups, temp);
    if groups > 1 {
      assert ev[0].output == TempView(dim, temp, rows, cols, groups);
      if dim == Inner {
        assert groups * cols == cols * groups;
      }
    }
  }

  /** The returned event of a two-step reduction is the execution of the
      first step, over the input into the temporary, followed by that of
      the second, over the temporary into the output. */
  lemma ReductionEventOrder(op: Operator, dim: ReductionDim, powerVr: bool,
                            input: int, ld: int, output: int, rows: int, cols: int,
                            groups: int, temp: int)
    requires groups > 1
    ensures var params := ParamsFor(powerVr, dim);
      var tempView := TempView(dim, temp, rows, cols, groups);
      var step1 := Reduce(op, params, DenseView(input, rows, cols, ld), tempView);
      var step2 := Reduce(SecondStepOp(op), params, tempView, OutputView(dim, output, rows, cols));
      Reduction(op, dim, powerVr, input, ld, output, rows, cols, groups, temp) == Execute(step1) + Execute(step2)
  {
    var ev := Reduction(op, dim, powerVr, input, ld, output, rows, cols, groups, temp);
    assert |ev| == 2;
  }
}

=== FILE: gemm_kernel.dfy ===
/** What one work item of the GEMM kernel computes: the register-level
    methods `scaling_c`, `load`, `compute_block_gemm_no_shared` and `store`,
    the k loop and the grid-stride batch loop of
    `compute_gemm_no_shared_pannel`, and `eval`.

    Device memory is a total map from addresses to exact reals; a work item
    reads the C values present before the launch and reports its stores as
    a map instead of updating memory, so that items can be reasoned about
    one at a time. The registers the source leaves uninitialised are
    parameters, and the contracts show they never reach C. */
module GemmKernel {
  import opened Arith
  import opened Views
  import opened GemmTiling

  type Memory = int -> real

  /** The accumulator `reg_res`: `reg[i][j]` is `reg_res[i * item_rows + j]`,
      column register `i` and row register `j` (see `GemmTiling.SlotIndex`). */
  type Regs = seq<seq<real>>

  predicate Shaped(t: Tile, reg: Regs)
  {
    |reg| == t.itemCols && forall i :: 0 <= i < |reg| ==> |reg[i]| == t.itemRows
  }

  /** One element store to C. */
  datatype Write = Write(addr: int, value: real)

  /** An accumulator register: column register `i`, row register `j`. */
  datatype Slot = Slot(i: int, j: int)

  /* ------------------------- reference values ------------------------- */

  /** Start of batch `b` of each operand. */
  function BatchA(g: Gemm, b: int): int { g.a.data + b * g.strideA }
  function BatchB(g: Gemm, b: int): int { g.b.data + b * g.strideB }
  function BatchC(g: Gemm, b: int): int { g.c.data + b * g.strideC }

  /** Offset of `op(A)[r, q]`, column-major with leading dimension `lda`. */
  function OpAOffset(g: Gemm, r: int, q: int): int
  {
    if g.transA then q + r * Lda(g) else r + q * Lda(g)
  }

  /** Offset of `op(B)[q, c]`, column-major with leading dimension `ldb`. */
  function OpBOffset(g: Gemm, q: int, c: int): int
  {
    if g.transB then c + q * Ldb(g) else q + c * Ldb(g)
  }

  /** Address of `C[r, c]` in batch `b`. */
  function CAddr(g: Gemm, b: int, r: int, c: int): int
  {
    BatchC(g, b) + r + c * Ldc(g)
  }

  /** With `ldc >= m`, as the BLAS interface demands of its callers, distinct
      elements of one batch of C have distinct addresses. */
  lemma CAddrInjective(g: Gemm, b: int, r1: int, c1: int, r2: int, c2: int)
    requires Ldc(g) >= M(g)
    requires 0 <= r1 < M(g) && 0 <= r2 < M(g)
    requires CAddr(g, b, r1, c1) == CAddr(g, b, r2, c2)
    ensures r1 == r2 && c1 == c2
  {
    var x := CAddr(g, b, r1, c1) - BatchC(g, b);
    DivModUnique(x, Ldc(g), c1, r1);
    DivModUnique(x, Ldc(g), c2, r2);
  }

  /** `sum_{q < kk} op(A)[r, q] * op(B)[q, c]` in batch `b`. */
  function Dot(g: Gemm, mem: Memory, b: int, r: int, c: int, kk: nat): real
  {
    if kk == 0 then 0.0
    else Dot(g, mem, b, r, c, kk - 1) +
         mem(BatchA(g, b) + OpAOffset(g, r, kk - 1)) * mem(BatchB(g, b) + OpBOffset(g, kk - 1, c))
  }

  /** `alpha * op(A) * op(B) + beta * C` at `(r, c)` of batch `b`; with
      `is_beta_zero` the old C does not contribute. */
  function Expected(g: Gemm, mem: Memory, b: int, r: int, c: int): real
    requires K(g) >= 0
  {
    (if g.betaZero then 0.0 else g.beta * mem(CAddr(g, b, r, c))) + g.alpha * Dot(g, mem, b, r, c, K(g))
  }

  /* ----------------------- per-item slot geometry ---------------------- */

  /** The packet widths a path may use: both 1 on the boundary path, A
      vectorised only when not transposed, B only when transposed. */
  predicate PathOk(g: Gemm, p: Place)
  {
    ValidTile(g.tile) && M(g) >= 0 && N(g) >= 0 && K(g) >= 0 &&
    p.ap >= 1 && p.bp >= 1 && g.tile.itemRows % p.ap == 0 && g.tile.itemCols % p.bp == 0 &&
    (!p.internal ==> p.ap == 1 && p.bp == 1) &&
    (g.transA ==> p.ap == 1) && (!g.transB ==> p.bp == 1)
  }

  /** Register `(i, j)` is stored (and, without `is_beta_zero`, scaled) when
      the item is in range and, on the boundary path, its element is inside C. */
  predicate Live(g: Gemm, p: Place, i: int, j: int)
    requires PathOk(g, p)
  {
    !p.outOfRange && (p.internal || InBounds(M(g), N(g), SlotRow(g, p, j), SlotCol(g, p, i)))
  }

  /** A live register of the accumulator. */
  predicate Stored(g: Gemm, p: Place, q: Slot)
    requires PathOk(g, p)
  {
    0 <= q.i < g.tile.itemCols && 0 <= q.j < g.tile.itemRows && Live(g, p, q.i, q.j)
  }

  /** Offset of the element of register `(i, j)` from the item's first C element. */
  function CSlotOffset(g: Gemm, p: Place, i: int, j: int): int
    requires PathOk(g, p)
  {
    SlotOffset(j, p.ap, g.tile.wgRows) + SlotOffset(i, p.bp, g.tile.wgCols) * Ldc(g)
  }

  /** The boundary test `do_check<!internal>(check_c(dim_m + j * wg_rows,
      dim_n + i * wg_cols))` of `scaling_c` and `store`. */
  predicate CheckC(g: Gemm, p: Place, i: int, j: int)
  {
    p.internal || InBounds(M(g), N(g), p.dimM + j * g.tile.wgRows, p.dimN + i * g.tile.wgCols)
  }

  lemma SlotOffsetUnit(j: int, w: int)
    ensures SlotOffset(j, 1, w) == j * w
  {
  }

  /** On either path the source's boundary test is the liveness of the register. */
  lemma CheckIsLive(g: Gemm, p: Place, i: int, j: int)
    requires PathOk(g, p) && !p.outOfRange
    ensures Live(g, p, i, j) <==> CheckC(g, p, i, j)
  {
    if !p.internal {
      SlotOffsetUnit(j, g.tile.wgRows);
      SlotOffsetUnit(i, g.tile.wgCols);
    }
  }

  /** Advancing the C pointer past column register `i` lands on column
      register `i + 1`: one column inside a packet, and past the other
      items' packets at a packet boundary. */
  lemma ColumnAdvance(i: int, bp: int, w: int, ldc: int)
    requires i >= 0 && bp >= 1 && w >= 1
    ensures SlotOffset(i + 1, bp, w) * ldc ==
      SlotOffset(i, bp, w) * ldc + (if (i + 1) % bp == 0 then (w * bp - (bp - 1)) * ldc else ldc)
  {
    var q, r := i / bp, i % bp;
    assert i == q * bp + r;
    if r + 1 < bp {
      DivModUnique(i + 1, bp, q, r + 1);
      assert SlotOffset(i + 1, bp, w) == SlotOffset(i, bp, w) + 1;
    } else {
      assert i + 1 == (q + 1) * bp + 0;
      DivModUnique(i + 1, bp, q + 1, 0);
      assert SlotOffset(i + 1, bp, w) == (q + 1) * w * bp;
      assert (q + 1) * w * bp == q * w * bp + w * bp;
      assert SlotOffset(i + 1, bp, w) == SlotOffset(i, bp, w) + (w * bp - (bp - 1));
    }
  }

  /* ------------------------ compute_block_gemm ------------------------ */

  /** `compute_block_gemm_no_shared`: one rank-1 update of the accumulator,
      `reg_res[i * item_rows + j] += reg_a[j] * reg_b[i]`. */
  method ComputeBlock(t: Tile, regA: seq<real>, regB: seq<real>, regRes: Regs) returns (res: Regs)
    requires ValidTile(t) && |regA| == t.itemRows && |regB| == t.itemCols && Shaped(t, regRes)
    ensures Shaped(t, res)
    ensures forall i, j :: 0 <= i < t.itemCols && 0 <= j < t.itemRows ==>
      res[i][j] == regRes[i][j] + regA[j] * regB[i]
  {
    res := regRes;
    var i := 0;
    while i < t.itemCols
      invariant 0 <= i <= t.itemCols && |res| == t.itemCols
      invariant forall i' :: 0 <= i' < i ==> MulAdded(res[i'], regRes[i'], regA, regB[i'])
      invariant forall i' :: i <= i' < t.itemCols ==> res[i'] == regRes[i']
    {
      var col := ComputeBlockColumn(regA, regB[i], regRes[i]);
      assert MulAdded(col, regRes[i], regA, regB[i]);
      res := res[i := col];
      i := i + 1;
    }
  }

  /** Column `col` is `col0` plus `regA` times `b`, element by element. */
  ghost predicate MulAdded(col: seq<real>, col0: seq<real>, regA: seq<real>, b: real)
  {
    |col| == |col0| == |regA| && forall j :: 0 <= j < |col0| ==> col[j] == col0[j] + regA[j] * b
  }

  /** The inner loop of `compute_block_gemm_no_shared` for one column
      register, whose `reg_b` value is `b`: `mul_add(reg_a[j], b, col[j])`. */
  method ComputeBlockColumn(regA: seq<real>, b: real, col0: seq<real>) returns (col: seq<real>)
    requires |regA| == |col0|
    ensures |col| == |col0|
    ensures forall j :: 0 <= j < |col0| ==> col[j] == col0[j] + regA[j] * b
  {
    col := col0;
    var j := 0;
    while j < |col0|
      invariant 0 <= j <= |col0| && |col| == |col0|
      invariant forall j' :: 0 <= j' < |col0| ==> col[j'] == if j' < j then col0[j'] + regA[j'] * b else col0[j']
    {
      col := col[j := regA[j] * b + col[j]];
      j := j + 1;
    }
  }

  /* ------------------------------- load ------------------------------- */

  /** `load`: fills `item_size` registers, one packet of `work_per_load`
      elements per step, from `ptr`, `ptr + ld`, ...; a packet whose last
      index `index + step * next_element + work_per_load - 1` fails the
      boundary test (when `check_block`) is zeros. An out-of-range item
      leaves the registers as they were. */
  method Load(mem: Memory, ptr: int, ld: int, index: int, itemSize: int, nextElement: int,
              checkBlock: bool, workPerLoad: int, bound: int, outOfRange: bool, regInit: seq<real>)
    returns (reg: seq<real>)
    requires workPerLoad >= 1 && itemSize >= 0 && itemSize % workPerLoad == 0 && |regInit| == itemSize
    ensures |reg| == itemSize
    ensures outOfRange ==> reg == regInit
    ensures !outOfRange ==> forall s :: 0 <= s < itemSize ==>
      reg[s] == if !checkBlock || index + (s / workPerLoad) * nextElement + workPerLoad - 1 < bound
                then mem(ptr + (s / workPerLoad) * ld + s % workPerLoad) else 0.0
  {
    if outOfRange {
      return regInit;
    }
    reg := [];
    var p, idx := ptr, index;
    var i := 0;
    var packets := itemSize / workPerLoad;
    assert itemSize == packets * workPerLoad;
    while i < packets
      invariant 0 <= i <= packets
      invariant |reg| == i * workPerLoad
      invariant p == ptr + i * ld && idx == index + i * nextElement
      invariant forall s :: 0 <= s < |reg| ==>
        reg[s] == if !checkBlock || index + (s / workPerLoad) * nextElement + workPerLoad - 1 < bound
                  then mem(ptr + (s / workPerLoad) * ld + s % workPerLoad) else 0.0
    {
      var inRange := !checkBlock || idx + (workPerLoad - 1) < bound;
      var packet := seq(workPerLoad, t requires 0 <= t < workPerLoad => if inRange then mem(p + t) else 0.0);
      forall s | i * workPerLoad <= s < i * workPerLoad + workPerLoad
        ensures s / workPerLoad == i && s % workPerLoad == s - i * workPerLoad
      {
        DivModUnique(s, workPerLoad, i, s - i * workPerLoad);
      }
      reg := reg + packet;
      p, idx := p + ld, idx + nextElement;
      i := i + 1;
    }
  }

  /* ----------------------------- scaling_c ----------------------------- */

  /** `beta_ * C` of the element of register `(i, j)`. */
  function ScaledC(g: Gemm, p: Place, cm: Memory, cPtr: int, i: int, j: int): real
    requires PathOk(g, p) && g.alpha != 0.0
  {
    ScaledBeta(g) * cm(cPtr + CSlotOffset(g, p, i, j))
  }

  /** `scaling_c`: with `is_beta_zero` every accumulator starts at zero;
      otherwise each live register starts at `beta_ * C` of its element and
      the others keep whatever the uninitialised registers held. */
  method ScalingC(g: Gemm, p: Place, cm: Memory, cPtr: int, regInit: Regs) returns (reg: Regs)
    requires PathOk(g, p) && Shaped(g.tile, regInit)
    requires !g.betaZero ==> g.alpha != 0.0
    ensures Shaped(g.tile, reg)
    ensures forall i, j :: 0 <= i < g.tile.itemCols && 0 <= j < g.tile.itemRows ==>
      reg[i][j] == if g.betaZero then 0.0
                   else if Live(g, p, i, j) then ScaledBeta(g) * cm(cPtr + CSlotOffset(g, p, i, j))
                   else regInit[i][j]
  {
    var t := g.tile;
    if g.betaZero {
      return seq(t.itemCols, _ => seq(t.itemRows, _ => 0.0));
    }
    if p.outOfRange {
      return regInit;
    }
    reg := ScaleLive(g, p, cm, cPtr, regInit);
  }

  /** The step of the C pointer of `scaling_c` and `store` after column
      register `i`. */
  function ColumnStep(i: int, bp: int, w: int, ldc: int): int
    requires bp >= 1
  {
    if (i + 1) % bp == 0 then (w * bp - (bp - 1)) * ldc else ldc
  }

  /** The loops of `scaling_c` for an in-range item without `is_beta_zero`. */
  method ScaleLive(g: Gemm, p: Place, cm: Memory, cPtr: int, regInit: Regs) returns (reg: Regs)
    requires PathOk(g, p) && Shaped(g.tile, regInit) && !p.outOfRange && g.alpha != 0.0
    ensures Shaped(g.tile, reg)
    ensures forall i, j :: 0 <= i < g.tile.itemCols && 0 <= j < g.tile.itemRows ==>
      reg[i][j] == if Live(g, p, i, j) then ScaledC(g, p, cm, cPtr, i, j) else regInit[i][j]
  {
    var t := g.tile;
    reg := regInit;
    var c := cPtr;
    var i := 0;
    while i < t.itemCols
      invariant 0 <= i <= t.itemCols && Shaped(t, reg)
      invariant c == cPtr + SlotOffset(i, p.bp, t.wgCols) * Ldc(g)
      invariant forall i', j :: 0 <= i' < t.itemCols && 0 <= j < t.itemRows ==>
        reg[i'][j] == if i' < i && Live(g, p, i', j) then ScaledC(g, p, cm, cPtr, i', j) else regInit[i'][j]
    {
      var col := ScalingCColumn(g, p, cm, cPtr, c, regInit[i], i);
      ghost var prev := reg;
      reg := reg[i := col];
      assert forall i' :: 0 <= i' < t.itemCols && i' != i ==> reg[i'] == prev[i'];
      ColumnAdvance(i, p.bp, t.wgCols, Ldc(g));
      c := c + ColumnStep(i, p.bp, t.wgCols, Ldc(g));
      i := i + 1;
    }
  }

  /** The inner loop of `scaling_c` for column register `i`, with `c` the
      C pointer for that column. */
  method ScalingCColumn(g: Gemm, p: Place, cm: Memory, cPtr: int, c: int, col0: seq<real>, i: int)
    returns (col: seq<real>)
    requires PathOk(g, p) && !p.outOfRange && g.alpha != 0.0
    requires |col0| == g.tile.itemRows && 0 <= i < g.tile.itemCols
    requires c == cPtr + SlotOffset(i, p.bp, g.tile.wgCols) * Ldc(g)
    ensures |col| == g.tile.itemRows
    ensures forall j :: 0 <= j < g.tile.itemRows ==>
      col[j] == if Live(g, p, i, j) then ScaledC(g, p, cm, cPtr, i, j) else col0[j]
  {
    var t := g.tile;
    col := col0;
    var j := 0;
    while j < t.itemRows
      invariant 0 <= j <= t.itemRows && |col| == t.itemRows
      invariant forall j' :: 0 <= j' < t.itemRows ==>
        col[j'] == if j' < j && Live(g, p, i, j') then ScaledC(g, p, cm, cPtr, i, j') else col0[j']
    {
      CheckIsLive(g, p, i, j);
      if CheckC(g, p, i, j) {
        ScaledAddress(g, p, cPtr, c, i, j);
        col := col[j := ScaledBeta(g) * cm(c + (j % p.ap) + (j / p.ap) * t.wgRows * p.ap)];
        assert col[j] == ScaledC(g, p, cm, cPtr, i, j);
      }
      j := j + 1;
    }
  }

  /** The address `scaling_c` reads for row register `j` of column register
      `i` is that register's element of C. */
  lemma ScaledAddress(g: Gemm, p: Place, cPtr: int, c: int, i: int, j: int)
    requires PathOk(g, p) && c == cPtr + SlotOffset(i, p.bp, g.tile.wgCols) * Ldc(g)
    ensures c + (j % p.ap) + (j / p.ap) * g.tile.wgRows * p.ap == cPtr + CSlotOffset(g, p, i, j)
  {
  }

  /* ------------------------------- store ------------------------------- */

  /** The store of register `(q.i, q.j)`: `alpha_` times the accumulator, at
      the register's element of C. */
  function StoredWrite(g: Gemm, p: Place, reg: Regs, cPtr: int, q: Slot): Write
    requires PathOk(g, p) && Shaped(g.tile, reg)
    requires 0 <= q.i < g.tile.itemCols && 0 <= q.j < g.tile.itemRows
  {
    Write(cPtr + CSlotOffset(g, p, q.i, q.j), g.alpha * reg[q.i][q.j])
  }

  /** Register `j` of packet `jp` sits `jp * wg_rows * ap + (j - jp * ap)`
      rows below the item's first row. */
  lemma PacketOffset(jp: int, j: int, ap: int, w: int)
    requires jp >= 0 && jp * ap <= j < jp * ap + ap
    ensures SlotOffset(j, ap, w) == jp * w * ap + (j - jp * ap)
  {
    DivModUnique(j, ap, jp, j - jp * ap);
  }

  /** Element `t` of packet `jp` is the store of its register. */
  lemma PacketElement(g: Gemm, p: Place, reg: Regs, cPtr: int, c: int, i: int, jp: int, t: int)
    requires PathOk(g, p) && Shaped(g.tile, reg) && 0 <= i < g.tile.itemCols
    requires jp >= 0 && 0 <= jp * p.ap && jp * p.ap + p.ap <= g.tile.itemRows && 0 <= t < p.ap
    requires c == cPtr + SlotOffset(i, p.bp, g.tile.wgCols) * Ldc(g)
    ensures Write(c + jp * g.tile.wgRows * p.ap + t, g.alpha * reg[i][jp * p.ap + t])
         == StoredWrite(g, p, reg, cPtr, Slot(i, jp * p.ap + t))
  {
    PacketOffset(jp, jp * p.ap + t, p.ap, g.tile.wgRows);
  }

  /** The vector store of packet `jp` of column register `i`: the `ap`
      registers from row register `jp * ap` on, scaled by `alpha_`, go to
      `ap` consecutive elements from `c + jp * wg_rows * ap` on, which are
      exactly those registers' elements. */
  method StorePacket(g: Gemm, p: Place, reg: Regs, cPtr: int, c: int, i: int, jp: int)
    returns (w: map<Slot, Write>)
    requires PathOk(g, p) && Shaped(g.tile, reg) && 0 <= i < g.tile.itemCols
    requires jp >= 0 && 0 <= jp * p.ap && jp * p.ap + p.ap <= g.tile.itemRows
    requires c == cPtr + SlotOffset(i, p.bp, g.tile.wgCols) * Ldc(g)
    ensures forall q :: q in w ==> q.i == i && jp * p.ap <= q.j < jp * p.ap + p.ap
    ensures forall q: Slot :: q.i == i && jp * p.ap <= q.j < jp * p.ap + p.ap ==>
      q in w && w[q] == StoredWrite(g, p, reg, cPtr, q)
  {
    var lo := jp * p.ap;
    var out := c + jp * g.tile.wgRows * p.ap;
    w := map[];
    var t := 0;
    while t < p.ap
      invariant 0 <= t <= p.ap
      invariant forall q :: q in w ==> q.i == i && lo <= q.j < lo + t
      invariant forall q: Slot :: q.i == i && lo <= q.j < lo + t ==> q in w && w[q] == StoredWrite(g, p, reg, cPtr, q)
    {
      PacketElement(g, p, reg, cPtr, c, i, jp, t);
      w := w[Slot(i, lo + t) := Write(out + t, g.alpha * reg[i][lo + t])];
      assert w[Slot(i, lo + t)] == StoredWrite(g, p, reg, cPtr, Slot(i, lo + t));
      t := t + 1;
    }
  }

  /** Either every register of packet `jp` passes the store's test or none
      does: on the internal path there is no test, and on the boundary
      path a packet is a single register. */
  lemma PacketLive(g: Gemm, p: Place, i: int, jp: int)
    requires PathOk(g, p) && !p.outOfRange
    ensures forall j :: jp * p.ap <= j < jp * p.ap + p.ap ==> (Live(g, p, i, j) <==> CheckC(g, p, i, jp))
  {
    if !p.internal {
      CheckIsLive(g, p, i, jp);
      assert jp * p.ap == jp;
    }
  }

  /** `store`: an in-range item stores `alpha_` times each live accumulator
      register at its element of C, one packet at a time, and nothing else;
      an out-of-range item stores nothing. */
  method Store(g: Gemm, p: Place, reg: Regs, cPtr: int) returns (writes: map<Slot, Write>)
    requires PathOk(g, p) && Shaped(g.tile, reg)
    ensures forall q :: q in writes ==> Stored(g, p, q)
    ensures forall q :: Stored(g, p, q) ==> q in writes && writes[q] == StoredWrite(g, p, reg, cPtr, q)
  {
    var t := g.tile;
    writes := map[];
    if p.outOfRange {
      return;
    }
    var c := cPtr;
    var i := 0;
    while i < t.itemCols
      invariant 0 <= i <= t.itemCols
      invariant c == cPtr + SlotOffset(i, p.bp, t.wgCols) * Ldc(g)
      invariant forall q :: q in writes ==> Stored(g, p, q) && q.i < i
      invariant forall q :: Stored(g, p, q) && q.i < i ==> q in writes && writes[q] == StoredWrite(g, p, reg, cPtr, q)
    {
      var col := StoreColumn(g, p, reg, cPtr, c, i);
      writes := writes + col;
      ColumnAdvance(i, p.bp, t.wgCols, Ldc(g));
      c := c + ColumnStep(i, p.bp, t.wgCols, Ldc(g));
      i := i + 1;
    }
  }

  /** The inner loop of `store` for column register `i`, over the
      `item_rows / ap` packets of the column. */
  method StoreColumn(g: Gemm, p: Place, reg: Regs, cPtr: int, c: int, i: int) returns (col: map<Slot, Write>)
    requires PathOk(g, p) && Shaped(g.tile, reg) && !p.outOfRange
    requires 0 <= i < g.tile.itemCols && c == cPtr + SlotOffset(i, p.bp, g.tile.wgCols) * Ldc(g)
    ensures forall q :: q in col ==> q.i == i && Stored(g, p, q)
    ensures forall q: Slot :: q.i == i && Stored(g, p, q) ==> q in col && col[q] == StoredWrite(g, p, reg, cPtr, q)
  {
    var t := g.tile;
    col := map[];
    var packets := t.itemRows / p.ap;
    DivModSplit(t.itemRows, p.ap);
    var jp := 0;
    while jp < packets
      invariant 0 <= jp <= packets
      invariant ColumnStored(g, p, reg, cPtr, i, col, jp * p.ap)
    {
      MulMonoLeft(jp + 1, packets, p.ap);
      col := StoreColumnPacket(g, p, reg, cPtr, c, i, jp, col);
      jp := jp + 1;
    }
    ColumnStoredAll(g, p, reg, cPtr, i, col);
  }

  /** One pass of the inner loop of `store`: packet `jp` of column register
      `i` is stored when it passes the boundary test. */
  method StoreColumnPacket(g: Gemm, p: Place, reg: Regs, cPtr: int, c: int, i: int, jp: int,
                           col: map<Slot, Write>) returns (col': map<Slot, Write>)
    requires PathOk(g, p) && Shaped(g.tile, reg) && !p.outOfRange
    requires 0 <= i < g.tile.itemCols && c == cPtr + SlotOffset(i, p.bp, g.tile.wgCols) * Ldc(g)
    requires jp >= 0 && (jp + 1) * p.ap <= g.tile.itemRows
    requires ColumnStored(g, p, reg, cPtr, i, col, jp * p.ap)
    ensures ColumnStored(g, p, reg, cPtr, i, col', (jp + 1) * p.ap)
  {
    var lo := jp * p.ap;
    assert (jp + 1) * p.ap == lo + p.ap;
    MulNonNeg(jp, p.ap);
    PacketLive(g, p, i, jp);
    var w: map<Slot, Write> := map[];
    if CheckC(g, p, i, jp) {
      w := StorePacket(g, p, reg, cPtr, c, i, jp);
    }
    ColumnExtend(g, p, reg, cPtr, i, col, w, lo, CheckC(g, p, i, jp));
    col' := col + w;
  }

  /** Column `i`'s stores so far: exactly the live registers below row register `lo`. */
  ghost predicate ColumnStored(g: Gemm, p: Place, reg: Regs, cPtr: int, i: int, col: map<Slot, Write>, lo: int)
    requires PathOk(g, p) && Shaped(g.tile, reg)
  {
    && (forall q :: q in col ==> q.i == i && Stored(g, p, q) && q.j < lo)
    && (forall q: Slot :: q.i == i && Stored(g, p, q) && q.j < lo ==> q in col && col[q] == StoredWrite(g, p, reg, cPtr, q))
  }

  /** One packet more: its stores when the packet is live, none otherwise. */
  lemma ColumnExtend(g: Gemm, p: Place, reg: Regs, cPtr: int, i: int, col: map<Slot, Write>,
                     w: map<Slot, Write>, lo: int, live: bool)
    requires PathOk(g, p) && Shaped(g.tile, reg) && 0 <= i < g.tile.itemCols
    requires 0 <= lo && lo + p.ap <= g.tile.itemRows
    requires ColumnStored(g, p, reg, cPtr, i, col, lo)
    requires forall j :: lo <= j < lo + p.ap ==> (Live(g, p, i, j) <==> live)
    requires !live ==> w == map[]
    requires forall q :: q in w ==> q.i == i && lo <= q.j < lo + p.ap
    requires live ==> forall q: Slot :: q.i == i && lo <= q.j < lo + p.ap ==> q in w && w[q] == StoredWrite(g, p, reg, cPtr, q)
    ensures ColumnStored(g, p, reg, cPtr, i, col + w, lo + p.ap)
  {
  }

  lemma ColumnStoredAll(g: Gemm, p: Place, reg: Regs, cPtr: int, i: int, col: map<Slot, Write>)
    requires PathOk(g, p) && Shaped(g.tile, reg)
    requires ColumnStored(g, p, reg, cPtr, i, col, g.tile.itemRows)
    ensures forall q :: q in col ==> q.i == i && Stored(g, p, q)
    ensures forall q: Slot :: q.i == i && Stored(g, p, q) ==> q in col && col[q] == StoredWrite(g, p, reg, cPtr, q)
  {
  }

  /* --------------------------- operand loads --------------------------- */

  /** Pointer steps of the k loop: `A += trans_a ? 1 : lda`, `B += trans_b ? ldb : 1`. */
  function AStep(g: Gemm): int { if g.transA then 1 else Lda(g) }
  function BStep(g: Gemm): int { if g.transB then Ldb(g) else 1 }

  /** `A_ptr_index` and `B_ptr_index`: the distance between the packets of
      one work item in a column of `op(A)` and a row of `op(B)`. */
  function AIndex(g: Gemm, p: Place): int
  {
    (if g.transA then Lda(g) else 1) * g.tile.wgRows * p.ap
  }

  function BIndex(g: Gemm, p: Place): int
  {
    (if g.transB then 1 else Ldb(g)) * g.tile.wgCols * p.bp
  }

  /** `orig_A`, `orig_B` and `orig_C` of an item for batch `b`. */
  function AStart(g: Gemm, p: Place, b: int): int
  {
    BatchA(g, b) + p.dimM * (if g.transA then Lda(g) else 1)
  }

  function BStart(g: Gemm, p: Place, b: int): int
  {
    BatchB(g, b) + p.dimN * (if g.transB then 1 else Ldb(g))
  }

  function CStart(g: Gemm, p: Place, b: int): int
  {
    BatchC(g, b) + p.dimM + p.dimN * Ldc(g)
  }

  /** At step `kk`, element `j` loaded from A is `op(A)[row, kk]` for the
      row of row register `j`; on the boundary path the load's test on the
      packet's last index is the test `row < m`. */
  lemma ALoadAddress(g: Gemm, p: Place, b: int, kk: int, j: int)
    requires PathOk(g, p) && j >= 0
    ensures AStart(g, p, b) + kk * AStep(g) + (j / p.ap) * AIndex(g, p) + j % p.ap
         == BatchA(g, b) + OpAOffset(g, SlotRow(g, p, j), kk)
    ensures !p.internal ==>
      (p.dimM + (j / p.ap) * (g.tile.wgRows * p.ap) + p.ap - 1 < M(g) <==> SlotRow(g, p, j) < M(g))
  {
    var w := g.tile.wgRows;
    if g.transA {
      SlotOffsetUnit(j, w);
      assert (p.dimM + j * w) * Lda(g) == p.dimM * Lda(g) + j * (Lda(g) * w * 1);
    } else {
      assert (j / p.ap) * (1 * w * p.ap) == (j / p.ap) * w * p.ap;
    }
    if !p.internal {
      SlotOffsetUnit(j, w);
    }
  }

  /** At step `kk`, element `i` loaded from B is `op(B)[kk, col]` for the
      column of column register `i`. */
  lemma BLoadAddress(g: Gemm, p: Place, b: int, kk: int, i: int)
    requires PathOk(g, p) && i >= 0
    ensures BStart(g, p, b) + kk * BStep(g) + (i / p.bp) * BIndex(g, p) + i % p.bp
         == BatchB(g, b) + OpBOffset(g, kk, SlotCol(g, p, i))
    ensures !p.internal ==>
      (p.dimN + (i / p.bp) * (g.tile.wgCols * p.bp) + p.bp - 1 < N(g) <==> SlotCol(g, p, i) < N(g))
  {
    var w := g.tile.wgCols;
    if g.transB {
      assert (i / p.bp) * (1 * w * p.bp) == (i / p.bp) * w * p.bp;
    } else {
      SlotOffsetUnit(i, w);
      assert (p.dimN + i * w) * Ldb(g) == p.dimN * Ldb(g) + i * (Ldb(g) * w * 1);
    }
    if !p.internal {
      SlotOffsetUnit(i, w);
    }
  }

  /** What `load` put in `reg_a` at step `kk` is, for every row register
      whose row is in range, the matching entry of `op(A)`. */
  lemma LoadedA(g: Gemm, p: Place, mem: Memory, b: int, kk: int, regA: seq<real>)
    requires PathOk(g, p) && !p.outOfRange && |regA| == g.tile.itemRows
    requires forall s :: 0 <= s < g.tile.itemRows ==>
      regA[s] == if !(!p.internal) || p.dimM + (s / p.ap) * (g.tile.wgRows * p.ap) + p.ap - 1 < M(g)
                 then mem(AStart(g, p, b) + kk * AStep(g) + (s / p.ap) * AIndex(g, p) + s % p.ap) else 0.0
    ensures forall j :: 0 <= j < g.tile.itemRows && (p.internal || SlotRow(g, p, j) < M(g)) ==>
      regA[j] == mem(BatchA(g, b) + OpAOffset(g, SlotRow(g, p, j), kk))
  {
    forall j | 0 <= j < g.tile.itemRows && (p.internal || SlotRow(g, p, j) < M(g))
      ensures regA[j] == mem(BatchA(g, b) + OpAOffset(g, SlotRow(g, p, j), kk))
    {
      ALoadAddress(g, p, b, kk, j);
    }
  }

  /** The same for `reg_b` and the columns of `op(B)`. */
  lemma LoadedB(g: Gemm, p: Place, mem: Memory, b: int, kk: int, regB: seq<real>)
    requires PathOk(g, p) && !p.outOfRange && |regB| == g.tile.itemCols
    requires forall s :: 0 <= s < g.tile.itemCols ==>
      regB[s] == if !(!p.internal) || p.dimN + (s / p.bp) * (g.tile.wgCols * p.bp) + p.bp - 1 < N(g)
                 then mem(BStart(g, p, b) + kk * BStep(g) + (s / p.bp) * BIndex(g, p) + s % p.bp) else 0.0
    ensures forall i :: 0 <= i < g.tile.itemCols && (p.internal || SlotCol(g, p, i) < N(g)) ==>
      regB[i] == mem(BatchB(g, b) + OpBOffset(g, kk, SlotCol(g, p, i)))
  {
    forall i | 0 <= i < g.tile.itemCols && (p.internal || SlotCol(g, p, i) < N(g))
      ensures regB[i] == mem(BatchB(g, b) + OpBOffset(g, kk, SlotCol(g, p, i)))
    {
      BLoadAddress(g, p, b, kk, i);
    }
  }
  /* ------------------------- one batch of C ------------------------- */

  /** `w` is the final store of register `q` for batch `b`: `alpha *
      op(A) * op(B) + beta * C` at the register's element. */
  ghost predicate IsResult(g: Gemm, p: Place, mem: Memory, b: int, q: Slot, w: Write)
    requires PathOk(g, p)
  {
    var r, c := SlotRow(g, p, q.j), SlotCol(g, p, q.i);
    w == Write(CAddr(g, b, r, c), Expected(g, mem, b, r, c))
  }

  /** The stores of one item for batch `b`: exactly its live registers,
      each with its final value. */
  ghost predicate BatchStores(g: Gemm, p: Place, mem: Memory, b: int, bw: map<Slot, Write>)
    requires PathOk(g, p)
  {
    (forall q :: q in bw ==> Stored(g, p, q)) &&
    (forall q :: Stored(g, p, q) ==> q in bw && IsResult(g, p, mem, b, q, bw[q]))
  }

  /** The element of register `(i, j)` seen from the item's C pointer is
      `C[row, col]` of the batch. */
  lemma CAddrOfSlot(g: Gemm, p: Place, b: int, i: int, j: int)
    requires PathOk(g, p)
    ensures CStart(g, p, b) + CSlotOffset(g, p, i, j) == CAddr(g, b, SlotRow(g, p, j), SlotCol(g, p, i))
  {
    var so := SlotOffset(i, p.bp, g.tile.wgCols);
    assert (p.dimN + so) * Ldc(g) == p.dimN * Ldc(g) + so * Ldc(g);
  }

  /** The accumulator after the k loop, scaled by `alpha_`, is the GEMM value. */
  lemma FinalValue(g: Gemm, p: Place, mem: Memory, b: int, q: Slot, init: Regs, res: Regs)
    requires PathOk(g, p) && (!g.betaZero ==> g.alpha != 0.0) && Shaped(g.tile, init) && Shaped(g.tile, res)
    requires Stored(g, p, q)
    requires init[q.i][q.j] == if g.betaZero then 0.0
                               else ScaledBeta(g) * mem(CStart(g, p, b) + CSlotOffset(g, p, q.i, q.j))
    requires res[q.i][q.j] == init[q.i][q.j] + Dot(g, mem, b, SlotRow(g, p, q.j), SlotCol(g, p, q.i), K(g))
    ensures IsResult(g, p, mem, b, q, StoredWrite(g, p, res, CStart(g, p, b), q))
  {
    CAddrOfSlot(g, p, b, q.i, q.j);
  }

  /** Putting `scaling_c`, the k loop and `store` together for one batch. */
  lemma BatchResult(g: Gemm, p: Place, mem: Memory, b: int, init: Regs, res: Regs, writes: map<Slot, Write>)
    requires PathOk(g, p) && (!g.betaZero ==> g.alpha != 0.0) && Shaped(g.tile, init) && Shaped(g.tile, res)
    requires forall i, j :: 0 <= i < g.tile.itemCols && 0 <= j < g.tile.itemRows && Live(g, p, i, j) ==>
      init[i][j] == if g.betaZero then 0.0 else ScaledBeta(g) * mem(CStart(g, p, b) + CSlotOffset(g, p, i, j))
    requires Accumulated(g, p, mem, b, init, res, K(g))
    requires forall q :: q in writes ==> Stored(g, p, q)
    requires forall q :: Stored(g, p, q) ==> q in writes && writes[q] == StoredWrite(g, p, res, CStart(g, p, b), q)
    ensures BatchStores(g, p, mem, b, writes)
  {
    forall q | Stored(g, p, q)
      ensures IsResult(g, p, mem, b, q, writes[q])
    {
      FinalValue(g, p, mem, b, q, init, res);
    }
  }

  /** One pass of the do-while body of `compute_gemm_no_shared_pannel` for
      batch `b`: `scaling_c`, the k loop, then `store`. `reg_a` and `reg_b`
      carry over between batches. */
  method ComputeBatch(g: Gemm, p: Place, mem: Memory, b: int, aOrig: int, bOrig: int, cOrig: int,
                      regA0: seq<real>, regB0: seq<real>, regInit: Regs)
    returns (writes: map<Slot, Write>, regA: seq<real>, regB: seq<real>)
    requires PathOk(g, p) && (!g.betaZero ==> g.alpha != 0.0)
    requires |regA0| == g.tile.itemRows && |regB0| == g.tile.itemCols && Shaped(g.tile, regInit)
    requires aOrig == AStart(g, p, b) && bOrig == BStart(g, p, b) && cOrig == CStart(g, p, b)
    ensures |regA| == g.tile.itemRows && |regB| == g.tile.itemCols
    ensures BatchStores(g, p, mem, b, writes)
  {
    var init := ScalingC(g, p, mem, cOrig, regInit);
    var res;
    res, regA, regB := KLoop(g, p, mem, b, aOrig, bOrig, init, regA0, regB0);
    writes := Store(g, p, res, cOrig);
    BatchResult(g, p, mem, b, init, res, writes);
  }

  /** After `kk` steps every live register holds its initial value plus
      the first `kk` terms of its dot product. */
  ghost predicate Accumulated(g: Gemm, p: Place, mem: Memory, b: int, init: Regs, res: Regs, kk: nat)
    requires PathOk(g, p) && Shaped(g.tile, init) && Shaped(g.tile, res)
  {
    forall i, j :: 0 <= i < g.tile.itemCols && 0 <= j < g.tile.itemRows && Live(g, p, i, j) ==>
      res[i][j] == init[i][j] + Dot(g, mem, b, SlotRow(g, p, j), SlotCol(g, p, i), kk)
  }

  /** The `while (k > 0)` loop: after it every live accumulator register
      holds its initial value plus the full dot product of its row of
      `op(A)` and column of `op(B)`. */
  method KLoop(g: Gemm, p: Place, mem: Memory, b: int, aOrig: int, bOrig: int, init: Regs,
               regA0: seq<real>, regB0: seq<real>)
    returns (res: Regs, regA: seq<real>, regB: seq<real>)
    requires PathOk(g, p) && Shaped(g.tile, init)
    requires |regA0| == g.tile.itemRows && |regB0| == g.tile.itemCols
    requires aOrig == AStart(g, p, b) && bOrig == BStart(g, p, b)
    ensures Shaped(g.tile, res) && |regA| == g.tile.itemRows && |regB| == g.tile.itemCols
    ensures Accumulated(g, p, mem, b, init, res, K(g))
  {
    var t := g.tile;
    res := init;
    var aPtr, bPtr := aOrig, bOrig;
    regA, regB := regA0, regB0;
    var k := K(g);
    ghost var kk: nat := 0;
    while k > 0
      invariant 0 <= k <= K(g) && kk == K(g) - k
      invariant Shaped(t, res) && |regA| == t.itemRows && |regB| == t.itemCols
      invariant aPtr == aOrig + kk * AStep(g) && bPtr == bOrig + kk * BStep(g)
      invariant Accumulated(g, p, mem, b, init, res, kk)
    {
      res, regA, regB := KStep(g, p, mem, b, kk, aPtr, bPtr, init, res, regA, regB);
      k := k - 1;
      PointerStep(aOrig, kk, AStep(g));
      PointerStep(bOrig, kk, BStep(g));
      aPtr := aPtr + AStep(g);
      bPtr := bPtr + BStep(g);
      kk := kk + 1;
    }
  }

  /** A pointer advanced by `s` once per step. */
  lemma PointerStep(origin: int, kk: int, s: int)
    ensures origin + kk * s + s == origin + (kk + 1) * s
  {
  }

  /** One pass of the k loop: load both operands for step `kk` and add their
      outer product to the accumulator. */
  method KStep(g: Gemm, p: Place, mem: Memory, b: int, ghost kk: nat, aPtr: int, bPtr: int, ghost init: Regs,
               prev: Regs, regA0: seq<real>, regB0: seq<real>)
    returns (res: Regs, regA: seq<real>, regB: seq<real>)
    requires PathOk(g, p) && Shaped(g.tile, init) && Shaped(g.tile, prev)
    requires |regA0| == g.tile.itemRows && |regB0| == g.tile.itemCols
    requires aPtr == AStart(g, p, b) + kk * AStep(g) && bPtr == BStart(g, p, b) + kk * BStep(g)
    requires Accumulated(g, p, mem, b, init, prev, kk)
    ensures Shaped(g.tile, res) && |regA| == g.tile.itemRows && |regB| == g.tile.itemCols
    ensures Accumulated(g, p, mem, b, init, res, kk + 1)
  {
    regA, regB := LoadOperands(g, p, mem, b, kk, aPtr, bPtr, regA0, regB0);
    res := ComputeBlock(g.tile, regA, regB, prev);
    if !p.outOfRange {
      AccumulateStep(g, p, mem, b, kk, regA, regB, init, prev, res);
    }
  }

  /** The two `load` calls of one k step: for an in-range item, every
      register whose row (column) is inside C receives its entry of `op(A)`
      (`op(B)`) for step `kk`. */
  method LoadOperands(g: Gemm, p: Place, mem: Memory, b: int, ghost kk: int, aPtr: int, bPtr: int,
                      regA0: seq<real>, regB0: seq<real>)
    returns (regA: seq<real>, regB: seq<real>)
    requires PathOk(g, p) && |regA0| == g.tile.itemRows && |regB0| == g.tile.itemCols
    requires aPtr == AStart(g, p, b) + kk * AStep(g) && bPtr == BStart(g, p, b) + kk * BStep(g)
    ensures |regA| == g.tile.itemRows && |regB| == g.tile.itemCols
    ensures p.outOfRange ==> regA == regA0 && regB == regB0
    ensures !p.outOfRange ==> forall j :: 0 <= j < g.tile.itemRows && (p.internal || SlotRow(g, p, j) < M(g)) ==>
      regA[j] == mem(BatchA(g, b) + OpAOffset(g, SlotRow(g, p, j), kk))
    ensures !p.outOfRange ==> forall i :: 0 <= i < g.tile.itemCols && (p.internal || SlotCol(g, p, i) < N(g)) ==>
      regB[i] == mem(BatchB(g, b) + OpBOffset(g, kk, SlotCol(g, p, i)))
  {
    var t := g.tile;
    regA := Load(mem, aPtr, AIndex(g, p), p.dimM, t.itemRows, t.wgRows * p.ap, !p.internal, p.ap, M(g), p.outOfRange, regA0);
    regB := Load(mem, bPtr, BIndex(g, p), p.dimN, t.itemCols, t.wgCols * p.bp, !p.internal, p.bp, N(g), p.outOfRange, regB0);
    if !p.outOfRange {
      LoadedA(g, p, mem, b, kk, regA);
      LoadedB(g, p, mem, b, kk, regB);
    }
  }

  /** One k step keeps the loop's invariant: the rank-1 update adds the
      `kk`-th term of each live register's dot product. */
  lemma AccumulateStep(g: Gemm, p: Place, mem: Memory, b: int, kk: nat,
                       regA: seq<real>, regB: seq<real>, init: Regs, prev: Regs, res: Regs)
    requires PathOk(g, p) && Shaped(g.tile, init) && Shaped(g.tile, prev) && Shaped(g.tile, res)
    requires |regA| == g.tile.itemRows && |regB| == g.tile.itemCols
    requires forall j :: 0 <= j < g.tile.itemRows && (p.internal || SlotRow(g, p, j) < M(g)) ==>
      regA[j] == mem(BatchA(g, b) + OpAOffset(g, SlotRow(g, p, j), kk))
    requires forall i :: 0 <= i < g.tile.itemCols && (p.internal || SlotCol(g, p, i) < N(g)) ==>
      regB[i] == mem(BatchB(g, b) + OpBOffset(g, kk, SlotCol(g, p, i)))
    requires Accumulated(g, p, mem, b, init, prev, kk)
    requires forall i, j :: 0 <= i < g.tile.itemCols && 0 <= j < g.tile.itemRows ==>
      res[i][j] == prev[i][j] + regA[j] * regB[i]
    ensures Accumulated(g, p, mem, b, init, res, kk + 1)
  {
    forall i, j | 0 <= i < g.tile.itemCols && 0 <= j < g.tile.itemRows && Live(g, p, i, j)
      ensures res[i][j] == init[i][j] + Dot(g, mem, b, SlotRow(g, p, j), SlotCol(g, p, i), kk + 1)
    {
      var r, c := SlotRow(g, p, j), SlotCol(g, p, i);
      assert p.internal || (r < M(g) && c < N(g));
      assert regA[j] * regB[i] == mem(BatchA(g, b) + OpAOffset(g, r, kk)) * mem(BatchB(g, b) + OpBOffset(g, kk, c));
      assert prev[i][j] == init[i][j] + Dot(g, mem, b, r, c, kk);
    }
  }
  /* ------------------------- the batch loop ------------------------- */

  /** Moving a batch pointer by `stride` batches: `(b + s) * st == b * st + st * s`. */
  lemma BatchAdvance(b: int, s: int, st: int)
    ensures (b + s) * st == b * st + st * s
  {
  }

  /** The visited batches below `b + stride` are those below `b` and `b`
      itself, when `b` is visited. */
  lemma NextBatch(wgBatch: int, stride: int, batchSize: int, b: int, steps: int, x: int)
    requires stride >= 1 && steps >= 0 && b == wgBatch + steps * stride
    ensures Processed(wgBatch, stride, batchSize, x) && x < b + stride <==>
      (Processed(wgBatch, stride, batchSize, x) && x < b) || (x == b && b < batchSize)
  {
    DivModUnique(b - wgBatch, stride, steps, 0);
    if Processed(wgBatch, stride, batchSize, x) && b <= x < b + stride {
      var tb, tx := steps, (x - wgBatch) / stride;
      assert x - wgBatch == tx * stride;
      assert (tx - tb) * stride == tx * stride - tb * stride;
      if tx - tb >= 1 {
        MulMonoLeft(1, tx - tb, stride);
      } else if tx - tb <= -1 {
        MulMonoLeft(tx - tb, -1, stride);
      }
    }
  }

  /** `compute_gemm_no_shared_pannel`: the do-while over batches. The loop
      counter is `batch_size`, decreased by `batch_stride` per pass until
      it no longer exceeds `wg_batch_id`; `b` is the batch the pointers
      stand at. The result maps each visited batch to the item's stores
      for it. */
  method ComputePanel(g: Gemm, p: Place, mem: Memory, regA0: seq<real>, regB0: seq<real>, regInit: Regs)
    returns (writes: map<int, map<Slot, Write>>)
    requires PathOk(g, p) && (!g.betaZero ==> g.alpha != 0.0)
    requires |regA0| == g.tile.itemRows && |regB0| == g.tile.itemCols && Shaped(g.tile, regInit)
    requires p.batchStride >= 1 && 0 <= p.wgBatch < g.batchSize
    ensures forall x :: x in writes <==> Processed(p.wgBatch, p.batchStride, g.batchSize, x)
    ensures forall x :: x in writes ==> BatchStores(g, p, mem, x, writes[x])
  {
    var aOrig, bOrig, cOrig := AStart(g, p, p.wgBatch), BStart(g, p, p.wgBatch), CStart(g, p, p.wgBatch);
    var batchSize := g.batchSize;
    var b := p.wgBatch;
    var regA, regB := regA0, regB0;
    writes := map[];
    var more := true;
    ghost var steps := 0;
    while more
      invariant steps >= 0 && b == p.wgBatch + steps * p.batchStride
      invariant batchSize == g.batchSize - (b - p.wgBatch)
      invariant more <==> b < g.batchSize
      invariant aOrig == AStart(g, p, b) && bOrig == BStart(g, p, b) && cOrig == CStart(g, p, b)
      invariant |regA| == g.tile.itemRows && |regB| == g.tile.itemCols
      invariant forall x :: x in writes <==> Processed(p.wgBatch, p.batchStride, g.batchSize, x) && x < b
      invariant forall x :: x in writes ==> BatchStores(g, p, mem, x, writes[x])
      decreases if more then g.batchSize - b + 1 else 0
    {
      var bw;
      bw, regA, regB := ComputeBatch(g, p, mem, b, aOrig, bOrig, cOrig, regA, regB, regInit);
      writes := writes[b := bw];
      BatchAdvance(b, p.batchStride, g.strideA);
      BatchAdvance(b, p.batchStride, g.strideB);
      BatchAdvance(b, p.batchStride, g.strideC);
      aOrig := aOrig + g.strideA * p.batchStride;
      bOrig := bOrig + g.strideB * p.batchStride;
      cOrig := cOrig + g.strideC * p.batchStride;
      batchSize := batchSize - p.batchStride;
      forall x
        ensures Processed(p.wgBatch, p.batchStride, g.batchSize, x) && x < b + p.batchStride <==>
          (Processed(p.wgBatch, p.batchStride, g.batchSize, x) && x < b) || x == b
      {
        NextBatch(p.wgBatch, p.batchStride, g.batchSize, b, steps, x);
      }
      assert b + p.batchStride == p.wgBatch + (steps + 1) * p.batchStride;
      b := b + p.batchStride;
      steps := steps + 1;
      more := batchSize > p.wgBatch;
    }
  }
  /* ------------------------------- eval ------------------------------- */

  lemma SlotOffsetNonNeg(j: int, packet: int, width: int)
    requires j >= 0 && packet >= 1 && width >= 1
    ensures SlotOffset(j, packet, width) >= 0
  {
    MulNonNeg(j / packet, width);
    MulNonNeg((j / packet) * width, packet);
  }

  /** For a decoded item, a register is live exactly when its element lies
      inside C: on the internal path every element of the tile does, and on
      the boundary path an in-bounds element puts the item's first element
      in bounds too, so the item is not out of range. */
  lemma LiveIff(g: Gemm, groupRange: int, group: int, itemId: int, i: int, j: int)
    requires WellFormed(g) && WorkgroupCluster(g) > 0 && groupRange >= 0 && group >= 0
    requires 0 <= itemId < WgSize(g.tile) && 0 <= i < g.tile.itemCols && 0 <= j < g.tile.itemRows
    ensures var p := Locate(g, groupRange, group, itemId);
      PathOk(g, p) && (Live(g, p, i, j) <==> InBounds(M(g), N(g), SlotRow(g, p, j), SlotCol(g, p, i)))
  {
    var p := Locate(g, groupRange, group, itemId);
    var t := g.tile;
    if p.internal {
      SlotInTile(g, groupRange, group, itemId, i, j);
      SlotInTile(g, groupRange, group, itemId, 0, 0);
      TileSlotRange(t, p.ap, p.bp, itemId, i, j);
      TileSlotRange(t, p.ap, p.bp, itemId, 0, 0);
      InternalBlockIff(g, groupRange, group, itemId);
      SlotZero(g, p);
    } else {
      SlotOffsetNonNeg(j, p.ap, t.wgRows);
      SlotOffsetNonNeg(i, p.bp, t.wgCols);
    }
  }

  /** `eval` for work item `itemId` of group `group`: decode the item, leave
      at once when its first batch is past the end, otherwise run the batch
      loop. The stores it makes are exactly the (batch, register) pairs
      `GemmTiling.Writes` assigns to it, each with the GEMM value. */
  method Eval(g: Gemm, computeUnits: int, group: int, itemId: int, mem: Memory,
              regA0: seq<real>, regB0: seq<real>, regInit: Regs)
    returns (writes: map<int, map<Slot, Write>>)
    requires WellFormed(g) && WorkgroupCluster(g) > 0 && computeUnits >= 1
    requires 0 <= group < NumGroups(g, computeUnits) && 0 <= itemId < WgSize(g.tile)
    requires !g.betaZero ==> g.alpha != 0.0
    requires |regA0| == g.tile.itemRows && |regB0| == g.tile.itemCols && Shaped(g.tile, regInit)
    ensures var p := Locate(g, NumGroups(g, computeUnits), group, itemId);
      forall b, q: Slot :: 0 <= q.i < g.tile.itemCols && 0 <= q.j < g.tile.itemRows ==>
        (b in writes && q in writes[b] <==>
         Writes(g, computeUnits, group, itemId, q.i, q.j, b, SlotRow(g, p, q.j), SlotCol(g, p, q.i)))
    ensures var p := Locate(g, NumGroups(g, computeUnits), group, itemId);
      forall b, q :: b in writes && q in writes[b] ==>
        0 <= q.i < g.tile.itemCols && 0 <= q.j < g.tile.itemRows && IsResult(g, p, mem, b, q, writes[b][q])
  {
    var range := NumGroups(g, computeUnits);
    var p := Locate(g, range, group, itemId);
    if p.wgBatch >= g.batchSize {
      return map[];
    }
    BatchStrideOfLaunch(g, computeUnits, group, itemId);
    writes := ComputePanel(g, p, mem, regA0, regB0, regInit);
    forall q: Slot | 0 <= q.i < g.tile.itemCols && 0 <= q.j < g.tile.itemRows
      ensures Live(g, p, q.i, q.j) <==> InBounds(M(g), N(g), SlotRow(g, p, q.j), SlotCol(g, p, q.i))
    {
      LiveIff(g, range, group, itemId, q.i, q.j);
    }
  }
}

=== FILE: gemm_tiling.dfy ===
/** Work partition of the batched, no-local-memory, partially vectorised GEMM
    kernel: how the launch is sized, how a linear group id and a local item id
    are decoded into a batch slice, a tile and a position inside the tile, and
    which output element each register slot of a work item stands for.

    Sizes are C++ `index_t` values, modelled as unbounded integers; the
    truncating division of the source is `TruncDiv` wherever the dividend can
    be negative. */
module GemmTiling {
  import opened Arith
  import opened Views

  /** Compile-time tile parameters: registers per work item, work items per
      work group in each dimension, and the vector packet size. */
  datatype Tile = Tile(itemRows: int, itemCols: int, wgRows: int, wgCols: int, packetSize: int)

  /** The kernel's static assertions, together with positive sizes. */
  predicate ValidTile(t: Tile)
  {
    t.itemRows >= 1 && t.itemCols >= 1 && t.wgRows >= 1 && t.wgCols >= 1 && t.packetSize >= 1 &&
    t.wgCols * t.itemCols == t.itemRows * t.wgRows &&
    t.itemRows % t.packetSize == 0 && t.itemCols % t.packetSize == 0
  }

  /** Rows of a work-group tile. */
  function BlockRows(t: Tile): (r: int)
    requires ValidTile(t)
    ensures r >= t.itemRows && r >= t.wgRows
  {
    MulMonoLeft(1, t.wgRows, t.itemRows);
    MulMonoLeft(1, t.itemRows, t.wgRows);
    t.wgRows * t.itemRows
  }

  /** Columns of a work-group tile. */
  function BlockCols(t: Tile): (r: int)
    requires ValidTile(t)
    ensures r >= t.itemCols && r >= t.wgCols
  {
    MulMonoLeft(1, t.wgCols, t.itemCols);
    MulMonoLeft(1, t.itemCols, t.wgCols);
    t.wgCols * t.itemCols
  }

  /** Work items per work group. */
  function WgSize(t: Tile): (r: int)
    requires ValidTile(t)
    ensures r >= t.wgRows && r >= t.wgCols
  {
    MulMonoLeft(1, t.wgRows, t.wgCols);
    MulMonoLeft(1, t.wgCols, t.wgRows);
    t.wgRows * t.wgCols
  }

  /** Accumulator registers per work item. */
  function RegCount(t: Tile): (r: int)
    requires ValidTile(t)
    ensures r >= t.itemRows && r >= t.itemCols
  {
    MulMonoLeft(1, t.itemCols, t.itemRows);
    MulMonoLeft(1, t.itemRows, t.itemCols);
    t.itemRows * t.itemCols
  }

  /** A valid tile is square, its side is a whole number of packets, and
      the registers of all its work items exactly add up to its area. */
  lemma TileShape(t: Tile)
    requires ValidTile(t)
    ensures BlockRows(t) == BlockCols(t)
    ensures BlockRows(t) % t.packetSize == 0
    ensures WgSize(t) * RegCount(t) == BlockRows(t) * BlockCols(t)
  {
    MulSwapMiddle(t.wgRows, t.wgCols, t.itemRows, t.itemCols);
    var q := t.itemRows / t.packetSize;
    assert t.itemRows == q * t.packetSize;
    assert BlockRows(t) == (t.wgRows * q) * t.packetSize;
    MulNonNeg(t.wgRows, q);
    DivModUnique(BlockRows(t), t.packetSize, t.wgRows * q, 0);
  }

  /** The kernel object: operands as matrix views, the scalars, and the
      strided batch description. `beta` is kept as given; the kernel's
      constructor stores `beta / alpha`, see `ScaledBeta`. */
  datatype Gemm = Gemm(
    tile: Tile, transA: bool, transB: bool, betaZero: bool,
    a: MatrixView, b: MatrixView, c: MatrixView,
    alpha: real, beta: real,
    batchSize: int, strideA: int, strideB: int, strideC: int)

  function M(g: Gemm): int { GetSizeRow(g.a) }
  function N(g: Gemm): int { GetSizeCol(g.b) }
  function K(g: Gemm): int { GetSizeCol(g.a) }
  function Lda(g: Gemm): int { GetSizeL(g.a) }
  function Ldb(g: Gemm): int { GetSizeL(g.b) }
  function Ldc(g: Gemm): int { GetSizeL(g.c) }

  predicate WellFormed(g: Gemm)
  {
    ValidTile(g.tile) && M(g) >= 0 && N(g) >= 0 && K(g) >= 0
  }

  /** The value the constructor stores as `beta_`. */
  function ScaledBeta(g: Gemm): (r: real)
    requires g.alpha != 0.0
    ensures g.alpha * r == g.beta
  {
    g.beta / g.alpha
  }

  /* --------------------------- launch sizing --------------------------- */

  /** `(m - 1) / block_rows + 1`, tiles down the rows of C. */
  function BlocksPerRow(g: Gemm): (r: int)
    requires WellFormed(g)
    ensures M(g) >= 1 ==> r >= 1 && IsCeilDiv(M(g), BlockRows(g.tile), r)
    ensures M(g) == 0 ==> r == (if BlockRows(g.tile) == 1 then 0 else 1)
  {
    var d := BlockRows(g.tile);
    if M(g) >= 1 then
      TruncCeil(M(g), d);
      TruncDiv(M(g) - 1, d) + 1
    else
      TruncCeilZero(d);
      TruncDiv(M(g) - 1, d) + 1
  }

  /** `(n - 1) / block_cols + 1`, tiles across the columns of C. */
  function BlocksPerCol(g: Gemm): (r: int)
    requires WellFormed(g)
    ensures N(g) >= 1 ==> r >= 1 && IsCeilDiv(N(g), BlockCols(g.tile), r)
    ensures N(g) == 0 ==> r == (if BlockCols(g.tile) == 1 then 0 else 1)
  {
    var d := BlockCols(g.tile);
    if N(g) >= 1 then
      TruncCeil(N(g), d);
      TruncDiv(N(g) - 1, d) + 1
    else
      TruncCeilZero(d);
      TruncDiv(N(g) - 1, d) + 1
  }

  /** `get_workgroup_cluster`: the work groups needed for one GEMM of the
      batch, one per tile of C. */
  function WorkgroupCluster(g: Gemm): (r: int)
    requires WellFormed(g)
    ensures r >= 0
    ensures r > 0 <==> BlocksPerRow(g) > 0 && BlocksPerCol(g) > 0
    ensures M(g) >= 1 && N(g) >= 1 ==> r >= 1
  {
    var br, bc := BlocksPerRow(g), BlocksPerCol(g);
    MulNonNeg(br, bc);
    if br > 0 && bc > 0 then
      MulMonoLeft(1, br, bc);
      br * bc
    else
      br * bc
  }

  /** For non-empty C, the cluster is the number of tiles of the
      `ceil(m / block_rows) x ceil(n / block_cols)` tile grid. */
  lemma WorkgroupClusterIsTileCount(g: Gemm)
    requires WellFormed(g) && M(g) >= 1 && N(g) >= 1
    ensures IsCeilDiv(M(g), BlockRows(g.tile), BlocksPerRow(g))
    ensures IsCeilDiv(N(g), BlockCols(g.tile), BlocksPerCol(g))
    ensures WorkgroupCluster(g) == BlocksPerRow(g) * BlocksPerCol(g) >= 1
  {
  }

  /** With no rows and one-row tiles the cluster is empty, so the later
      divisions by it are undefined; with larger tiles one (idle) tile
      row remains. */
  lemma WorkgroupClusterNoRows(g: Gemm)
    requires WellFormed(g) && M(g) == 0
    ensures BlockRows(g.tile) == 1 ==> WorkgroupCluster(g) == 0
    ensures BlockRows(g.tile) > 1 ==> WorkgroupCluster(g) == BlocksPerCol(g)
  {
  }

  /** `get_num_workgroup_cluster`: how many copies of the cluster are
      launched so that each compute unit gets at least four GEMMs' worth. */
  function NumWorkgroupCluster(g: Gemm, computeUnits: int): (r: int)
    requires WellFormed(g) && WorkgroupCluster(g) > 0 && computeUnits >= 0
    ensures computeUnits >= 1 ==> r >= 1 && IsCeilDiv(4 * computeUnits, WorkgroupCluster(g), r)
    ensures computeUnits == 0 ==> r == (if WorkgroupCluster(g) == 1 then 0 else 1)
  {
    var cluster := WorkgroupCluster(g);
    if computeUnits >= 1 then
      TruncCeil(4 * computeUnits, cluster);
      TruncDiv(4 * computeUnits - 1, cluster) + 1
    else
      TruncCeilZero(cluster);
      TruncDiv(4 * computeUnits - 1, cluster) + 1
  }

  /** The launched work groups cover at least four GEMMs per compute unit,
      and one cluster fewer would not. */
  lemma NumWorkgroupClusterBounds(g: Gemm, computeUnits: int)
    requires WellFormed(g) && WorkgroupCluster(g) > 0 && computeUnits >= 1
    ensures NumWorkgroupCluster(g, computeUnits) >= 1
    ensures WorkgroupCluster(g) * NumWorkgroupCluster(g, computeUnits) >= 4 * computeUnits
    ensures WorkgroupCluster(g) * (NumWorkgroupCluster(g, computeUnits) - 1) < 4 * computeUnits
  {
    var cluster, r := WorkgroupCluster(g), NumWorkgroupCluster(g, computeUnits);
    assert (r - 1) * cluster < 4 * computeUnits <= r * cluster;
  }

  /** A one-dimensional SYCL launch: global and local work sizes. */
  datatype NdRange = NdRange(global: int, local: int)

  /** The number of work groups launched. */
  function NumGroups(g: Gemm, computeUnits: int): (r: int)
    requires WellFormed(g) && WorkgroupCluster(g) > 0 && computeUnits >= 0
    ensures r >= 0
    ensures computeUnits >= 1 ==> r >= WorkgroupCluster(g)
  {
    var cluster, num := WorkgroupCluster(g), NumWorkgroupCluster(g, computeUnits);
    MulNonNeg(cluster, num);
    if computeUnits >= 1 then
      MulMonoLeft(1, num, cluster);
      cluster * num
    else
      cluster * num
  }

  /** `get_nd_range`. */
  function GetNdRange(g: Gemm, computeUnits: int): (r: NdRange)
    requires WellFormed(g) && WorkgroupCluster(g) > 0 && computeUnits >= 0
    ensures r.local == WgSize(g.tile) >= 1
    ensures r.global % r.local == 0
    ensures r.global / r.local == NumGroups(g, computeUnits)
  {
    var groups, wgs := NumGroups(g, computeUnits), WgSize(g.tile);
    DivModUnique(groups * wgs, wgs, groups, 0);
    NdRange(groups * wgs, wgs)
  }

  /* ------------------------- decoding an item ------------------------- */

  /** Everything a work item derives from its group id and local id before
      computing. `ap` and `bp` are the packet widths along the rows of A
      and the columns of B on the path the tile takes. */
  datatype Place = Place(
    wgBatch: int, batchStride: int, wgId: int,
    tileRow: int, tileCol: int, wgRow: int, wgCol: int,
    internal: bool, ap: int, bp: int,
    dimM: int, dimN: int, outOfRange: bool)

  /** The index decoding at the top of `eval`. */
  function Locate(g: Gemm, groupRange: int, group: int, itemId: int): (p: Place)
    requires WellFormed(g) && WorkgroupCluster(g) > 0
    requires groupRange >= 0 && group >= 0 && itemId >= 0
    ensures p.wgBatch * WorkgroupCluster(g) + p.wgId == group
    ensures 0 <= p.wgId < WorkgroupCluster(g)
    ensures 0 <= p.tileRow < BlocksPerRow(g) && p.tileCol >= 0
    ensures p.wgId == p.tileCol * BlocksPerRow(g) + p.tileRow
    ensures g.transA || !p.internal ==> p.ap == 1
    ensures !g.transB || !p.internal ==> p.bp == 1
    ensures p.internal && !g.transA ==> p.ap == g.tile.packetSize
    ensures p.internal && g.transB ==> p.bp == g.tile.packetSize
    ensures p.ap >= 1 && p.bp >= 1 && g.tile.itemRows % p.ap == 0 && g.tile.itemCols % p.bp == 0
    ensures p.outOfRange <==> !(p.dimM < M(g) && p.dimN < N(g))
  {
    var t := g.tile;
    var cluster := WorkgroupCluster(g);
    var wgBatch := group / cluster;
    var batchStride := groupRange / cluster;
    var nbpr := BlocksPerRow(g);
    var wgId := group % cluster;
    DivModSplit(group, cluster);
    var tileRow := wgId % nbpr;
    var tileCol := wgId / nbpr;
    DivModSplit(wgId, nbpr);
    var wgRow := tileRow * BlockRows(t);
    var wgCol := tileCol * BlockCols(t);
    var internal := M(g) - wgRow >= BlockRows(t) && N(g) - wgCol >= BlockCols(t);
    var aPacket := if g.transA then 1 else t.packetSize;
    var bPacket := if g.transB then t.packetSize else 1;
    var ap := if internal then aPacket else 1;
    var bp := if internal then bPacket else 1;
    var localRow := itemId % t.wgRows * ap;
    var localCol := itemId / t.wgRows * bp;
    var outOfRange := localRow + wgRow >= M(g) || localCol + wgCol >= N(g);
    Place(wgBatch, batchStride, wgId, tileRow, tileCol, wgRow, wgCol,
          internal, ap, bp, localRow + wgRow, localCol + wgCol, outOfRange)
  }

  /** A linear tile id names exactly one cell of the tile grid:
      `wg_id -> (wg_id % blocks_per_row, wg_id / blocks_per_row)` maps
      `[0, cluster)` into the grid, and every grid cell is the image of
      `tile_col * blocks_per_row + tile_row`. */
  lemma TileGrid(g: Gemm, wgId: int, tileRow: int, tileCol: int)
    requires WellFormed(g) && WorkgroupCluster(g) > 0
    ensures 0 <= wgId < WorkgroupCluster(g) ==>
      0 <= wgId % BlocksPerRow(g) < BlocksPerRow(g) && 0 <= wgId / BlocksPerRow(g) < BlocksPerCol(g)
    ensures 0 <= tileRow < BlocksPerRow(g) && 0 <= tileCol < BlocksPerCol(g) ==>
      var w := tileCol * BlocksPerRow(g) + tileRow;
      0 <= w < WorkgroupCluster(g) && w % BlocksPerRow(g) == tileRow && w / BlocksPerRow(g) == tileCol
  {
    var br, bc := BlocksPerRow(g), BlocksPerCol(g);
    assert WorkgroupCluster(g) == br * bc;
    if 0 <= wgId < WorkgroupCluster(g) {
      QuotientBelow(wgId, br, bc);
    }
    if 0 <= tileRow < br && 0 <= tileCol < bc {
      var w := tileCol * br + tileRow;
      DivModUnique(w, br, tileCol, tileRow);
      MulNonNeg(tileCol, br);
      MulStrictLeft(tileCol, bc, br);
      assert bc * br == br * bc;
    }
  }

  /** `in_range` test used for the output: both coordinates inside C. */
  predicate InBounds(m: int, n: int, r: int, c: int)
  {
    r < m && c < n
  }

  /** `is_internal_block` holds exactly when every element of the tile lies
      inside C, so the fast path needs no boundary checks. */
  lemma InternalBlockIff(g: Gemm, groupRange: int, group: int, itemId: int)
    requires WellFormed(g) && WorkgroupCluster(g) > 0
    requires groupRange >= 0 && group >= 0 && itemId >= 0
    ensures var p := Locate(g, groupRange, group, itemId);
      p.internal <==>
        forall r, c :: p.wgRow <= r < p.wgRow + BlockRows(g.tile) && p.wgCol <= c < p.wgCol + BlockCols(g.tile) ==>
          InBounds(M(g), N(g), r, c)
  {
    var p := Locate(g, groupRange, group, itemId);
    var br, bc := BlockRows(g.tile), BlockCols(g.tile);
    if !p.internal {
      assert !InBounds(M(g), N(g), p.wgRow + br - 1, p.wgCol + bc - 1);
    }
  }

  /* -------------------------- slot geometry --------------------------- */

  /** Offset of register `j` from the item's first row (or column) when
      packets of `packet` elements are interleaved over `width` items. */
  function SlotOffset(j: int, packet: int, width: int): int
    requires packet >= 1
  {
    (j / packet) * width * packet + j % packet
  }

  /** Row of C held by row register `j` of the item. */
  function SlotRow(g: Gemm, p: Place, j: int): int
    requires p.ap >= 1
  {
    p.dimM + SlotOffset(j, p.ap, g.tile.wgRows)
  }

  /** Column of C held by column register `i` of the item. */
  function SlotCol(g: Gemm, p: Place, i: int): int
    requires p.bp >= 1
  {
    p.dimN + SlotOffset(i, p.bp, g.tile.wgCols)
  }

  /** Register 0 holds the item's first row and first column. */
  lemma SlotZero(g: Gemm, p: Place)
    requires p.ap >= 1 && p.bp >= 1
    ensures SlotRow(g, p, 0) == p.dimM && SlotCol(g, p, 0) == p.dimN
  {
    DivModUnique(0, p.ap, 0, 0);
    DivModUnique(0, p.bp, 0, 0);
  }

  /** The item's registers, seen from its tile: row register `j` is tile
      row `Interleave(item % wg_rows, j, ap, wg_rows)` and column register
      `i` is tile column `Interleave(item / wg_rows, i, bp, wg_cols)`. */
  lemma SlotInTile(g: Gemm, groupRange: int, group: int, itemId: int, i: int, j: int)
    requires WellFormed(g) && WorkgroupCluster(g) > 0
    requires groupRange >= 0 && group >= 0 && itemId >= 0
    ensures var p := Locate(g, groupRange, group, itemId);
      SlotRow(g, p, j) == p.wgRow + Interleave(itemId % g.tile.wgRows, j, p.ap, g.tile.wgRows) &&
      SlotCol(g, p, i) == p.wgCol + Interleave(itemId / g.tile.wgRows, i, p.bp, g.tile.wgCols)
  {
  }

  /** Over the work items of one tile, the `(row, column)` pairs of all
      register slots lie inside the tile ... */
  lemma TileSlotRange(t: Tile, ap: int, bp: int, itemId: int, i: int, j: int)
    requires ValidTile(t) && ap >= 1 && bp >= 1 && t.itemRows % ap == 0 && t.itemCols % bp == 0
    requires 0 <= itemId < WgSize(t) && 0 <= i < t.itemCols && 0 <= j < t.itemRows
    ensures 0 <= Interleave(itemId % t.wgRows, j, ap, t.wgRows) < BlockRows(t)
    ensures 0 <= Interleave(itemId / t.wgRows, i, bp, t.wgCols) < BlockCols(t)
  {
    QuotientBelow(itemId, t.wgRows, t.wgCols);
    InterleaveRange(itemId % t.wgRows, j, ap, t.wgRows, t.itemRows);
    InterleaveRange(itemId / t.wgRows, i, bp, t.wgCols, t.itemCols);
  }

  /** ... no two slots share a pair ... */
  lemma TileSlotInjective(t: Tile, ap: int, bp: int, item1: int, i1: int, j1: int, item2: int, i2: int, j2: int)
    requires ValidTile(t) && ap >= 1 && bp >= 1
    requires 0 <= item1 < WgSize(t) && 0 <= i1 && 0 <= j1
    requires 0 <= item2 < WgSize(t) && 0 <= i2 && 0 <= j2
    requires Interleave(item1 % t.wgRows, j1, ap, t.wgRows) == Interleave(item2 % t.wgRows, j2, ap, t.wgRows)
    requires Interleave(item1 / t.wgRows, i1, bp, t.wgCols) == Interleave(item2 / t.wgRows, i2, bp, t.wgCols)
    ensures item1 == item2 && i1 == i2 && j1 == j2
  {
    QuotientBelow(item1, t.wgRows, t.wgCols);
    QuotientBelow(item2, t.wgRows, t.wgCols);
    InterleaveInjective(item1 % t.wgRows, j1, item2 % t.wgRows, j2, ap, t.wgRows);
    InterleaveInjective(item1 / t.wgRows, i1, item2 / t.wgRows, i2, bp, t.wgCols);
  }

  /** ... and every cell of the tile is some slot's pair. */
  lemma TileSlotOnto(t: Tile, ap: int, bp: int, r: int, c: int) returns (itemId: int, i: int, j: int)
    requires ValidTile(t) && ap >= 1 && bp >= 1 && t.itemRows % ap == 0 && t.itemCols % bp == 0
    requires 0 <= r < BlockRows(t) && 0 <= c < BlockCols(t)
    ensures 0 <= itemId < WgSize(t) && 0 <= i < t.itemCols && 0 <= j < t.itemRows
    ensures Interleave(itemId % t.wgRows, j, ap, t.wgRows) == r
    ensures Interleave(itemId / t.wgRows, i, bp, t.wgCols) == c
  {
    InterleaveOnto(r, ap, t.wgRows, t.itemRows);
    InterleaveOnto(c, bp, t.wgCols, t.itemCols);
    var a, b := DeinterleaveItem(r, ap, t.wgRows), DeinterleaveItem(c, bp, t.wgCols);
    j := DeinterleaveSlot(r, ap, t.wgRows);
    i := DeinterleaveSlot(c, bp, t.wgCols);
    itemId := b * t.wgRows + a;
    DivModUnique(itemId, t.wgRows, b, a);
    MulNonNeg(b, t.wgRows);
    MulStrictLeft(b, t.wgCols, t.wgRows);
  }

  /* -------------------------- batch coverage -------------------------- */

  /** Batch `b` is one the grid-stride loop of a group starting at
      `wgBatch` visits: `wgBatch + t * stride` for some `t >= 0`, below
      the batch size. */
  predicate Processed(wgBatch: int, stride: int, batchSize: int, b: int)
  {
    stride >= 1 && wgBatch <= b < batchSize && (b - wgBatch) % stride == 0
  }

  /** When the launch holds `stride` clusters, the group whose batch start
      is `b % stride` is the only one that visits batch `b`. */
  lemma BatchOwner(wgBatch: int, stride: int, batchSize: int, b: int)
    requires stride >= 1 && 0 <= wgBatch < stride
    ensures Processed(wgBatch, stride, batchSize, b) <==> 0 <= b < batchSize && b % stride == wgBatch
  {
    if Processed(wgBatch, stride, batchSize, b) {
      var t := (b - wgBatch) / stride;
      assert b == t * stride + wgBatch;
      DivModUnique(b, stride, t, wgBatch);
    }
    if 0 <= b < batchSize && b % stride == wgBatch {
      var t := b / stride;
      assert b - wgBatch == t * stride;
      DivModUnique(b - wgBatch, stride, t, 0);
    }
  }

  /* ----------------------- exactly-once ownership ---------------------- */

  /** Work item `itemId` of group `group` writes element `(r, c)` of batch
      `b` through its register `reg_res[i * item_rows + j]`. */
  predicate Writes(g: Gemm, computeUnits: int, group: int, itemId: int, i: int, j: int, b: int, r: int, c: int)
    requires WellFormed(g) && WorkgroupCluster(g) > 0 && computeUnits >= 1
    requires group >= 0 && itemId >= 0
  {
    var p := Locate(g, NumGroups(g, computeUnits), group, itemId);
    Processed(p.wgBatch, p.batchStride, g.batchSize, b) &&
    SlotRow(g, p, j) == r && SlotCol(g, p, i) == c &&
    InBounds(M(g), N(g), r, c)
  }

  /** The launch's batch stride is the number of clusters launched. */
  lemma BatchStrideOfLaunch(g: Gemm, computeUnits: int, group: int, itemId: int)
    requires WellFormed(g) && WorkgroupCluster(g) > 0 && computeUnits >= 1
    requires 0 <= group < NumGroups(g, computeUnits) && itemId >= 0
    ensures var p := Locate(g, NumGroups(g, computeUnits), group, itemId);
      p.batchStride == NumWorkgroupCluster(g, computeUnits) && 0 <= p.wgBatch < p.batchStride
  {
    var cluster, num := WorkgroupCluster(g), NumWorkgroupCluster(g, computeUnits);
    var p := Locate(g, NumGroups(g, computeUnits), group, itemId);
    DivModUnique(cluster * num, cluster, num, 0);
    assert num * cluster == cluster * num;
    QuotientBelow(group, cluster, num);
  }

  /** Everything but the item's own position is shared by the whole group. */
  lemma GroupShared(g: Gemm, groupRange: int, group: int, item1: int, item2: int)
    requires WellFormed(g) && WorkgroupCluster(g) > 0
    requires groupRange >= 0 && group >= 0 && item1 >= 0 && item2 >= 0
    ensures var p1, p2 := Locate(g, groupRange, group, item1), Locate(g, groupRange, group, item2);
      p1.wgBatch == p2.wgBatch && p1.batchStride == p2.batchStride &&
      p1.tileRow == p2.tileRow && p1.tileCol == p2.tileCol &&
      p1.wgRow == p2.wgRow && p1.wgCol == p2.wgCol &&
      p1.ap == p2.ap && p1.bp == p2.bp
  {
  }

  /** Two groups with the same batch start and the same tile are one group. */
  lemma GroupFromParts(g: Gemm, groupRange: int, group1: int, item1: int, group2: int, item2: int)
    requires WellFormed(g) && WorkgroupCluster(g) > 0
    requires groupRange >= 0 && group1 >= 0 && item1 >= 0 && group2 >= 0 && item2 >= 0
    requires var p1, p2 := Locate(g, groupRange, group1, item1), Locate(g, groupRange, group2, item2);
      p1.wgBatch == p2.wgBatch && p1.tileRow == p2.tileRow && p1.tileCol == p2.tileCol
    ensures group1 == group2
  {
  }

  /** The tile position `(tile_row, tile_col)` of a group and the tile-local
      coordinates of an item's slot are the quotient and remainder of the
      slot's element by the tile size. */
  lemma ElementTile(g: Gemm, groupRange: int, group: int, itemId: int, i: int, j: int)
    requires WellFormed(g) && WorkgroupCluster(g) > 0
    requires groupRange >= 0 && group >= 0
    requires 0 <= itemId < WgSize(g.tile) && 0 <= i < g.tile.itemCols && 0 <= j < g.tile.itemRows
    ensures var p := Locate(g, groupRange, group, itemId);
      SlotRow(g, p, j) / BlockRows(g.tile) == p.tileRow &&
      SlotRow(g, p, j) % BlockRows(g.tile) == Interleave(itemId % g.tile.wgRows, j, p.ap, g.tile.wgRows) &&
      SlotCol(g, p, i) / BlockCols(g.tile) == p.tileCol &&
      SlotCol(g, p, i) % BlockCols(g.tile) == Interleave(itemId / g.tile.wgRows, i, p.bp, g.tile.wgCols)
  {
    var p := Locate(g, groupRange, group, itemId);
    var t := g.tile;
    SlotInTile(g, groupRange, group, itemId, i, j);
    TileSlotRange(t, p.ap, p.bp, itemId, i, j);
    DivModUnique(SlotRow(g, p, j), BlockRows(t), p.tileRow, Interleave(itemId % t.wgRows, j, p.ap, t.wgRows));
    DivModUnique(SlotCol(g, p, i), BlockCols(t), p.tileCol, Interleave(itemId / t.wgRows, i, p.bp, t.wgCols));
  }

  /** The group that owns tile `(tileRow, tileCol)` for the batches
      congruent to `b`. */
  lemma TileOwner(g: Gemm, computeUnits: int, b: int, tileRow: int, tileCol: int) returns (group: int)
    requires WellFormed(g) && WorkgroupCluster(g) > 0 && computeUnits >= 1
    requires b >= 0 && 0 <= tileRow < BlocksPerRow(g) && 0 <= tileCol < BlocksPerCol(g)
    ensures 0 <= group < NumGroups(g, computeUnits)
    ensures var p := Locate(g, NumGroups(g, computeUnits), group, 0);
      p.wgBatch == b % NumWorkgroupCluster(g, computeUnits) && p.tileRow == tileRow && p.tileCol == tileCol
  {
    var cluster, num := WorkgroupCluster(g), NumWorkgroupCluster(g, computeUnits);
    NumWorkgroupClusterBounds(g, computeUnits);
    TileGrid(g, 0, tileRow, tileCol);
    var wgId := tileCol * BlocksPerRow(g) + tileRow;
    group := (b % num) * cluster + wgId;
    DivModUnique(group, cluster, b % num, wgId);
    MulNonNeg(b % num, cluster);
    MulStrictLeft(b % num, num, cluster);
    assert num * cluster == NumGroups(g, computeUnits);
  }

  /** Every element of every batch of C is written by some work item of
      the launch ... */
  lemma OwnerExists(g: Gemm, computeUnits: int, b: int, r: int, c: int) returns (group: int, itemId: int, i: int, j: int)
    requires WellFormed(g) && WorkgroupCluster(g) > 0 && computeUnits >= 1
    requires 0 <= b < g.batchSize && 0 <= r < M(g) && 0 <= c < N(g)
    ensures 0 <= group < NumGroups(g, computeUnits) && 0 <= itemId < WgSize(g.tile)
    ensures 0 <= i < g.tile.itemCols && 0 <= j < g.tile.itemRows
    ensures Writes(g, computeUnits, group, itemId, i, j, b, r, c)
  {
    var t := g.tile;
    var range := NumGroups(g, computeUnits);
    var br, bc := BlockRows(t), BlockCols(t);
    WorkgroupClusterIsTileCount(g);
    QuotientBelow(r, br, BlocksPerRow(g));
    QuotientBelow(c, bc, BlocksPerCol(g));
    group := TileOwner(g, computeUnits, b, r / br, c / bc);
    var p0 := Locate(g, range, group, 0);
    itemId, i, j := TileSlotOnto(t, p0.ap, p0.bp, r % br, c % bc);
    var p := Locate(g, range, group, itemId);
    GroupShared(g, range, group, 0, itemId);
    ElementTile(g, range, group, itemId, i, j);
    SameQuotientRemainder(SlotRow(g, p, j), r, br);
    SameQuotientRemainder(SlotCol(g, p, i), c, bc);
    BatchStrideOfLaunch(g, computeUnits, group, itemId);
    BatchOwner(p.wgBatch, p.batchStride, g.batchSize, b);
  }

  /** Flat index of register `reg_res[i * item_rows + j]`. */
  lemma SlotIndex(t: Tile, i: int, j: int) returns (s: int)
    requires ValidTile(t) && 0 <= i < t.itemCols && 0 <= j < t.itemRows
    ensures s == i * t.itemRows + j
    ensures 0 <= s < RegCount(t) && s / t.itemRows == i && s % t.itemRows == j
  {
    s := i * t.itemRows + j;
    DivModUnique(s, t.itemRows, i, j);
    MulNonNeg(i, t.itemRows);
    MulStrictLeft(i, t.itemCols, t.itemRows);
    assert t.itemCols * t.itemRows == RegCount(t);
  }

  /** ... and by only one: a second (group, item, register) writing the
      same element of the same batch is the same one. */
  lemma OwnerUnique(g: Gemm, computeUnits: int, b: int, r: int, c: int,
                    group1: int, item1: int, i1: int, j1: int, group2: int, item2: int, i2: int, j2: int)
    requires WellFormed(g) && WorkgroupCluster(g) > 0 && computeUnits >= 1
    requires 0 <= group1 < NumGroups(g, computeUnits) && 0 <= item1 < WgSize(g.tile)
    requires 0 <= i1 < g.tile.itemCols && 0 <= j1 < g.tile.itemRows
    requires 0 <= group2 < NumGroups(g, computeUnits) && 0 <= item2 < WgSize(g.tile)
    requires 0 <= i2 < g.tile.itemCols && 0 <= j2 < g.tile.itemRows
    requires Writes(g, computeUnits, group1, item1, i1, j1, b, r, c)
    requires Writes(g, computeUnits, group2, item2, i2, j2, b, r, c)
    ensures group1 == group2 && item1 == item2 && i1 == i2 && j1 == j2
  {
    var t := g.tile;
    var range := NumGroups(g, computeUnits);
    var p1, p2 := Locate(g, range, group1, item1), Locate(g, range, group2, item2);
    BatchStrideOfLaunch(g, computeUnits, group1, item1);
    BatchStrideOfLaunch(g, computeUnits, group2, item2);
    BatchOwner(p1.wgBatch, p1.batchStride, g.batchSize, b);
    BatchOwner(p2.wgBatch, p2.batchStride, g.batchSize, b);
    ElementTile(g, range, group1, item1, i1, j1);
    ElementTile(g, range, group2, item2, i2, j2);
    GroupFromParts(g, range, group1, item1, group2, item2);
    GroupShared(g, range, group1, item1, item2);
    TileSlotInjective(t, p1.ap, p1.bp, item1, i1, j1, item2, i2, j2);
  }
}

=== FILE: meta.dfy ===
/** Small compile-time and integer helpers of the BLAS library: layout tags,
    `Choose`, `is_power_of_2`, `get_power_of_two`, `roundUp`,
    `concatenate_vectors` and the message of `unsupported_exception`.

    Bitwise operators act on two's-complement integers of unbounded width:
    bit `i` of `x` is `(x / 2^i) % 2` with Dafny's floor division, so `>>`
    on a negative value is the arithmetic shift. */
module Meta {
  import opened Arith

  // ---------------------------------------------------------------------------
  // Layout tags and Choose

  /** `row_major` and `col_major`, the two layout tag types. */
  datatype Layout = RowMajor | ColMajor

  /** `layout::is_col_major()`. */
  function IsColMajor(l: Layout): (b: bool)
    ensures b <==> l == ColMajor
    ensures !b <==> l == RowMajor
  {
    match l
    case RowMajor => false
    case ColMajor => true
  }

  /** `Choose<cond, T, one, two>::type`: the first value when the condition
      holds and the second otherwise. */
  function Choose<T>(cond: bool, one: T, two: T): (r: T)
    ensures cond ==> r == one
    ensures !cond ==> r == two
  {
    if cond then one else two
  }

  // ---------------------------------------------------------------------------
  // Powers of two and bits

  function Pow2(e: nat): (r: nat)
    ensures r >= 1
  {
    if e == 0 then 1 else 2 * Pow2(e - 1)
  }

  lemma {:induction false} Pow2Add(a: nat, b: nat)
    ensures Pow2(a + b) == Pow2(a) * Pow2(b)
    decreases b
  {
    if b > 0 {
      Pow2Add(a, b - 1);
      assert Pow2(a + b) == 2 * Pow2(a + b - 1);
      assert Pow2(b) == 2 * Pow2(b - 1);
    }
  }

  lemma {:induction false} Pow2Mono(a: nat, b: nat)
    requires a <= b
    ensures Pow2(a) <= Pow2(b)
    decreases b - a
  {
    if a < b {
      Pow2Mono(a, b - 1);
    }
  }

  lemma Pow2Strict(a: nat, b: nat)
    requires a < b
    ensures 2 * Pow2(a) <= Pow2(b)
  {
    Pow2Mono(a + 1, b);
  }

  /** The exponent of the highest power of two not above `x`. */
  function Log2(x: int): (e: nat)
    requires x >= 1
    ensures Pow2(e) <= x < 2 * Pow2(e)
  {
    if x == 1 then 0 else 1 + Log2(x / 2)
  }

  lemma Log2OfPow2(e: nat)
    ensures Log2(Pow2(e)) == e
  {
    var l := Log2(Pow2(e));
    if l < e {
      Pow2Strict(l, e);
    } else if e < l {
      Pow2Strict(e, l);
    }
  }

  /** Bit `i` of the two's-complement representation of `x`. */
  predicate Bit(x: int, i: nat)
  {
    (x / Pow2(i)) % 2 == 1
  }

  /** Floor division composes: `(x / a) / b == x / (a * b)`. */
  lemma DivDiv(x: int, a: int, b: int)
    requires a > 0 && b > 0
    ensures (x / a) / b == x / (a * b)
  {
    var q, r := x / a, x % a;
    var q2, r2 := q / b, q % b;
    assert x == (q2 * b + r2) * a + r;
    assert x == q2 * (a * b) + (r2 * a + r);
    MulMonoLeft(r2, b - 1, a);
    assert (b - 1) * a == a * b - a;
    MulNonNeg(r2, a);
    DivModUnique(x, a * b, q2, r2 * a + r);
  }

  lemma BitZero(x: int)
    ensures Bit(x, 0) <==> x % 2 == 1
  {
  }

  lemma BitSucc(x: int, i: nat)
    ensures Bit(x, i + 1) <==> Bit(x / 2, i)
  {
    DivDiv(x, 2, Pow2(i));
  }

  /** `x >> s`, the arithmetic right shift. */
  function ShiftRight(x: int, s: nat): int
  {
    x / Pow2(s)
  }

  lemma BitShiftRight(x: int, s: nat, i: nat)
    ensures Bit(ShiftRight(x, s), i) <==> Bit(x, i + s)
  {
    DivDiv(x, Pow2(s), Pow2(i));
    Pow2Add(s, i);
  }

  lemma BitsOfZero(i: nat)
    ensures !Bit(0, i)
  {
  }

  lemma BitsOfMinusOne(i: nat)
    ensures Bit(-1, i)
  {
    DivModUnique(-1, Pow2(i), -1, Pow2(i) - 1);
  }

  /** Measure for the bitwise recursions: 0 and -1 are the fixed points of `/ 2`. */
  function Magnitude(a: int): nat
  {
    if a == 0 || a == -1 then 0 else if a > 0 then a else -a
  }

  lemma HalfShrinks(a: int)
    ensures Magnitude(a / 2) <= Magnitude(a)
    ensures a != 0 && a != -1 ==> Magnitude(a / 2) < Magnitude(a)
  {
  }

  /** C++ `a | b`. */
  function Or(a: int, b: int): int
    decreases Magnitude(a) + Magnitude(b)
  {
    if (a == 0 || a == -1) && (b == 0 || b == -1) then
      (if a == -1 || b == -1 then -1 else 0)
    else
      HalfShrinks(a);
      HalfShrinks(b);
      2 * Or(a / 2, b / 2) + (if a % 2 == 1 || b % 2 == 1 then 1 else 0)
  }

  /** C++ `a & b`. */
  function And(a: int, b: int): int
    decreases Magnitude(a) + Magnitude(b)
  {
    if (a == 0 || a == -1) && (b == 0 || b == -1) then
      (if a == -1 && b == -1 then -1 else 0)
    else
      HalfShrinks(a);
      HalfShrinks(b);
      2 * And(a / 2, b / 2) + (if a % 2 == 1 && b % 2 == 1 then 1 else 0)
  }

  lemma {:induction false} BitOr(a: int, b: int, i: nat)
    ensures Bit(Or(a, b), i) <==> Bit(a, i) || Bit(b, i)
    decreases i
  {
    if (a == 0 || a == -1) && (b == 0 || b == -1) {
      BitsOfZero(i);
      BitsOfMinusOne(i);
    } else {
      var o := Or(a / 2, b / 2);
      var low := if a % 2 == 1 || b % 2 == 1 then 1 else 0;
      assert Or(a, b) == 2 * o + low;
      DivModUnique(2 * o + low, 2, o, low);
      if i > 0 {
        BitSucc(Or(a, b), i - 1);
        BitSucc(a, i - 1);
        BitSucc(b, i - 1);
        BitOr(a / 2, b / 2, i - 1);
      }
    }
  }

  lemma {:induction false} AndSelf(a: int)
    ensures And(a, a) == a
    decreases Magnitude(a)
  {
    if a != 0 && a != -1 {
      HalfShrinks(a);
      AndSelf(a / 2);
    }
  }

  /** Two integers with the same bits are equal. */
  lemma {:induction false} BitsDetermine(a: int, b: int)
    requires forall i: nat :: Bit(a, i) == Bit(b, i)
    ensures a == b
    decreases Magnitude(a) + Magnitude(b)
  {
    assert Bit(a, 0) == Bit(b, 0);
    if (a == 0 || a == -1) && (b == 0 || b == -1) {
    } else {
      forall i: nat
        ensures Bit(a / 2, i) == Bit(b / 2, i)
      {
        BitSucc(a, i);
        BitSucc(b, i);
        assert Bit(a, i + 1) == Bit(b, i + 1);
      }
      HalfShrinks(a);
      HalfShrinks(b);
      BitsDetermine(a / 2, b / 2);
    }
  }

  /** `2^n - 1` has exactly the bits below `n` set. */
  lemma {:induction false} BitsOfMask(n: nat, i: nat)
    ensures Bit(Pow2(n) - 1, i) <==> i < n
    decreases n
  {
    if n == 0 {
      BitsOfZero(i);
    } else {
      var m := Pow2(n - 1) - 1;
      assert Pow2(n) - 1 == 2 * m + 1;
      DivModUnique(2 * m + 1, 2, m, 1);
      if i > 0 {
        BitSucc(Pow2(n) - 1, i - 1);
        BitsOfMask(n - 1, i - 1);
      }
    }
  }

  // ---------------------------------------------------------------------------
  // is_power_of_2

  /** `is_power_of_2(ind)`: `ind > 0 && !(ind & (ind - 1))`. */
  predicate IsPowerOf2(x: int)
  {
    x > 0 && And(x, x - 1) == 0
  }

  lemma {:induction false} PowerOf2Exact(x: int)
    requires x >= 1
    ensures IsPowerOf2(x) <==> x == Pow2(Log2(x))
    decreases x
  {
    if x == 1 {
      assert And(1, 0) == 2 * And(0, 0) + 0;
    } else {
      var y := x / 2;
      Log2Halves(x);
      if x % 2 == 0 {
        AndEvenStep(x);
        PowerOf2Exact(y);
      } else {
        AndOddStep(x);
        AndSelf(y);
      }
    }
  }

  lemma Log2Halves(x: int)
    requires x >= 2
    ensures Log2(x) == 1 + Log2(x / 2)
    ensures Pow2(Log2(x)) == 2 * Pow2(Log2(x / 2))
  {
  }

  /** Clearing the lowest set bit of an even number works on its half. */
  lemma AndEvenStep(x: int)
    requires x >= 2 && x % 2 == 0
    ensures And(x, x - 1) == 2 * And(x / 2, x / 2 - 1)
  {
    assert (x - 1) / 2 == x / 2 - 1 && (x - 1) % 2 == 1;
  }

  /** An odd number shares all its bits but the lowest with its predecessor. */
  lemma AndOddStep(x: int)
    requires x >= 3 && x % 2 == 1
    ensures And(x, x - 1) == 2 * And(x / 2, x / 2)
  {
    assert (x - 1) / 2 == x / 2 && (x - 1) % 2 == 0;
  }

  /** `is_power_of_2(x)` holds exactly for the positive powers of two. */
  lemma IsPowerOf2Iff(x: int)
    ensures IsPowerOf2(x) <==> exists e: nat :: x == Pow2(e)
  {
    if IsPowerOf2(x) {
      PowerOf2Exact(x);
    }
    if exists e: nat :: x == Pow2(e) {
      var e: nat :| x == Pow2(e);
      Log2OfPow2(e);
      PowerOf2Exact(x);
    }
  }

  // ---------------------------------------------------------------------------
  // get_power_of_two

  const Int64Min: int := -0x8000_0000_0000_0000
  const Int64Max: int := 0x7fff_ffff_ffff_ffff

  lemma Pow2Of16()
    ensures Pow2(16) == 0x1_0000
  {
    assert Pow2(8) == 256;
    Pow2Add(8, 8);
  }

  lemma Pow2Of32()
    ensures Pow2(32) == 0x1_0000_0000
  {
    Pow2Of16();
    Pow2Add(16, 16);
  }

  lemma Pow2Of63()
    ensures Pow2(63) == 0x8000_0000_0000_0000
  {
    Pow2Of32();
    assert 2 * Pow2(31) == 0x1_0000_0000;
    Pow2Add(32, 31);
  }

  /** One step `w |= (w >> s)`. */
  function SmearStep(w: int, s: nat): int
  {
    Or(w, ShiftRight(w, s))
  }

  /** The shift-or steps `t, t + 1, ..., 5` of the 64-bit build, step `t`
      shifting by `2^t`: `>> 1`, `>> 2`, `>> 4`, `>> 8`, `>> 16`, `>> 32`. */
  function SmearFrom(w: int, t: nat): int
    requires t <= 6
    decreases 6 - t
  {
    if t == 6 then w else SmearFrom(SmearStep(w, Pow2(t)), t + 1)
  }

  /** All six steps: afterwards every bit at or below the highest set bit is set. */
  function Smear(w: int): int
  {
    SmearFrom(w, 0)
  }

  /** `get_power_of_two(wGSize, rounUp)` on a 64-bit index type. The callers'
      values must be representable: decrementing before the round-up must not
      underflow, and the rounded-up power must not exceed the type. */
  function GetPowerOfTwo(w: int, roundUp: bool): int
    requires Int64Min <= w <= Int64Max
    requires roundUp ==> Int64Min < w <= 0x4000_0000_0000_0000
  {
    var v := if roundUp then w - 1 else w;
    var s := Smear(v);
    if !roundUp then s - ShiftRight(s, 1) else s + 1
  }

  /** The bits above `p` are clear and the `width` bits ending at `p` are set:
      the invariant of the smearing steps for a value whose highest set bit is `p`. */
  ghost predicate FilledBelow(x: int, p: nat, width: nat)
  {
    && (forall i: nat :: i > p ==> !Bit(x, i))
    && (forall i: nat :: i <= p && i + width > p ==> Bit(x, i))
  }

  lemma SmearStepPositive(x: int, p: nat, width: nat)
    requires width > 0 && FilledBelow(x, p, width)
    ensures FilledBelow(SmearStep(x, width), p, 2 * width)
  {
    var y := SmearStep(x, width);
    forall i: nat
      ensures Bit(y, i) <==> Bit(x, i) || Bit(x, i + width)
    {
      BitOr(x, ShiftRight(x, width), i);
      BitShiftRight(x, width, i);
    }
    forall i: nat | i > p
      ensures !Bit(y, i)
    {
      assert !Bit(x, i) && !Bit(x, i + width);
    }
    forall i: nat | i <= p && i + 2 * width > p
      ensures Bit(y, i)
    {
      if i + width <= p {
        assert Bit(x, i + width);
      }
    }
  }

  lemma {:induction false} SmearFromPositive(x: int, p: nat, t: nat)
    requires t <= 6 && FilledBelow(x, p, Pow2(t))
    ensures FilledBelow(SmearFrom(x, t), p, 64)
    decreases 6 - t
  {
    if t == 6 {
      assert Pow2(6) == 64;
    } else {
      SmearStepPositive(x, p, Pow2(t));
      assert Pow2(t + 1) == 2 * Pow2(t);
      SmearFromPositive(SmearStep(x, Pow2(t)), p, t + 1);
    }
  }

  /** The highest set bit of a positive value is at `Log2`. */
  lemma HighestBit(w: int)
    requires w >= 1
    ensures FilledBelow(w, Log2(w), 1)
  {
    var p := Log2(w);
    assert Bit(w, p) by {
      DivModUnique(w, Pow2(p), 1, w - Pow2(p));
    }
    forall i: nat | i > p
      ensures !Bit(w, i)
    {
      Pow2Strict(p, i);
      DivModUnique(w, Pow2(i), 0, w);
    }
  }

  /** A positive 64-bit value has its highest bit below 63. */
  lemma Log2Below63(w: int)
    requires 1 <= w <= Int64Max
    ensures Log2(w) < 63
  {
    var p := Log2(w);
    Pow2Of63();
    if p >= 63 {
      Pow2Mono(63, p);
    }
  }

  /** The six steps fill every bit below the highest set bit of `w`. */
  lemma SmearFilled(w: int)
    requires w >= 1
    ensures FilledBelow(Smear(w), Log2(w), 64)
  {
    HighestBit(w);
    assert Pow2(0) == 1;
    SmearFromPositive(w, Log2(w), 0);
  }

  /** Bit `i` of a value with exactly the bits `0..p` set agrees with the mask. */
  lemma FilledBit(s: int, p: nat, i: nat)
    requires p < 64 && FilledBelow(s, p, 64)
    ensures Bit(s, i) == Bit(Pow2(p + 1) - 1, i)
  {
    BitsOfMask(p + 1, i);
    if i <= p {
      assert i + 64 > p;
    }
  }

  /** A value with exactly the bits `0..p` set is `2^(p+1) - 1`. */
  lemma FilledIsMask(s: int, p: nat)
    requires p < 64 && FilledBelow(s, p, 64)
    ensures s == 2 * Pow2(p) - 1
  {
    forall i: nat
      ensures Bit(s, i) == Bit(Pow2(p + 1) - 1, i)
    {
      FilledBit(s, p, i);
    }
    BitsDetermine(s, Pow2(p + 1) - 1);
  }

  lemma SmearPositive(w: int)
    requires 1 <= w <= Int64Max
    ensures Smear(w) == 2 * Pow2(Log2(w)) - 1
  {
    Log2Below63(w);
    SmearFilled(w);
    FilledIsMask(Smear(w), Log2(w));
  }

  /** All bits from `lo` upward are set: true of every negative 64-bit value
      for `lo == 63`. */
  ghost predicate SetFrom(x: int, lo: int)
  {
    forall i: nat :: i >= lo ==> Bit(x, i)
  }

  lemma SmearStepNegative(x: int, lo: int, width: nat)
    requires width > 0 && SetFrom(x, lo)
    ensures SetFrom(SmearStep(x, width), lo - width)
  {
    forall i: nat | i >= lo - width
      ensures Bit(SmearStep(x, width), i)
    {
      BitOr(x, ShiftRight(x, width), i);
      BitShiftRight(x, width, i);
      if i < lo {
        assert Bit(x, i + width);
      }
    }
  }

  lemma {:induction false} SmearFromNegative(x: int, t: nat)
    requires t <= 6 && SetFrom(x, 64 - Pow2(t))
    ensures SetFrom(SmearFrom(x, t), 0)
    decreases 6 - t
  {
    if t == 6 {
      assert Pow2(6) == 64;
    } else {
      SmearStepNegative(x, 64 - Pow2(t), Pow2(t));
      assert Pow2(t + 1) == 2 * Pow2(t);
      SmearFromNegative(SmearStep(x, Pow2(t)), t + 1);
    }
  }

  lemma SmearNegative(w: int)
    requires Int64Min <= w < 0
    ensures Smear(w) == -1
  {
    Pow2Of63();
    forall i: nat | i >= 63
      ensures Bit(w, i)
    {
      Pow2Mono(63, i);
      DivModUnique(w, Pow2(i), -1, w + Pow2(i));
    }
    SmearFromNegative(w, 0);
    var s := Smear(w);
    forall i: nat
      ensures Bit(s, i) == Bit(-1, i)
    {
      BitsOfMinusOne(i);
    }
    BitsDetermine(s, -1);
  }

  lemma {:induction false} SmearFromZero(t: nat)
    requires t <= 6
    ensures SmearFrom(0, t) == 0
    decreases 6 - t
  {
    if t < 6 {
      assert ShiftRight(0, Pow2(t)) == 0;
      assert Or(0, 0) == 0;
      SmearFromZero(t + 1);
    }
  }

  /** Rounding up yields the least power of two not below `w`. */
  lemma GetPowerOfTwoUp(w: int)
    requires 1 <= w <= 0x4000_0000_0000_0000
    ensures IsPowerOf2(GetPowerOfTwo(w, true))
    ensures GetPowerOfTwo(w, true) >= w
    ensures forall e: nat :: Pow2(e) >= w ==> Pow2(e) >= GetPowerOfTwo(w, true)
  {
    var e0 := RoundUpExponent(w);
    RoundUpValue(w);
    Pow2IsPowerOf2(e0);
    LeastPowerAtLeast(w, e0);
  }

  lemma RoundUpIsSmear(w: int)
    requires 1 <= w <= 0x4000_0000_0000_0000
    ensures GetPowerOfTwo(w, true) == Smear(w - 1) + 1
  {
  }

  lemma SmearOfZero(v: int)
    requires v == 0
    ensures Smear(v) == 0
  {
    SmearFromZero(0);
  }

  /** Rounding up sets the bit just above the highest bit of `w - 1`. */
  lemma RoundUpValue(w: int)
    requires 1 <= w <= 0x4000_0000_0000_0000
    ensures GetPowerOfTwo(w, true) == if w == 1 then 1 else 2 * Pow2(Log2(w - 1))
  {
    if w == 1 {
      RoundUpOne(w);
    } else {
      RoundUpMany(w);
    }
  }

  lemma RoundUpOne(w: int)
    requires w == 1
    ensures GetPowerOfTwo(w, true) == 1
  {
    RoundUpIsSmear(w);
    SmearOfZero(w - 1);
  }

  lemma RoundUpMany(w: int)
    requires 2 <= w <= 0x4000_0000_0000_0000
    ensures GetPowerOfTwo(w, true) == 2 * Pow2(Log2(w - 1))
  {
    var v := w - 1;
    var s := Smear(v);
    RoundUpIsSmear(w);
    SmearPositive(v);
    assert GetPowerOfTwo(w, true) == s + 1;
  }

  /** The exponent reached by rounding up: `2^(e-1) < w <= 2^e`. */
  lemma RoundUpExponent(w: int) returns (e: nat)
    requires 1 <= w
    ensures Pow2(e) == if w == 1 then 1 else 2 * Pow2(Log2(w - 1))
    ensures w <= Pow2(e)
    ensures e > 0 ==> Pow2(e - 1) < w
  {
    if w == 1 {
      e := 0;
    } else {
      var p := Log2(w - 1);
      e := p + 1;
      assert Pow2(e) == 2 * Pow2(p);
    }
  }

  /** `2^e0` with `2^(e0-1) < w <= 2^e0` is the least power of two not below `w`. */
  lemma LeastPowerAtLeast(w: int, e0: nat)
    requires w <= Pow2(e0) && (e0 > 0 ==> Pow2(e0 - 1) < w)
    ensures forall e: nat :: Pow2(e) >= w ==> Pow2(e) >= Pow2(e0)
  {
    forall e: nat | Pow2(e) >= w
      ensures Pow2(e) >= Pow2(e0)
    {
      if e < e0 {
        Pow2Mono(e, e0 - 1);
      } else {
        Pow2Mono(e0, e);
      }
    }
  }

  /** `2^p` with `2^p <= w < 2^(p+1)` is the greatest power of two not above `w`. */
  lemma GreatestPowerAtMost(w: int, p: nat)
    requires Pow2(p) <= w < 2 * Pow2(p)
    ensures forall e: nat :: Pow2(e) <= w ==> Pow2(e) <= Pow2(p)
  {
    forall e: nat | Pow2(e) <= w
      ensures Pow2(e) <= Pow2(p)
    {
      if e > p {
        Pow2Strict(p, e);
      } else {
        Pow2Mono(e, p);
      }
    }
  }

  lemma Pow2IsPowerOf2(e: nat)
    ensures IsPowerOf2(Pow2(e))
  {
    Log2OfPow2(e);
    PowerOf2Exact(Pow2(e));
  }

  /** Rounding down clears every bit below the highest one. */
  lemma RoundDownValue(w: int)
    requires 1 <= w <= Int64Max
    ensures GetPowerOfTwo(w, false) == Pow2(Log2(w))
  {
    var p := Log2(w);
    SmearPositive(w);
    DivModUnique(2 * Pow2(p) - 1, 2, Pow2(p) - 1, 1);
  }

  /** Rounding down yields the greatest power of two not above `w`. */
  lemma GetPowerOfTwoDown(w: int)
    requires 1 <= w <= Int64Max
    ensures IsPowerOf2(GetPowerOfTwo(w, false))
    ensures GetPowerOfTwo(w, false) <= w
    ensures forall e: nat :: Pow2(e) <= w ==> Pow2(e) <= GetPowerOfTwo(w, false)
  {
    RoundDownValue(w);
    Pow2IsPowerOf2(Log2(w));
    GreatestPowerAtMost(w, Log2(w));
  }

  /** Non-positive sizes give zero in both directions; rounding up excludes
      the least 64-bit value, where `--wGSize` overflows. */
  lemma GetPowerOfTwoNonPositive(w: int, roundUp: bool)
    requires Int64Min <= w <= 0
    requires roundUp ==> Int64Min < w
    ensures GetPowerOfTwo(w, roundUp) == 0
  {
    if roundUp || w < 0 {
      SmearNegative(if roundUp then w - 1 else w);
      assert ShiftRight(-1, 1) == -1;
    } else {
      SmearFromZero(0);
    }
  }

  // ---------------------------------------------------------------------------
  // roundUp

  /** C++ `/` for any non-zero divisor: truncation toward zero. */
  function TruncDivSigned(a: int, d: int): int
    requires d != 0
  {
    if d > 0 then TruncDiv(a, d) else -TruncDiv(a, -d)
  }

  /** `roundUp(x, y)`: `((x + y - 1) / y) * y`. */
  function RoundUp(x: int, y: int): int
    requires y != 0
  {
    TruncDivSigned(x + y - 1, y) * y
  }

  /** For a non-negative size and a positive granule, `roundUp` is the least
      multiple of the granule not below the size. */
  lemma RoundUpSpec(x: int, y: int)
    requires x >= 0 && y > 0
    ensures RoundUp(x, y) % y == 0
    ensures x <= RoundUp(x, y) < x + y
  {
    var q := (x + y - 1) / y;
    assert RoundUp(x, y) == q * y;
    DivModUnique(q * y, y, q, 0);
  }

  lemma RoundUpIdempotent(x: int, y: int)
    requires x >= 0 && y > 0
    ensures RoundUp(RoundUp(x, y), y) == RoundUp(x, y)
  {
    RoundUpSpec(x, y);
    var r := RoundUp(x, y);
    var q := r / y;
    assert r == q * y;
    DivModUnique(r + y - 1, y, q, y - 1);
  }

  // ---------------------------------------------------------------------------
  // concatenate_vectors

  /** `concatenate_vectors(first, others...)`: the others are appended to the
      first one after another, in argument order. */
  function ConcatenateVectors<T>(first: seq<T>, others: seq<seq<T>>): seq<T>
    decreases |others|
  {
    if |others| == 0 then first else ConcatenateVectors(first + others[0], others[1..])
  }

  /** The flattening of a list of vectors, defined from the right. */
  function Flatten<T>(vs: seq<seq<T>>): seq<T>
    decreases |vs|
  {
    if |vs| == 0 then [] else vs[0] + Flatten(vs[1..])
  }

  function TotalLength<T>(vs: seq<seq<T>>): nat
    decreases |vs|
  {
    if |vs| == 0 then 0 else |vs[0]| + TotalLength(vs[1..])
  }

  lemma {:induction false} FlattenLength<T>(vs: seq<seq<T>>)
    ensures |Flatten(vs)| == TotalLength(vs)
    decreases |vs|
  {
    if |vs| > 0 {
      FlattenLength(vs[1..]);
    }
  }

  /** The result is the first vector followed by every other vector in order. */
  lemma {:induction false} ConcatenateVectorsSpec<T>(first: seq<T>, others: seq<seq<T>>)
    ensures ConcatenateVectors(first, others) == first + Flatten(others)
    ensures |ConcatenateVectors(first, others)| == |first| + TotalLength(others)
    decreases |others|
  {
    if |others| > 0 {
      ConcatenateVectorsSpec(first + others[0], others[1..]);
      assert first + others[0] + Flatten(others[1..]) == first + (others[0] + Flatten(others[1..]));
    }
    FlattenLength(others);
  }

  // ---------------------------------------------------------------------------
  // unsupported_exception

  const NotSupportedSuffix: string := " operator currently not supported on selected device"

  /** `unsupported_exception(operator_name)`: the `runtime_error` base carries
      the bare name; `what()` reports `msg`. */
  datatype UnsupportedException = UnsupportedException(runtimeWhat: string, msg: string)

  function MakeUnsupported(operatorName: string): (e: UnsupportedException)
    ensures e.runtimeWhat == operatorName
    ensures |e.msg| == |operatorName| + |NotSupportedSuffix|
    ensures e.msg[..|operatorName|] == operatorName
    ensures e.msg[|operatorName|..] == NotSupportedSuffix
  {
    UnsupportedException(operatorName, operatorName + NotSupportedSuffix)
  }

  /** `what()`. */
  function What(e: UnsupportedException): string
  {
    e.msg
  }

  /** Recovers the operator name from a message of the above shape. */
  function OperatorNameOf(msg: string): string
    requires |msg| >= |NotSupportedSuffix|
  {
    msg[..|msg| - |NotSupportedSuffix|]
  }

  /** The message names the operator: stripping the fixed suffix gives it back,
      so distinct operators yield distinct messages. */
  lemma UnsupportedMessageRoundTrip(operatorName: string)
    ensures |What(MakeUnsupported(operatorName))| >= |NotSupportedSuffix|
    ensures OperatorNameOf(What(MakeUnsupported(operatorName))) == operatorName
  {
  }
}

=== FILE: views.dfy ===
/** The vector and matrix views: lightweight handles that pair a container
    (modelled as the integer offset of its first element) with sizes, a
    stride or leading dimension, and a compile-time layout. */
module Views {
  import opened Arith
  import opened Meta

  /* ----------------------------- VectorView ----------------------------- */

  /** `data` is the container start, `ptr` the address of logical element 0. */
  datatype VectorView = VectorView(data: int, size: int, stride: int, ptr: int)

  function Abs(x: int): nat
  {
    if x < 0 then -x else x
  }

  /** The address of logical element `i` when the view is walked from its start. */
  function ElementAddress(v: VectorView, i: int): int
  {
    v.ptr + i * v.stride
  }

  /** Builds a vector view; a non-positive stride starts at the far end. */
  function MakeVectorView(data: int, stride: int, size: int): (v: VectorView)
    ensures v.data == data && v.size == size && v.stride == stride
    ensures stride > 0 ==> v.ptr == data
    ensures stride <= 0 ==> v.ptr == data + (size - 1) * Abs(stride)
  {
    VectorView(data, size, stride, if stride > 0 then data else data + (size - 1) * (-stride))
  }

  /** Re-views the container of `opV` with a new stride and size. */
  function ReViewVector(opV: VectorView, stride: int, size: int): (v: VectorView)
    ensures v.data == opV.data && v.size == size && v.stride == stride
    ensures stride > 0 ==> v.ptr == opV.data
    ensures stride <= 0 ==> v.ptr == opV.data + (size - 1) * Abs(stride)
  {
    VectorView(opV.data, size, stride, if stride > 0 then opV.data else opV.data + (size - 1) * (-stride))
  }

  function GetData(v: VectorView): int
  {
    v.data
  }

  /** Returns the container start, not the (possibly shifted) start pointer. */
  function GetPointer(v: VectorView): int
  {
    v.data
  }

  function GetSize(v: VectorView): int
  {
    v.size
  }

  function GetStride(v: VectorView): int
  {
    v.stride
  }

  /** Every logical element of a non-empty view lies in
      `[data, data + (size - 1) * |stride|]`, and the element walked first
      (positive stride) or last (non-positive stride) sits exactly at `data`. */
  lemma VectorFootprint(data: int, stride: int, size: int)
    ensures var v := MakeVectorView(data, stride, size);
      forall i :: 0 <= i < size ==> data <= ElementAddress(v, i) <= data + (size - 1) * Abs(stride)
    ensures var v := MakeVectorView(data, stride, size);
      size >= 1 ==> ElementAddress(v, if stride > 0 then 0 else size - 1) == data
  {
    var v := MakeVectorView(data, stride, size);
    forall i | 0 <= i < size
      ensures data <= ElementAddress(v, i) <= data + (size - 1) * Abs(stride)
    {
      if stride > 0 {
        MulNonNeg(i, stride);
        MulMonoLeft(i, size - 1, stride);
      } else {
        assert ElementAddress(v, i) == data + (size - 1 - i) * (-stride);
        MulNonNeg(size - 1 - i, -stride);
        MulMonoLeft(size - 1 - i, size - 1, -stride);
      }
    }
    if size >= 1 && stride <= 0 {
      assert ElementAddress(v, size - 1) == data + (size - 1) * (-stride) + (size - 1) * stride;
    }
  }

  /** Re-viewing is building a fresh view over the same container. */
  lemma ReViewVectorKeepsData(opV: VectorView, stride: int, size: int)
    ensures ReViewVector(opV, stride, size) == MakeVectorView(GetData(opV), stride, size)
    ensures GetData(ReViewVector(opV, stride, size)) == GetData(opV)
  {
  }

  /** The getters hand back the construction arguments; `get_pointer`
      answers the container start even when the view starts elsewhere. */
  lemma VectorGetters(data: int, stride: int, size: int)
    ensures GetData(MakeVectorView(data, stride, size)) == data
    ensures GetSize(MakeVectorView(data, stride, size)) == size
    ensures GetStride(MakeVectorView(data, stride, size)) == stride
    ensures GetPointer(MakeVectorView(data, stride, size)) == data
    ensures stride < 0 && size >= 2 ==> GetPointer(MakeVectorView(data, stride, size)) != MakeVectorView(data, stride, size).ptr
  {
    if stride < 0 && size >= 2 {
      MulNonNeg(size - 2, -stride);
      assert (size - 1) * (-stride) == (size - 2) * (-stride) + (-stride);
    }
  }

  /* ----------------------------- MatrixView ----------------------------- */

  /** The increment field; the re-viewing constructor never initialises it. */
  datatype Increment = Known(value: int) | Uninitialised

  datatype MatrixView = MatrixView(
    data: int, rows: int, cols: int, ld: int, inc: Increment,
    layout: Layout, hasInc: bool)

  /** The increment precondition of the five-argument constructor. */
  predicate IncrementAllowed(hasInc: bool, inc: int)
  {
    (hasInc && inc != 1) || (!hasInc && inc == 1)
  }

  /** Three-argument constructor: the leading dimension defaults to the
      extent of the contiguous dimension. Only views with an increment may
      be built this way (a compile-time assertion). */
  function MatrixView3(data: int, rows: int, cols: int, layout: Layout, hasInc: bool): (mv: MatrixView)
    requires hasInc
    ensures mv.data == data && mv.rows == rows && mv.cols == cols
    ensures layout == ColMajor ==> mv.ld == rows
    ensures layout == RowMajor ==> mv.ld == cols
    ensures mv.inc == Known(1) && mv.layout == layout && mv.hasInc
  {
    MatrixView(data, rows, cols, if IsColMajor(layout) then rows else cols, Known(1), layout, hasInc)
  }

  /** Four-argument constructor: explicit leading dimension, increment 1. */
  function MatrixView4(data: int, rows: int, cols: int, ld: int, layout: Layout, hasInc: bool): (mv: MatrixView)
    requires hasInc
    ensures mv.data == data && mv.rows == rows && mv.cols == cols && mv.ld == ld
    ensures mv.inc == Known(1) && mv.layout == layout && mv.hasInc
  {
    MatrixView(data, rows, cols, ld, Known(1), layout, hasInc)
  }

  /** Five-argument constructor: explicit leading dimension and increment. */
  function MatrixView5(data: int, rows: int, cols: int, ld: int, inc: int, layout: Layout, hasInc: bool): (mv: MatrixView)
    requires IncrementAllowed(hasInc, inc)
    ensures mv.data == data && mv.rows == rows && mv.cols == cols && mv.ld == ld
    ensures mv.inc == Known(inc) && mv.layout == layout && (inc == 1 <==> !mv.hasInc)
  {
    MatrixView(data, rows, cols, ld, Known(inc), layout, hasInc)
  }

  /** Re-viewing constructor: keeps the container, replaces the sizes and
      leaves the increment uninitialised. */
  function ReViewMatrix(opM: MatrixView, rows: int, cols: int, ld: int): (mv: MatrixView)
    ensures mv.data == opM.data && mv.layout == opM.layout && mv.hasInc == opM.hasInc
    ensures mv.rows == rows && mv.cols == cols && mv.ld == ld
    ensures mv.inc == Uninitialised
  {
    MatrixView(opM.data, rows, cols, ld, Uninitialised, opM.layout, opM.hasInc)
  }

  function MatrixGetData(mv: MatrixView): int
  {
    mv.data
  }

  function MatrixGetPointer(mv: MatrixView): int
  {
    mv.data
  }

  function MatrixGetSize(mv: MatrixView): int
  {
    mv.rows * mv.cols
  }

  function GetSizeRow(mv: MatrixView): int
  {
    mv.rows
  }

  function GetSizeCol(mv: MatrixView): int
  {
    mv.cols
  }

  function GetSizeL(mv: MatrixView): int
  {
    mv.ld
  }

  /** The offset of element `(r, c)` from the container start, by layout. */
  function MatrixOffset(mv: MatrixView, r: int, c: int): int
  {
    if IsColMajor(mv.layout) then r + c * mv.ld else r * mv.ld + c
  }

  /** With the default leading dimension the view is dense: element offsets
      are exactly `[0, get_size())`, each reached by one `(r, c)`. */
  lemma DenseDefaultLayout(data: int, rows: int, cols: int, layout: Layout, r: int, c: int)
    requires rows >= 1 && cols >= 1
    requires 0 <= r < rows && 0 <= c < cols
    ensures var mv := MatrixView3(data, rows, cols, layout, true);
      0 <= MatrixOffset(mv, r, c) < MatrixGetSize(mv)
  {
    var mv := MatrixView3(data, rows, cols, layout, true);
    if IsColMajor(layout) {
      assert MatrixOffset(mv, r, c) == Interleave(r, c, 1, rows);
      InterleaveRange(r, c, 1, rows, cols);
      assert rows * cols == MatrixGetSize(mv);
    } else {
      assert MatrixOffset(mv, r, c) == Interleave(c, r, 1, cols);
      InterleaveRange(c, r, 1, cols, rows);
      assert cols * rows == MatrixGetSize(mv);
    }
  }

  lemma DenseDefaultLayoutInjective(data: int, rows: int, cols: int, layout: Layout,
                                    r1: int, c1: int, r2: int, c2: int)
    requires 0 <= r1 < rows && 0 <= c1 < cols && 0 <= r2 < rows && 0 <= c2 < cols
    requires var mv := MatrixView3(data, rows, cols, layout, true);
      MatrixOffset(mv, r1, c1) == MatrixOffset(mv, r2, c2)
    ensures r1 == r2 && c1 == c2
  {
    var mv := MatrixView3(data, rows, cols, layout, true);
    if IsColMajor(layout) {
      assert MatrixOffset(mv, r1, c1) == Interleave(r1, c1, 1, rows);
      assert MatrixOffset(mv, r2, c2) == Interleave(r2, c2, 1, rows);
      InterleaveInjective(r1, c1, r2, c2, 1, rows);
    } else {
      assert MatrixOffset(mv, r1, c1) == Interleave(c1, r1, 1, cols);
      assert MatrixOffset(mv, r2, c2) == Interleave(c2, r2, 1, cols);
      InterleaveInjective(c1, r1, c2, r2, 1, cols);
    }
  }

  lemma DenseDefaultLayoutOnto(data: int, rows: int, cols: int, layout: Layout, x: int)
    requires rows >= 1 && cols >= 1
    requires 0 <= x < MatrixGetSize(MatrixView3(data, rows, cols, layout, true))
    ensures exists r, c ::
              0 <= r < rows && 0 <= c < cols &&
              MatrixOffset(MatrixView3(data, rows, cols, layout, true), r, c) == x
  {
    var mv := MatrixView3(data, rows, cols, layout, true);
    if IsColMajor(layout) {
      InterleaveOnto(x, 1, rows, cols);
      var r, c := DeinterleaveItem(x, 1, rows), DeinterleaveSlot(x, 1, rows);
      assert MatrixOffset(mv, r, c) == Interleave(r, c, 1, rows);
    } else {
      assert x < cols * rows;
      InterleaveOnto(x, 1, cols, rows);
      var c, r := DeinterleaveItem(x, 1, cols), DeinterleaveSlot(x, 1, cols);
      assert MatrixOffset(mv, r, c) == Interleave(c, r, 1, cols);
    }
  }

  /** The matrix getters return what the constructors stored, and the size
      is the product of the dimensions. */
  lemma MatrixGetters(mv: MatrixView, rows: int, cols: int, ld: int)
    ensures var m2 := ReViewMatrix(mv, rows, cols, ld);
      GetSizeRow(m2) == rows && GetSizeCol(m2) == cols && GetSizeL(m2) == ld &&
      MatrixGetSize(m2) == rows * cols &&
      MatrixGetData(m2) == MatrixGetData(mv) && MatrixGetPointer(m2) == MatrixGetData(mv)
    ensures rows >= 0 && cols >= 0 ==> MatrixGetSize(ReViewMatrix(mv, rows, cols, ld)) >= 0
  {
    if rows >= 0 && cols >= 0 {
      MulNonNeg(rows, cols);
    }
  }

  /** The three- and four-argument constructors give an increment-carrying
      view increment 1, a combination the five-argument constructor's
      precondition rejects. */
  lemma ShortConstructorsIncrement(data: int, rows: int, cols: int, ld: int, layout: Layout)
    ensures MatrixView3(data, rows, cols, layout, true).inc == Known(1)
    ensures MatrixView4(data, rows, cols, ld, layout, true).inc == Known(1)
    ensures !IncrementAllowed(true, 1)
  {
  }
}
